=== FILE: README.md ===
# devstarter-cli project materialisation, modelled in Dafny

This project models the part of devstarter-cli that turns templates, flags and
answers into files on disk:

- **init**: the collector combines the `--type`/`--template` flags, the
  positional name, the defaults and the interactive answers
  (`collectInitContext`). Then `initCommand` either prints the plan (dry run)
  or runs the generator that the context's `structure` names.
  - `createProject` copies a template into a new directory and can initialise git.
  - `createMonorepo` lays out `apps/`, `packages/`, the root configuration and
    the shared package, copies the web and api templates, can set up vitest,
    installs, and can initialise git.
- **template materialisation**: `copyTemplate` copies a template tree
  recursively. It strips the first `.tpl` from every name and replaces every
  `{{key}}` token in file contents. As in JavaScript's `replaceAll` with a
  string pattern, the value's `$$`, `$&`, `` $` `` and `$'` patterns are
  expanded. `listTemplateFiles` and `listTemplates`
  enumerate templates.
- **probe**: `detectPackageManager` picks the package manager by lockfile
  precedence. `detectProjectContext` requires a `package.json` and reports the
  manifest, the `hasTypescript` flag and the package manager.
- **add**: the feature registry and `resolveFeatureArg`; `collectAddContext`
  filters out features already detected and keeps registry order;
  `addCommand` applies the selected features in order and then installs once.
- **features**: prettier, vitest (`setupVitest`), eslint, tailwind, docker and
  CI. Each has a `detect` over the files and the manifest and an `apply` that
  merges into `package.json` and writes its configuration files.

Every operation is a pure function over an abstract file system:
`FS = map<Path, Node>`, where a path is a sequence of segments and a node is a
`File(text)` or a `Dir`.

- Failing file-system calls (`ensureDir` over a file, writing into a missing
  directory, reading a missing or unparsable JSON file) return `Err`.
- `package.json` is a `Manifest` record with optional `dependencies`,
  `devDependencies` and `scripts` maps and opaque other keys.
- JSON text is produced and read through an abstract `Codec`. Lemmas that read
  back what was written assume it is `Lawful`, meaning parsing a stringified
  manifest gives it back.
- The template store is an ordered tree of entries, in directory-listing order.
- Prompts are answers passed in as parameters. A cancelled prompt is the error
  `PromptCancelled`.
- `git` and the package-manager install are recorded as `Effect`s. Whether they
  succeed is a parameter.

The central laws proved:

- the **fixed point** of every feature: after `apply`, a fresh probe succeeds
  and `detect` reports the feature;
- **idempotence** of every feature's `apply`;
- **round trips** through the codec and through `split`/`join`;
- copying a template places **every file and directory** at its `.tpl`-stripped
  path, with the tokens substituted;
- **frame** properties: nothing outside the target changes.

## Model

| member | source | states |
|---|---|---|
| FileSystem.EnsureDir | src/utils/copyTemplate.ts:11 | `ensureDir` succeeds unless a prefix of the path is a file; it makes the path a directory, keeps every existing entry and adds only directories on the path's prefixes |
| FileSystem.WriteFile | src/utils/copyTemplate.ts:30 | `writeFile` succeeds exactly when the parent is a directory and the target is not one, and then binds only the target to the new text |
| FileSystem.ReadFile | src/utils/copyTemplate.ts:25 | `readFile` succeeds exactly on a file and yields its text; errors are file-system errors |
| FileSystem.ReadJson | src/utils/detectProjectContext.ts:17 | `readJson` succeeds exactly on a file whose text parses, and yields the parsed manifest |
| FileSystem.WriteJsonReadBack | src/utils/setupVitest.ts:34 | reading back a `writeJson` with a lawful codec gives the written manifest |
| FileSystem.WriteJson | src/utils/setupVitest.ts:34 | `writeJson` is a `writeFile` of the stringified manifest; stated by FileSystem.WriteJsonReadBack |
| FileSystem.ReadDir | src/features/ci.ts:25-29 | `readdir` succeeds exactly on a directory and lists exactly its children's names |
| FileSystem.ChildNames | src/features/ci.ts:25-29 | the names `readdir` lists; stated by FileSystem.ReadDir |
| FileSystem.Child | src/generators/createProject.ts:16 | `path.resolve`/`path.join` with one segment: the segment is appended, and the empty name leaves the path unchanged; used by Generators.ProjectRoot and Materialise.Dest |
| Manifests.Spread | src/utils/setupVitest.ts:21-31 | object spread `{...base, ...added}`: keys are the union, added values win, base values survive elsewhere |
| Manifests.SpreadIdempotent | src/utils/setupVitest.ts:21-31 | spreading the same additions twice equals spreading once |
| Manifests.HasDependencyEither | src/features/docker.ts:23-29 | a name is a dependency exactly when it is a key of `dependencies` or of `devDependencies` |
| Manifests.MergeDevDependencies | dist/features/tailwind.js:36-41 | `devDependencies` becomes the spread of the old ones (missing = `{}`) with the additions; all other keys are untouched |
| Manifests.MergeScripts | src/utils/setupVitest.ts:27-31 | `scripts` becomes the spread of the old ones (missing = `{}`) with the additions; all other keys are untouched |
| Strings.FindFirst | src/utils/copyTemplate.ts:16 | the index of the first occurrence of a pattern, or none when it never occurs |
| Strings.ReplaceFirst | src/utils/copyTemplate.ts:16 | `replace` with a string pattern: only the first occurrence is replaced, and the value is expanded in its context; meaning stated by TemplateTree.StripTpl and TemplateTree.StripTplReinsert |
| Strings.Expand | src/utils/copyTemplate.ts:27 | the replacement value as JavaScript expands it for a string pattern: `$$` is `$`, `$&` the match, `` $` `` the text before it, `$'` the text after it, everything else literal; stated by Strings.ExpandLiteral, Strings.ExpandContextFree and TemplateTree.SubstituteExpandsDollar |
| Strings.ExpandLiteral | src/utils/copyTemplate.ts:27 | a value containing no `$` is inserted as is |
| Strings.ExpandContextFree | src/utils/copyTemplate.ts:27 | a value without `` $` `` or `$'` expands the same wherever the match lies |
| Strings.LiteralIsContextFree | src/utils/copyTemplate.ts:27 | a value without `$` has no position-dependent pattern |
| Strings.ReplaceAll | src/utils/copyTemplate.ts:27 | `replaceAll` with a string pattern: a left-to-right scan replacing non-overlapping occurrences, each with the value expanded against its own position; stated by Strings.ReplaceAllIsSplitJoin, Strings.ReplaceAllNoOccurrence and TemplateTree.ReplaceAllTwice |
| Strings.ReplaceInLiteral | src/utils/copyTemplate.ts:27 | for a value without position-dependent patterns, the scan equals plain replacement by the value expanded once |
| Strings.ReplaceLiteralIsSplitJoin | src/utils/copyTemplate.ts:27 | plain replacement by a fixed text equals split-and-join with that text |
| Strings.ReplaceAllIsSplitJoin | src/utils/copyTemplate.ts:27 | for a value without `` $` `` or `$'`, `replaceAll(pat, rep)` equals splitting at every occurrence and joining with the expanded value; for a value without `$`, joining with the value itself |
| Strings.SplitJoinRoundTrip | src/utils/copyTemplate.ts:27 | joining the pieces of a split with the pattern gives the original string back |
| Strings.SplitPiecesHaveNoOccurrence | src/utils/copyTemplate.ts:27 | no piece of a split contains the pattern, so `replaceAll` leaves no occurrence behind |
| Strings.ReplaceAllNoOccurrence | src/utils/copyTemplate.ts:27 | `replaceAll` of a pattern that does not occur changes nothing |
| Strings.LastSegment | dist/commands/init/resolvers.js:30 | `split(/[\\/]/).pop()`: the last element of splitting on `/` or `\`, the longest separator-free suffix, preceded by a separator unless it is the whole string; empty after a trailing separator |
| Wrappers.HandleError | src/commands/init.ts:38-45 | `handleError`, the same function in src/commands/add.ts:80-86: a run ends silently exactly on the cancellation sentinel, and any other error is reported unchanged |
| Strings.Sort | src/utils/listTemplate.ts:22 | `.sort()`: the result is ordered by UTF-16 code units and is a permutation of the input |
| Strings.Insert | src/utils/listTemplate.ts:22 | inserting into a sorted list keeps it sorted and adds exactly one copy of the element |
| Strings.LexLeTotal | src/utils/listTemplate.ts:22 | the default string order (UTF-16 code units) compares every two strings |
| Strings.LexLeTransitive | src/utils/listTemplate.ts:22 | the default string order is transitive |
| Strings.LexLeAntisymmetric | src/utils/listTemplate.ts:22 | the default string order is antisymmetric |
| Strings.Units | src/utils/listTemplate.ts:22 | a character is one UTF-16 code unit below U+10000 and otherwise a surrogate pair, exactly when the first unit is a high surrogate |
| Strings.UnitsInjective | src/utils/listTemplate.ts:22 | different characters have different code units |
| Strings.Utf16Injective | src/utils/listTemplate.ts:22 | different strings have different code-unit sequences, so the order on strings is antisymmetric |
| Strings.UnitsLeTotal | src/utils/listTemplate.ts:22 | the lexicographic order on code-unit sequences compares every two sequences |
| Strings.UnitsLeTransitive | src/utils/listTemplate.ts:22 | the lexicographic order on code-unit sequences is transitive |
| Strings.UnitsLeAntisymmetric | src/utils/listTemplate.ts:22 | the lexicographic order on code-unit sequences is antisymmetric |
| Strings.LexLeByCodeUnits | src/utils/listTemplate.ts:22 | U+1F600 sorts before U+FF61 although its code point is larger, since its high surrogate is below U+FF61 |
| TemplateTree.StripTpl | src/utils/copyTemplate.ts:16 | a name without `.tpl` is kept; otherwise the result is exactly four characters shorter |
| TemplateTree.StripTplNoMarker | src/utils/copyTemplate.ts:16 | a name without `.tpl` is kept as is |
| TemplateTree.StripTplReinsert | src/utils/copyTemplate.ts:16 | stripping deletes exactly the first `.tpl`: reinserting it where it was found gives the name back |
| TemplateTree.StripTplSuffix | src/utils/copyTemplate.ts:16 | a base without `.tpl` followed by `.tpl` strips to the base |
| TemplateTree.StripTplGitignore | src/utils/copyTemplate.ts:16 | `gitignore.tpl` becomes `gitignore` |
| TemplateTree.StripEach | src/utils/copyTemplate.ts:14-22 | the destination of a nested entry strips `.tpl` from every segment and keeps the nesting |
| TemplateTree.Find | src/utils/copyTemplate.ts:14-18 | the first entry of a listing with a given name, or none |
| TemplateTree.LookupSkip | src/utils/copyTemplate.ts:14-18 | looking up a path ignores entries of other names |
| TemplateTree.Lookup | src/utils/copyTemplate.ts:14-18 | what `pathExists`/`stat` finds at a relative path in a template tree; stated by TemplateTree.LookupSkip and TemplateListing.ListTemplateFilesMembership |
| TemplateTree.SubstituteNoTokens | src/utils/copyTemplate.ts:24-30 | content containing no `{{key}}` token of any variable is copied unchanged |
| TemplateTree.SubstituteSnoc | src/utils/copyTemplate.ts:26-28 | substitution is the fold of `replaceAll` over the variables in order: one more variable is one more `replaceAll` of its token |
| TemplateTree.SubstituteSingle | src/utils/copyTemplate.ts:26-28 | with one variable whose value has no `` $` `` or `$'`, the result is the content split at the token and joined with the expanded value (with the value itself when it has no `$`); joining the split with the token gives the content back |
| TemplateTree.SubstituteTwoTokens | src/utils/copyTemplate.ts:26-28 | both occurrences of a token are replaced, each by the value expanded against its own position; a value without `$` is inserted as is |
| TemplateTree.SubstituteReadmeExample | src/utils/copyTemplate.ts:26-28 | `# {{projectName}}` … `Welcome to {{projectName}}!` gets a `$`-free project name in both places |
| TemplateTree.Substitute | src/utils/copyTemplate.ts:26-28 | the loop over the variables in insertion order; stated by TemplateTree.SubstituteSnoc, TemplateTree.SubstituteNoTokens and TemplateTree.SubstituteSingle |
| TemplateTree.SubstituteExpandsDollar | src/utils/copyTemplate.ts:27 | a value `a$&b` puts the token itself back between `a` and `b`, and `$$` becomes a single `$` |
| TemplateTree.ReplaceAllTwice | src/utils/copyTemplate.ts:27 | a text with two occurrences of the pattern gets both replaced, each with the value expanded against the text before and after it |
| Materialise.CopyTemplate | src/utils/copyTemplate.ts:6-33 | a failing copy fails only with a file-system error |
| Materialise.CopyTemplateSucceeds | src/utils/copyTemplate.ts:6-33 | a copy of a template with distinct non-empty stripped names succeeds when no prefix of the target is a file and nothing lies below the target |
| Materialise.CopyEntriesSucceed | src/utils/copyTemplate.ts:14-32 | the entry loop succeeds into a directory when no existing path meets any entry's destination |
| Materialise.CopyEntrySucceeds | src/utils/copyTemplate.ts:15-31 | one entry succeeds when nothing exists at or below its destination |
| Materialise.LaterDestApart | src/utils/copyTemplate.ts:14-16 | a path at or above the first entry's destination is not below any later entry's destination |
| Materialise.CopyEntries | src/utils/copyTemplate.ts:14-32 | the entry loop fails only with a file-system error; placement and frame stated by Materialise.CopyEntriesFiles, Materialise.CopyEntriesDirs and Materialise.CopyEntriesFrame |
| Materialise.CopyEntry | src/utils/copyTemplate.ts:15-31 | one entry fails only with a file-system error; placement and frame stated by Materialise.CopyEntryFiles, Materialise.CopyEntryDirs and Materialise.CopyEntryFrame |
| Materialise.CopyTemplateTargetIsDir | src/utils/copyTemplate.ts:11 | after a successful copy the target is a directory, even for an empty template |
| Materialise.CopyTemplateFrame | src/utils/copyTemplate.ts:6-33 | a copy changes nothing outside the target: every path outside keeps its node, directories stay directories, and every new path lies under the target or is a directory on the way to it |
| Materialise.VacantKept | src/utils/copyTemplate.ts:6-33 | a step confined to one place keeps free every path apart from it |
| Materialise.CopyEntriesFrame | src/utils/copyTemplate.ts:14-32 | the entry loop keeps the frame, and leaves alone paths outside every entry's destination |
| Materialise.CopyEntryFrame | src/utils/copyTemplate.ts:15-31 | one entry changes nothing outside its own destination |
| Materialise.CopyTemplateDirs | src/utils/copyTemplate.ts:11-22 | every template directory, empty or not, exists at its `.tpl`-stripped destination |
| Materialise.CopyEntriesDirs | src/utils/copyTemplate.ts:14-22 | in the entry loop, every directory below an entry exists at its destination |
| Materialise.CopyEntryDirs | src/utils/copyTemplate.ts:20-22 | a directory entry and everything below it exist at their destinations |
| Materialise.CopyTemplateFiles | src/utils/copyTemplate.ts:14-30 | every template file lands at its `.tpl`-stripped destination, with content equal to the fold of `replaceAll` over the variables |
| Materialise.CopyEntriesFiles | src/utils/copyTemplate.ts:14-30 | in the entry loop, every file below an entry lands at its destination, substituted; later entries do not overwrite it |
| Materialise.CopyEntryFiles | src/utils/copyTemplate.ts:20-30 | a file entry, or a file below a directory entry, lands at its destination, substituted |
| Materialise.OutsideLaterEntries | src/utils/copyTemplate.ts:14-16 | the destinations of later entries never contain the destination of an earlier one, because stripped names are distinct |
| Materialise.CopyTemplateNoVars | src/utils/copyTemplate.ts:26-30 | with no variables every file's content is preserved exactly |
| TemplateListing.ListTemplateFiles | src/utils/listTemplateFiles.ts:4-26 | the recursive listing; stated by TemplateListing.ListTemplateFilesMembership, TemplateListing.ListTemplateFilesCount and TemplateListing.ListTemplateFilesSplit |
| TemplateListing.ListEntry | src/utils/listTemplateFiles.ts:13-22 | one entry of the loop: a file is its relative path, a directory the recursive listing below it; stated by TemplateListing.ListEntrySound and TemplateListing.ListEntryComplete |
| TemplateListing.ListEntrySound | src/utils/listTemplateFiles.ts:14-22 | every path listed for one entry extends `baseDir` by that entry's name and leads to a file, never a directory |
| TemplateListing.ListEntryComplete | src/utils/listTemplateFiles.ts:16-22 | every file reachable through one entry is listed under `baseDir` and that entry's name |
| TemplateListing.ListTemplateFilesCount | src/utils/listTemplateFiles.ts:4-26 | the list has one path per leaf file of the tree |
| TemplateListing.ListTemplateFilesSplit | src/utils/listTemplateFiles.ts:12-23 | depth-first order: the list of a listing is the list of its first part followed by the list of the rest |
| TemplateListing.ListTemplateFilesSound | src/utils/listTemplateFiles.ts:14-22 | every listed path is `baseDir` followed by the relative path of a file, never of a directory |
| TemplateListing.ListTemplateFilesComplete | src/utils/listTemplateFiles.ts:16-22 | every file of the tree is listed under `baseDir` |
| TemplateListing.ListTemplateFilesMembership | src/utils/listTemplateFiles.ts:4-26 | a path is listed exactly when it is `baseDir` followed by the relative path of a file |
| TemplateListing.DirNames | src/utils/listTemplate.ts:20-21 | the names kept are exactly those of the directory entries |
| TemplateListing.ListTemplates | src/utils/listTemplate.ts:9-23 | a missing base gives `[]`; otherwise the sorted permutation of the subdirectory names |
| TemplateListing.ListTemplatesMembers | src/utils/listTemplate.ts:10-22 | a name is listed exactly when it names a subdirectory of the project type's base |
| PackageManagers.DetectPackageManager | src/utils/detectPackageManager.ts:6-18 | `pnpm` exactly when `pnpm-lock.yaml` exists; else `yarn` exactly when `yarn.lock` exists; else `npm` |
| PackageManagers.DetectDependsOnlyOnLockfiles | src/utils/detectPackageManager.ts:6-18 | two trees that agree on the two lockfiles give the same package manager |
| PackageManagers.InstallCommand | src/features/docker.ts:31-40 | `npm ci` for npm, `<pm> install --frozen-lockfile` otherwise |
| PackageManagers.InstallCommandValues | src/features/docker.ts:31-40 | the three commands exactly: `npm ci`, `pnpm install --frozen-lockfile`, `yarn install --frozen-lockfile` |
| PackageManagers.RunCommand | src/features/ci.ts:50-58 | `<pm> run <script>`; stated by PackageManagers.RunCommandInjective and PackageManagers.InstallIsNotRun |
| PackageManagers.RunCommandInjective | src/features/ci.ts:50-58 | different scripts give different run commands |
| PackageManagers.InstallIsNotRun | src/features/ci.ts:47-58 | the install command is never a run command |
| Probe.DetectProjectContext | src/utils/detectProjectContext.ts:6-27 | fails without `package.json`; otherwise succeeds exactly when it parses, with `root = cwd`, the parsed manifest, `hasTypescript` iff `tsconfig.json` exists and the detected package manager |
| Probe.ProbeDependsOnlyOnProbedPaths | src/utils/detectProjectContext.ts:6-27 | the probe reads only the four probed files: trees that agree on them give the same result |
| Probe.ProbeKeptOutsideChild | src/utils/detectProjectContext.ts:6-27 | trees differing only in one child that is not probed give the same result |
| Probe.ProbeIgnoresOtherChild | src/utils/detectProjectContext.ts:6-27 | writing a child that is not probed leaves the probe unchanged |
| Collaborators.InstallCommandLine | src/utils/installDependencies.ts:8 | the command is plain `yarn` exactly for yarn, and `<pm> install` for npm and pnpm |
| Collaborators.InitGitRepo | src/utils/git.ts:5-33 | fails with no effect when the root is missing or already has `.git`; otherwise runs git once and succeeds exactly when git does |
| Collaborators.InstallDependencies | src/utils/installDependencies.ts:4-14 | records one install in the root with the package manager, changes no file, and succeeds exactly when the install does |
| InitResolvers.ResolveProjectType | dist/commands/init/resolvers.js:4-11 | undefined for an absent or empty flag, the type for `frontend`/`backend`, `InvalidProjectType` otherwise |
| InitResolvers.ResolveProjectTypeRoundTrip | dist/commands/init/resolvers.js:4-11 | every type's name resolves back to that type |
| InitResolvers.ResolveTemplateFlag | dist/commands/init/resolvers.js:15-21 | undefined for an absent flag; the flag exactly when it is available; `InvalidTemplate` otherwise |
| InitResolvers.ResolveProjectName | dist/commands/init/resolvers.js:25-31 | non-empty argument, else non-empty answer, else the last segment of the working directory |
| InitResolvers.ResolveProjectNameFromCwd | dist/commands/init/resolvers.js:30 | without argument or answer the name is the working directory's own name |
| InitResolvers.ResolveTemplateFinal | dist/commands/init/resolvers.js:36-48 | a truthy flag wins; no templates gives `basic`; defaults mode or a single template gives the first; undefined exactly when the user must choose |
| InitResolvers.ResolveTemplateFinalMember | dist/commands/init/resolvers.js:36-48 | without a flag and with templates listed, a decided template is one of them |
| InitCollector.CollectBaseAnswers | src/commands/init/collector.ts:55-78 | defaults mode asks nothing and takes the type flag or default and the default git choice; otherwise one round of questions is asked, skipping what the arguments give, and the arguments override the answers |
| InitCollector.CollectTemplate | src/commands/init/collector.ts:80-92 | the template question is asked exactly when the resolvers leave the template undecided; a cancelled answer fails with `PromptCancelled` |
| InitCollector.CollectRest | src/commands/init/collector.ts:39-52 | the template flag is checked against the templates of the resolved type; the context carries the normalised name, the type, the git choice, the detected package manager and the dry-run flag |
| InitCollector.CollectInitContext | src/commands/init/collector.ts:25-53 | an invalid type fails before any question; defaults mode asks no init question; the result is the basic structure with the flag and argument values taking precedence |
| InitCollector.CollectedTemplateIsListed | src/commands/init/collector.ts:39-42 | the collected template is one listed for the type, or `basic` when none is listed |
| InitCommand.Generate | src/commands/init.ts:26-30 | the monorepo structure runs `createMonorepo`, the basic structure `createProject`; an existing directory fails with no writes |
| InitCommand.Execute | src/commands/init.ts:21-32 | a dry run writes nothing and shows the plan; otherwise the summary follows only a successful generator and a failure is reported |
| InitCommand.Conclude | src/commands/init.ts:26-34 | the summary is printed exactly after a successful generator; a cancellation ends silently and a generator error is reported as it is |
| InitCommand.Init | src/commands/init.ts:14-36 | collector errors end the run (cancel silently), a dry run writes nothing, a created project did not exist before and is a directory after |
| InitCommand.InitCopiesTemplate | src/commands/init.ts:26-30 | end to end, every template file lies below the new project root at its stripped path with the project name substituted |
| InitCommand.MonorepoCreated | dist/generators/createMonorepo.js:10-16 | a created monorepo's root did not exist before and is a directory afterwards |
| Generators.CopyFromStore | src/generators/createProject.ts:26-36 | a template directory found in the store is copied with `copyTemplate`; success needs one, keeps the frame and leaves the target a directory |
| Generators.Populate | src/generators/createProject.ts:31-36 | the root is ensured and the template copied into it; success keeps everything outside the root and leaves it a directory; errors are file-system errors |
| Generators.ProjectRoot | src/generators/createProject.ts:16 | `path.resolve(process.cwd(), projectName)` for a one-segment name, shared with createMonorepo; stated by Generators.CreateProject and InitCommand.MonorepoCreated |
| Generators.PopulateSucceeds | src/generators/createProject.ts:31-36 | with a well-formed template directory, no file on the root's path and nothing below the root, the root and copy succeed |
| Generators.CreateProject | src/generators/createProject.ts:9-42 | an existing root fails with no writes; a missing template fails next, still with no writes; success leaves the root a new directory, changes nothing outside it, and runs git exactly when asked |
| Generators.CreateProjectSucceeds | src/generators/createProject.ts:9-42 | with a well-formed template and a free root, the copy succeeds; without git nothing else runs; with git one `git init` runs unless the template brought its own `.git`, and the result follows it |
| Generators.CreateProjectCopiesTemplate | src/generators/createProject.ts:31-36 | every file and directory of the template is at its stripped path below the root, files with `{{projectName}}` substituted |
| Generators.RootManifest | dist/generators/createMonorepo.js:51-59 | the root manifest is named after the project, private, with `dev`/`build`/`lint` scripts `pnpm -r <x>` |
| Generators.SharedManifest | dist/generators/createMonorepo.js:118-129 | the shared package is named `@<name>/shared` with `build`/`dev` scripts over `tsc` |
| Generators.Readme | dist/generators/createMonorepo.js:88-112 | the README starts with the project name as its title |
| Generators.ConfigFiles | dist/generators/createMonorepo.js:49-113 | the four root files in order: `package.json`, `pnpm-workspace.yaml`, `tsconfig.base.json`, `README.md` |
| Generators.WriteFiles | dist/generators/createMonorepo.js:49-113 | a run of writes into one directory: on success each file holds its text and every other path keeps its entry |
| Generators.WriteFilesSucceed | dist/generators/createMonorepo.js:49-113 | the writes succeed into a directory where no target name is a directory |
| Generators.WriteFilesKeepVacant | dist/generators/createMonorepo.js:49-113 | the writes leave free a path apart from every written file |
| Generators.Skeleton | dist/generators/createMonorepo.js:16-20 | the root, `apps/` and `packages/` exist and the four root files hold their contents |
| Generators.SkeletonDirs | dist/generators/createMonorepo.js:16-18 | the root, `apps/` and `packages/` are directories and every existing path keeps its node |
| Generators.SkeletonKeepsVacant | dist/generators/createMonorepo.js:16-20 | into a free root, the skeleton succeeds and a path below the root clear of `apps/`, `packages/` and the four root files stays free |
| Generators.SkeletonLeavesRoom | dist/generators/createMonorepo.js:16-20 | into a free root, the skeleton succeeds and leaves `apps/web`, `apps/api`, `packages/shared` and `.git` free |
| Generators.CopyIfPresent | dist/generators/createMonorepo.js:22-34 | a missing app template is skipped silently; a present one is copied, changing nothing outside its target |
| Generators.CopyIfPresentSucceeds | dist/generators/createMonorepo.js:22-34 | a missing template, or a well-formed one copied into a free target, succeeds |
| Generators.CopyKeepsVacant | dist/generators/createMonorepo.js:22-34 | a copy into a free target succeeds, keeps free every path apart from the target, and keeps every directory |
| Generators.AppsCopied | dist/generators/createMonorepo.js:22-34 | both app copies succeed into free `apps/web` and `apps/api`, and leave the root a directory and `packages/shared` and `.git` free |
| Generators.CreateSharedPackage | dist/generators/createMonorepo.js:114-150 | the shared package's two manifests and `src/index.ts` are written, nothing outside `packages/shared` changes |
| Generators.SharedFiles | dist/generators/createMonorepo.js:118-144 | the shared package's `package.json` and `tsconfig.json`, with distinct names, in that order |
| Generators.WriteSharedIndex | dist/generators/createMonorepo.js:146-149 | `src/index.ts` becomes a file, nothing outside the package changes, and no entry directly in the package changes |
| Generators.SharedSrcMade | dist/generators/createMonorepo.js:116 | into a free package directory, `ensureDir(src)` succeeds, makes the package and `src` directories, and leaves `src/index.ts` free |
| Generators.SharedJsonWritten | dist/generators/createMonorepo.js:116-144 | after `src` is made, both manifests are written, `src` stays a directory and `src/index.ts` stays free |
| Generators.SharedIndexWritten | dist/generators/createMonorepo.js:149 | with `src` a directory and `src/index.ts` free, the index write succeeds |
| Generators.SharedPackageSucceeds | dist/generators/createMonorepo.js:114-150 | into a free `packages/shared`, `createSharedPackage` succeeds |
| Generators.SharedLast | dist/generators/createMonorepo.js:36 | the shared step succeeds into a free `packages/shared`, keeps the root a directory and creates no `.git` |
| Generators.InstallThenGit | dist/generators/createMonorepo.js:42-47 | the install runs first; git runs only after a successful install and only when asked |
| Generators.CreateMonorepo | dist/generators/createMonorepo.js:8-48 | an existing root fails with no writes or effects; effects happen exactly when the layout was built, install first, git after and only when asked |
| Generators.CreateMonorepoSucceeds | dist/generators/createMonorepo.js:8-48 | with a free project root and each app template missing or well-formed, `createMonorepo` succeeds exactly when the apps are ready for vitest (if asked), the install succeeds, and git succeeds if asked |
| Generators.CreateMonorepoLayout | dist/generators/createMonorepo.js:15-36 | a created monorepo has `apps/`, `packages/`, the root manifest and the shared manifest as written, the shared `index.ts`, the workspace file and the README |
| Generators.CreateMonorepoCopiesApps | dist/generators/createMonorepo.js:22-34 | every file of the web (api) template lies in `apps/web` (`apps/api`) with the project name suffixed `-web` (`-api`) substituted |
| Generators.LaidOutKept | dist/generators/createMonorepo.js:38-41 | the vitest step touches only files directly inside an app, so the root and shared layout survive it |
| Generators.VitestKeeps | dist/generators/createMonorepo.js:38-41 | `setupVitest` in an app changes nothing outside the apps' own files |
| Generators.AddVitest | dist/generators/createMonorepo.js:37-41 | `setupVitest` in `apps/web` then `apps/api` changes nothing outside the apps' own files; errors are file-system errors |
| Generators.AddVitestSucceeds | dist/generators/createMonorepo.js:38-41 | the vitest step succeeds exactly when both `apps/web` and `apps/api` are ready for `setupVitest` |
| Generators.AddVitestAdds | dist/generators/createMonorepo.js:38-41 | the only new paths are the two apps' manifests and configs |
| Generators.AddVitestKeepsShallow | dist/generators/createMonorepo.js:38-41 | no path shallower than an app's files appears or disappears |
| Generators.BuildWorkspace | dist/generators/createMonorepo.js:15-36 | the skeleton, app copies and shared package fail only with a file-system error |
| Generators.BuildWorkspaceLaysOut | dist/generators/createMonorepo.js:15-36 | after success the root configuration files and the shared package hold their contents |
| Generators.BuildWorkspaceSucceeds | dist/generators/createMonorepo.js:15-36 | with each app template missing or well-formed and a free root, the skeleton, copies and shared package succeed, leaving the root a directory without `.git` |
| Generators.BuildMonorepo | dist/generators/createMonorepo.js:15-41 | the file-system steps of `createMonorepo` fail only with a file-system error; the layout is stated by Generators.BuildMonorepoLaysOut and Generators.BuildMonorepoSetsUpVitest |
| Generators.BuildMonorepoLaysOut | dist/generators/createMonorepo.js:15-41 | after success, including the vitest step, the root configuration files and the shared package hold their contents |
| Generators.MonorepoBuilt | dist/generators/createMonorepo.js:15-47 | under the same premises the file-system steps succeed exactly when vitest is off or both apps are ready, and then install and git succeed exactly when the install does and, if asked, git does |
| Generators.BuildMonorepoSetsUpVitest | dist/generators/createMonorepo.js:37-41 | with `useVitest`, both `apps/web` and `apps/api` hold the Vitest config once the files are built |
| Generators.AddVitestBothApps | dist/generators/createMonorepo.js:38-41 | setting up the api app keeps the config just written in the web app, so both apps end up configured |
| Registry.FeatureIdInjective | src/commands/add/registry.ts:6-8 | every feature has its own id |
| Registry.GetAvailableFeatureIds | src/commands/add/registry.ts:10-12 | the ids of all features in registry order, which is `["eslint"]` |
| Registry.GetAllFeatures | src/commands/add/registry.ts:18-20 | a feature is returned exactly when looking up its id in the registry finds it |
| Registry.LookupEvery | src/commands/add/registry.ts:6-16 | looking up the id of any registered feature finds that feature |
| Registry.FeatureMapKeys | src/commands/add/registry.ts:6-8 | the map's keys are exactly the registered ids, each bound to a registered feature with that id |
| Registry.FeatureMap | src/commands/add/registry.ts:6-8 | `new Map(features.map(f => [f.id, f]))`, a later repeated id replacing an earlier one; stated by Registry.FeatureMapKeys |
| Registry.Lookup | src/commands/add/registry.ts:6-16 | a lookup finds a feature exactly for a registered id, and the feature found has that id |
| Registry.GetFeature | src/commands/add/registry.ts:14-16 | `getFeature` is defined exactly on the available ids and returns the feature with that id |
| Registry.LookupRegistered | src/commands/add/registry.ts:6-16 | looking up a registered feature's id finds that very feature |
| Registry.DetectFeature | src/types/feature.ts:14 | `detect` dispatched on the feature; stated with Registry.ApplyFeature by Registry.ApplyThenDetect |
| Registry.ApplyFeature | src/types/feature.ts:15 | `apply` dispatched on the feature, CI without options; stated by Registry.ApplyThenDetect and AddCommand.ApplyAllOne |
| Registry.ApplyThenDetect | src/types/feature.ts:10-16 | the fixed point for every feature: after `apply`, a fresh probe succeeds and `detect` answers true |
| AddResolvers.ResolveFeatureArg | dist/commands/add/resolvers.js:2-8 | the argument is returned unchanged exactly when it is an available id; otherwise `UnknownFeature` |
| AddCollector.Undetected | src/commands/add/collector.ts:23-32 | every feature is detected; the result is the undetected features in registry order, or the first detect error |
| AddCollector.Selected | src/commands/add/collector.ts:47-58 | the picked ids that are available, in registry order |
| AddCollector.CollectAddContext | src/commands/add/collector.ts:7-59 | probe errors propagate; an argument gives `[id]` without detecting; otherwise the undetected features, all of them in defaults mode, the picks otherwise, failing when nothing is left or nothing is picked |
| AddCollector.CollectedFeatures | src/commands/add/collector.ts:7-59 | the collected ids are registered, non-empty and, without an argument, undetected features in registry order |
| AddCommand.ApplyAll | src/commands/add.ts:28-33 | the apply loop runs no subprocess; its order and failure are stated by AddCommand.ApplyAllAppend, AddCommand.ApplyAllOne and AddCommand.ApplyAllRegistered |
| AddCommand.ApplyAllAppend | src/commands/add.ts:28-33 | applying a batch in order is applying its first part, then the rest on the result, stopping at the first failure |
| AddCommand.ApplyAllRegistered | src/commands/add.ts:28-33 | a failure of the loop is the failure of one registered feature's `apply` |
| AddCommand.ApplyAllOne | src/commands/add.ts:28-33 | a one-feature batch is exactly that feature's `apply` |
| AddCommand.ApplyAndInstall | src/commands/add.ts:28-36 | one install after all applies, none after a failed apply; success needs both |
| AddCommand.Add | src/commands/add.ts:9-42 | `--list` lists without probing or writing; a dry run writes nothing; at most one install, in the project root; success reports the collected ids |
| AddCommand.SameContext | src/commands/add.ts:26 | the second probe, at the collected root, gives the same context as the first |
| AddCommand.AddOneThenDetect | src/commands/add.ts:9-42 | `add <id>` that succeeds leaves the feature detected on a fresh probe |
| AddCommand.AddOneApplies | src/commands/add.ts:26-33 | `add <id>` that succeeds wrote exactly what that feature's `apply` writes in the probed context |
| AddCommand.AddWithArg | src/commands/add.ts:26-33 | with a registered id, the files after `add` are those of the one-feature loop |
| FeatureKit.ConfiguredOrDepends | src/features/prettier.ts:14-40 | the shared `detect` of prettier, vitest and eslint: true exactly when one of the listed configuration files exists or the package is a dependency or devDependency |
| FeatureKit.ConfigPresent | src/features/prettier.ts:15-32 | true exactly when one of the listed configuration files exists in the directory |
| FeatureKit.Edit | src/utils/setupVitest.ts:21-31 | the added devDependencies and scripts are set, every other entry is kept, no entry appears from nowhere, and the rest of the manifest is untouched |
| FeatureKit.EditIdempotent | src/utils/setupVitest.ts:21-31 | editing twice equals editing once |
| FeatureKit.UpdateManifest | src/utils/setupVitest.ts:15-34 | a read error propagates; otherwise the manifest file is replaced by the edited manifest |
| FeatureKit.UpdateManifestReadBack | src/utils/setupVitest.ts:18-34 | reading the manifest back gives the edited manifest |
| FeatureKit.UpdateManifestSettled | src/utils/setupVitest.ts:18-34 | a manifest that already holds the edit is left as is |
| FeatureKit.UpdateAndWrite | src/utils/setupVitest.ts:14-38 | a manifest edit then one configuration file: succeeds exactly when the manifest reads and the directory allows the write; touches only those two paths |
| FeatureKit.UpdateAndWriteIdempotent | src/utils/setupVitest.ts:14-38 | doing it twice equals doing it once |
| FeatureKit.UpdateAndWriteReprobe | src/utils/setupVitest.ts:14-38 | afterwards the probe succeeds, sees the edited manifest, and the configuration file exists |
| Prettier.Detect | src/features/prettier.ts:14-40 | FeatureKit.ConfiguredOrDepends over the ten `.prettierrc*`/`prettier.config.*` files and the `prettier` package |
| Prettier.Apply | src/features/prettier.ts:42-59 | succeeds exactly when the manifest reads and the root allows the write; writes `.prettierrc` with the fixed configuration and touches only it and `package.json` |
| Prettier.ApplyManifest | src/features/prettier.ts:46-56 | `prettier ^3.0.0` and `format: prettier --write .` are set; all other entries and keys are kept |
| Prettier.ApplyThenDetect | src/features/prettier.ts:58 | after `apply` a fresh probe succeeds and `detect` is true |
| Prettier.ApplyIdempotent | src/features/prettier.ts:42-59 | applying twice equals applying once |
| Vitest.SetupVitest | src/utils/setupVitest.ts:14-38 | succeeds exactly when the manifest reads and the root allows the write; writes `vitest.config.ts` and touches only it and `package.json` |
| Vitest.Ready | src/utils/setupVitest.ts:14-38 | what `setupVitest` needs: a readable manifest, the directory present, no directory at `vitest.config.ts`; the success condition of Vitest.SetupVitest |
| Vitest.SetupVitestManifest | src/utils/setupVitest.ts:21-31 | `vitest ^3.0.0`, `test: vitest` and `test:run: vitest run` are set; all other entries and keys are kept |
| Vitest.SetupVitestIdempotent | src/utils/setupVitest.ts:14-38 | running it twice equals running it once |
| Vitest.Detect | src/features/vitest.ts:6-26 | FeatureKit.ConfiguredOrDepends over the four `vitest.config.*` files and the `vitest` package |
| Vitest.Apply | src/features/vitest.ts:28-30 | `setupVitest` at the project root: succeeds exactly when the manifest reads, the root is a directory and the config path is not one; writes the vitest configuration and changes no other existing path but the manifest |
| Vitest.ApplyThenDetect | src/features/vitest.ts:28-30 | after `apply` a fresh probe succeeds and `detect` is true |
| Eslint.AddedDevDeps | dist/features/eslint.js:47-53 | `eslint` and `@eslint/js` at `^9.0.0`, and `typescript-eslint ^8.0.0` exactly for a TypeScript project |
| Eslint.ConfigText | dist/features/eslint.js:63-66 | the TypeScript configuration exactly for a TypeScript project, else the JavaScript one |
| Eslint.Detect | dist/features/eslint.js:23-43 | FeatureKit.ConfiguredOrDepends over the seven `eslint.config.*`/`.eslintrc*` files and the `eslint` package |
| Eslint.Apply | dist/features/eslint.js:44-67 | succeeds exactly when the manifest reads and the root allows the write; `eslint.config.js` holds the TypeScript configuration iff `hasTypescript` |
| Eslint.ApplyManifest | dist/features/eslint.js:47-61 | the eslint devDependencies (with `typescript-eslint` only for TypeScript) and `lint: eslint .` are set; the other entries and keys are kept |
| Eslint.ApplyThenDetect | dist/features/eslint.js:63-66 | after `apply` a fresh probe succeeds and `detect` is true |
| Eslint.ApplyIdempotent | dist/features/eslint.js:44-67 | applying twice equals applying once |
| Tailwind.MatchAtIsRegexMatch | dist/features/tailwind.js:49 | a match of `plugins:\s*\[` at an index is `plugins:`, the maximal whitespace run and `[` |
| Tailwind.IsJsWhitespace | dist/features/tailwind.js:49 | the characters JavaScript's `\s` matches: the ASCII blanks, U+00A0, U+1680, U+2000 to U+200A, U+2028, U+2029, U+202F, U+205F, U+3000 and U+FEFF; used by Tailwind.RegexMatch |
| Tailwind.RegexMatch | dist/features/tailwind.js:49 | `plugins:\s*\[` matching at an index with a given run of whitespace, the reference against which Tailwind.MatchAtIsRegexMatch and Tailwind.FindMatch are stated |
| Tailwind.FindMatch | dist/features/tailwind.js:49 | the leftmost index where `plugins:\s*\[` matches, or none |
| Tailwind.InsertPlugin | dist/features/tailwind.js:49 | the leftmost match is replaced by `plugins: [` and the `tailwindcss(),` line; without a match the text is unchanged |
| Tailwind.RewrittenViteHasPlugin | dist/features/tailwind.js:48-50 | a rewritten vite configuration contains `@tailwindcss/vite` |
| Tailwind.WebAppDir | dist/features/tailwind.js:3-9 | `apps/web` exactly when `apps/web/package.json` exists, else the root |
| Tailwind.Detect | dist/features/tailwind.js:10-32 | true when a `tailwind.config.*` exists in the target; otherwise the `tailwindcss` dependency of the in-memory root manifest, or of the on-disk `apps/web` manifest, whose read error propagates |
| Tailwind.UpdateViteConfig | dist/features/tailwind.js:44-52 | a missing vite configuration, or one that already names the plugin, is left alone; otherwise the import is prepended and the plugin inserted |
| Tailwind.UpdateCss | dist/features/tailwind.js:53-64 | `src/index.css` is created with the import, prefixed with it when missing, and left unchanged when present; nothing else but `src` is added |
| Tailwind.Steps | dist/features/tailwind.js:43-64 | in a directory: on success the CSS holds the import, an existing vite configuration names the plugin, and no other path changes |
| Tailwind.ApplyAt | dist/features/tailwind.js:35-64 | an unreadable target manifest fails; success needs the target to be a directory |
| Tailwind.ApplyAtSucceeds | dist/features/tailwind.js:35-64 | in a given directory, `apply` succeeds exactly when the manifest reads, the directory is one, `vite.config.ts` is not a directory, `src` is not a file and `src/index.css` is not a directory |
| Tailwind.ApplyAtWrites | dist/features/tailwind.js:44-64 | after success the CSS file holds the import, and an existing vite configuration holds the plugin |
| Tailwind.ApplyAtFrame | dist/features/tailwind.js:35-64 | nothing outside the target directory changes, and only `src` and `src/index.css` can be new |
| Tailwind.ApplyAtIdempotent | dist/features/tailwind.js:35-64 | with a lawful codec, applying in the same directory twice equals applying once |
| Tailwind.Apply | dist/features/tailwind.js:33-65 | a target manifest that cannot be read fails; success leaves the CSS with the import and an existing vite configuration with the plugin, changes nothing outside the target, adds only `src` and `src/index.css` |
| Tailwind.ApplySucceeds | dist/features/tailwind.js:33-65 | `apply` succeeds exactly when, in `apps/web` or else the root, the manifest reads, the directory is one, and the vite, `src` and CSS paths allow the writes |
| Tailwind.ApplyKeepsRootManifest | dist/features/tailwind.js:34-42 | in a monorepo the root `package.json` is untouched |
| Tailwind.ApplyManifest | dist/features/tailwind.js:36-42 | the target manifest gains `tailwindcss` and `@tailwindcss/vite` at `^4.0.0`; everything else is kept |
| Tailwind.ApplyIdempotent | dist/features/tailwind.js:33-65 | applying twice equals applying once, so the import is never duplicated |
| Tailwind.ApplyThenDetect | dist/features/tailwind.js:33-65 | after `apply` a fresh probe succeeds and `detect` is true |
| Docker.Detect | src/features/docker.ts:5-21 | true exactly when one of the five Docker or compose files exists |
| Docker.DetectIgnoresManifest | src/features/docker.ts:5-21 | dependencies are not consulted |
| Docker.DockerfileLines | src/features/docker.ts:42-76 | the build stage installs with the package manager's install command |
| Docker.DockerfileStages | src/features/docker.ts:42-76 | nginx with `EXPOSE 80` exactly for a frontend; otherwise `EXPOSE 3000`, `node dist/index.js` and a production install |
| Docker.IsFrontend | src/features/docker.ts:23-29 | `vite` among the dependencies or dev dependencies; its consequences stated by Docker.DockerfileStages and Docker.ComposePort |
| Docker.BuildStage | src/features/docker.ts:47-52 | the build stage shared by both Dockerfiles, installing with the given command; stated by Docker.DockerfileLines |
| Docker.NodeStage | src/features/docker.ts:68-74 | the backend runtime stage: production install, `EXPOSE 3000`, `node dist/index.js`; stated by Docker.DockerfileStages |
| Docker.ComposePort | src/features/docker.ts:78-80 | `8080:80` exactly for a frontend, `3000:3000` otherwise |
| Docker.ComposeLines | src/features/docker.ts:78-90 | the compose file maps the port of the project kind and sets `NODE_ENV=production` |
| Docker.DockerfileText | src/features/docker.ts:42-76 | the Dockerfile is the lines of Docker.DockerfileLines joined by newlines |
| Docker.ComposeText | src/features/docker.ts:78-90 | the compose file is the lines of Docker.ComposeLines joined by newlines |
| Docker.WriteAll | src/features/docker.ts:100-110 | the three writes succeed exactly when the root is a directory and none of the three paths is one, and bind exactly those three paths |
| Docker.Apply | src/features/docker.ts:99-111 | succeeds exactly when the root allows the writes; writes exactly `Dockerfile`, `docker-compose.yml` and `.dockerignore` |
| Docker.ApplyThenDetect | src/features/docker.ts:99-111 | after `apply` the probe is unchanged and `detect` is true |
| Docker.ApplyIdempotent | src/features/docker.ts:99-111 | applying twice equals applying once |
| Docker.WriteAllIdempotent | src/features/docker.ts:100-110 | writing the three files again with the same texts changes nothing |
| Ci.Jobs | src/features/ci.ts:34-58 | the jobs are exactly those of `lint`, `test`, `build` whose script is set and non-empty, in that order |
| Ci.NoScriptsNoJobs | src/features/ci.ts:34-36 | a manifest without `scripts` has no jobs |
| Ci.GitHubSteps | src/features/ci.ts:38-72 | the workflow has the fixed header and steps, the install step, then a run step for a script exactly when it is a job |
| Ci.GitHubWorkflow | src/features/ci.ts:38-72 | the workflow text is the lines of Ci.GitHubSteps joined by newlines |
| Ci.GitHubLines | src/features/ci.ts:42-71 | the workflow as lines: header, fixed steps, then one run step per job; stated by Ci.GitHubSteps |
| Ci.FixedSteps | src/features/ci.ts:42-48 | checkout, setup-node 20 and the install step; stated by Ci.GitHubSteps |
| Ci.ScriptSteps | src/features/ci.ts:50-58 | one run step per job, in order, so as many steps as jobs; stated by Ci.GitHubSteps |
| Ci.RunStepInjective | src/features/ci.ts:50-58 | different scripts give different run steps |
| Ci.GitLabConfigIsLines | src/features/ci.ts:74-134 | the GitLab configuration is the line sequence of the stages, the install job and the script jobs |
| Ci.GitLabConfig | src/features/ci.ts:74-134 | the GitLab text; stated by Ci.GitLabConfigIsLines, Ci.GitLabJobs and Ci.JobBlocksMember |
| Ci.BaseConfig | src/features/ci.ts:78-92 | the stages and the install job with the given command; stated by Ci.GitLabJobs |
| Ci.JobBlock | src/features/ci.ts:94-104 | one GitLab job block for a script, in its own stage; stated by Ci.JobBlocksMember |
| Ci.JobBlocksMember | src/features/ci.ts:94-131 | a job block with a name appears exactly for a job, and it runs that script |
| Ci.GitLabJobs | src/features/ci.ts:74-134 | the stages and the install job are always present; a job for a script exactly when it is set |
| Ci.Detect | src/features/ci.ts:16-32 | true when `.gitlab-ci.yml` exists, or `.github/workflows` holds a `.yml`/`.yaml` entry; reading a workflows path that is a file fails |
| Ci.EmptyWorkflowsNotDetected | src/features/ci.ts:23-31 | an empty workflows directory gives false |
| Ci.Prompt | src/features/ci.ts:136-152 | a falsy answer fails with the cancellation error, otherwise the answer is returned |
| Ci.WriteInDir | src/features/ci.ts:160-166 | `ensureDir` then `writeFile`: succeeds exactly when the directory can be ensured and the file is not a directory; the file holds the text, the directory exists, old paths keep their entries and new paths are directories on the way |
| Ci.WriteWorkflow | src/features/ci.ts:160-166 | `.github/workflows` is ensured and `ci.yml` written; nothing else changes but the directories created |
| Ci.Apply | src/features/ci.ts:154-173 | provider `github` writes the workflow; any other value, including none, writes `.gitlab-ci.yml` |
| Ci.WriteWorkflowThenDetect | src/features/ci.ts:160-166 | after writing the workflow the probe is unchanged and `detect` is true |
| Ci.WriteGitLabThenDetect | src/features/ci.ts:167-171 | after writing `.gitlab-ci.yml` the probe is unchanged and `detect` is true |
| Ci.ApplyThenDetect | src/features/ci.ts:154-173 | after `apply` with either provider the probe is unchanged and `detect` is true |
| Ci.ApplyIdempotent | src/features/ci.ts:154-173 | applying twice equals applying once |
| Ci.WriteWorkflowIdempotent | src/features/ci.ts:160-166 | writing the workflow again with the same text changes nothing |
| Ci.WriteWorkflowDetected | src/features/ci.ts:160-166 | after the workflow is written, `detect` is true |

## Left out

- Interactive prompts are not modelled as a library. Their answers are
  parameters (`Replies`, the add picks, the CI provider), and a cancelled
  prompt is the error `PromptCancelled`. The init questions include no git
  question, so a missing git answer reads as false.
- `normalizeProjectName`, `DEFAULT_INIT_OPTIONS` and the working directory's
  text are parameters; their definitions are not part of this model.
- `getTemplatePath` is a parameter `(type, template) -> path` into the
  template store. `src/generators/createProject.ts` calls it with two
  arguments, while `src/utils/getTemplatePath.ts` takes only the type, so the
  bundling layout is not modelled.
- `getRunCommand` is defined outside the modelled files; it is modelled as
  `<pm> run <script>`. `getInstallCommand` follows the local definition in
  `src/features/docker.ts`.
- The collector in `src/commands/init/collector.ts` builds no `structure`
  field, so it always yields the basic structure and `init` never reaches
  `createMonorepo`; the model follows the collector. The
  dispatch and `createMonorepo` are still modelled in full.
- The project name is one path segment (`path.resolve(cwd, name)` with a name
  containing separators is not modelled). An empty name resolves to the
  working directory itself. The names `.` and `..` are not normalised: they
  stay literal segments instead of resolving to the working directory or its
  parent.
- JSON text is abstract: key order, indentation and the opaque contents of
  `compilerOptions` and other manifest keys are not modelled. The fixed-point
  and read-back lemmas assume a lawful codec.
- A step that fails half-way (a copy that stops in the middle of a template)
  is reported as failing; the files it had already written are not tracked.
- Subprocesses (`git init/add/commit`, the package-manager install) are
  recorded effects whose success is a parameter. Their output, and a `.git`
  directory beyond its existence, are not modelled.
- Console output (`printSummary`, `printDryRun`, the add command's list and
  messages) is left out. The outcome datatypes record which message would be
  shown.
- The Dockerfile, compose, CI and README texts are modelled as line
  sequences. Their exact whitespace is kept as lines, not checked against a
  YAML or Docker grammar.
- Revision drift, resolved in favour of the cited files:
  - eslint and tailwind exist only in the dist build;
  - the shipped registry holds eslint only, and the registry lemmas are stated
    for any registry;
  - the add collector's empty selection fails with `NoFeaturesSelected` as in
    the TypeScript source, not with a cancellation as in the dist build;
  - `useVitest` on the monorepo context comes from the dist generator;
  - `askInitQuestions()` in `src/prompts/initPrompts.ts` takes no parameters
    and asks no git question, while `collectBaseAnswers` passes it skip
    flags and reads a git answer; the model follows the collector: a
    question whose flag is set is skipped, and the git answer is false.
- The tailwind regex `plugins:\s*\[` is modelled for that one pattern, with
  JavaScript's `\s` character set; no general regex engine is modelled.
- Docker.DockerfileLines: states the install step and, through
  Docker.DockerfileStages, the stage lines that tell a frontend from a
  backend; the other fixed lines are not restated in a contract.
- Generators.BuildMonorepo: its contract states only the error kind; the
  layout is stated by Generators.BuildMonorepoLaysOut,
  Generators.BuildMonorepoSetsUpVitest and Generators.CreateMonorepoLayout.
- Strings.ReplaceAllIsSplitJoin: the split-and-join form is stated only for
  values without `` $` `` and `$'`, whose expansion depends on the position of
  each match; Strings.ReplaceAll itself expands them, and
  TemplateTree.ReplaceAllTwice states the positional case for two matches.
- TemplateTree.SubstituteSingle: the split-and-join form is stated for values
  without `` $` `` and `$'`, for the same reason.
- TemplateTree.SubstituteReadmeExample: the literal result is stated for a
  `$`-free project name; other names go through Strings.Expand.
- Generators.BuildWorkspace: its contract states only the error kind; the
  layout is stated by Generators.BuildMonorepoLaysOut.
- Materialise.CopyEntries: states only the error kind in its own contract;
  placement, frame and success are separate lemmas.
- Materialise.CopyEntry: states only the error kind in its own contract;
  placement, frame and success are Materialise.CopyEntryFiles,
  Materialise.CopyEntryDirs, Materialise.CopyEntryFrame and
  Materialise.CopyEntrySucceeds.
- Path segments `.` and `..` are not normalised. FileSystem.Child appends
  them as ordinary names, so a template entry named `..tpl` or `...tpl`
  (stripped to `.` or `..`) lands at a literal `.` or `..` segment, where
  `path.join` would write into the target or its parent. TemplateTree.WellFormed
  excludes such names, so the success lemmas built on it do not cover them.
- Materialise.CopyTemplateFrame: holds for the model's literal segments; for
  a template holding an entry stripped to `..`, the source writes outside the
  target.
- TemplateTree.Substitute: the variables are a sequence of key and value
  pairs, folded in order. Duplicate keys are admitted, and the order
  `Object.entries` gives integer-like keys is not modelled. Neither matters
  for the single `projectName` variable the generators pass.

=== FILE: add.dfy ===
/** `resolveFeatureArg` (dist/commands/add/resolvers.js). */
module AddResolvers {
  import opened Wrappers

  /** The argument must be one of the registered ids, compared as exact
      strings; it is returned unchanged. */
  function ResolveFeatureArg(available: seq<string>, arg: string): (r: Result<string>)
    ensures r.Ok? <==> arg in available
    ensures r.Ok? ==> r.value == arg
    ensures r.Err? ==> r.error == UnknownFeature(arg, available)
  {
    if arg !in available then Err(UnknownFeature(arg, available)) else Ok(arg)
  }
}

/** `collectAddContext` (src/commands/add/collector.ts): which features the
    add command will apply.  The multiselect answer is a parameter: `None`
    when the prompt was cancelled, otherwise the set of picked ids. */
module AddCollector {
  import opened Wrappers
  import opened Manifests
  import opened FileSystem
  import opened PackageManagers
  import opened Probe
  import opened Registry
  import opened AddResolvers

  datatype AddOptions = AddOptions(list: bool, dryRun: bool, yes: bool)

  datatype ResolvedAddContext = ResolvedAddContext(
    projectRoot: Path,
    features: seq<string>,
    isDryRun: bool,
    packageManager: PackageManager)

  /** `part` is `whole` with some elements left out, the order kept. */
  predicate Subsequence<T(==)>(part: seq<T>, whole: seq<T>)
    decreases |whole|
  {
    if part == [] then true
    else if whole == [] then false
    else if part[0] == whole[0] then Subsequence(part[1..], whole[1..])
    else Subsequence(part, whole[1..])
  }

  lemma {:induction false} SubsequenceMembers<T>(part: seq<T>, whole: seq<T>)
    requires Subsequence(part, whole)
    ensures forall x :: x in part ==> x in whole
    decreases |whole|
  {
    if part != [] && whole != [] {
      if part[0] == whole[0] {
        SubsequenceMembers(part[1..], whole[1..]);
        assert part == [part[0]] + part[1..];
      } else {
        SubsequenceMembers(part, whole[1..]);
      }
      assert whole == [whole[0]] + whole[1..];
    }
  }

  /** The loop over the registry: every feature's `detect` runs, in order,
      the first failing one aborting the loop; the features it answers
      `false` for are kept, in registry order. */
  function Undetected(detect: Feature -> Result<bool>, features: seq<Feature>): (r: Result<seq<Feature>>)
    ensures r.Ok? <==> forall i :: 0 <= i < |features| ==> detect(features[i]).Ok?
    ensures r.Ok? ==> forall f :: f in r.value <==> f in features && detect(f) == Ok(false)
    ensures r.Ok? ==> Subsequence(r.value, features)
    ensures r.Err? ==> exists i :: 0 <= i < |features| && detect(features[i]) == Err(r.error)
    decreases |features|
  {
    if features == [] then Ok([])
    else
      var detected :- detect(features[0]);
      var rest :- Undetected(detect, features[1..]);
      assert forall f :: f in features <==> f == features[0] || f in features[1..] by {
        assert features == [features[0]] + features[1..];
      }
      Ok(if detected then rest else [features[0]] + rest)
  }

  /** Each feature's `detect` on the probed project. */
  function Detector(codec: Codec, fs: FS, ctx: ProjectContext): Feature -> Result<bool> {
    f => DetectFeature(codec, fs, f, ctx)
  }

  /** The ids the multiselect answer names, in the order the choices were
      offered. */
  function Selected(available: seq<Feature>, picks: set<string>): (r: seq<string>)
    ensures forall id :: id in r <==> id in picks && id in Ids(available)
    ensures Subsequence(r, Ids(available))
    decreases |available|
  {
    if available == [] then []
    else
      var rest := Selected(available[1..], picks);
      assert Ids(available) == [FeatureId(available[0])] + Ids(available[1..]);
      if FeatureId(available[0]) in picks then [FeatureId(available[0])] + rest else rest
  }

  /** `collectAddContext(featureArg, options)`: probe the current
      directory; a feature argument is validated and used alone; otherwise
      the undetected features are offered (all of them with `--yes`). */
  function CollectAddContext(codec: Codec, fs: FS, cwd: Path, registry: seq<Feature>,
                             featureArg: Option<string>, options: AddOptions,
                             picks: Option<set<string>>): (r: Result<ResolvedAddContext>)
    ensures DetectProjectContext(codec, fs, cwd).Err? ==> r == Err(DetectProjectContext(codec, fs, cwd).error)
    ensures r.Ok? ==>
      && DetectProjectContext(codec, fs, cwd).Ok?
      && r.value.projectRoot == cwd
      && r.value.packageManager == DetectProjectContext(codec, fs, cwd).value.packageManager
      && r.value.isDryRun == options.dryRun
    ensures DetectProjectContext(codec, fs, cwd).Ok? && Truthy(featureArg) ==>
      var ctx := DetectProjectContext(codec, fs, cwd).value;
      r == if featureArg.value in Ids(registry)
           then Ok(ResolvedAddContext(cwd, [featureArg.value], options.dryRun, ctx.packageManager))
           else Err(UnknownFeature(featureArg.value, Ids(registry)))
    ensures DetectProjectContext(codec, fs, cwd).Ok? && !Truthy(featureArg) ==>
      var u := Undetected(Detector(codec, fs, DetectProjectContext(codec, fs, cwd).value), registry);
      && (u.Err? ==> r == Err(u.error))
      && (u.Ok? && u.value == [] ==> r == Err(AllFeaturesConfigured))
      && (u.Ok? && u.value != [] && options.yes ==> r.Ok? && r.value.features == Ids(u.value))
      && (u.Ok? && u.value != [] && !options.yes && picks.None? ==> r == Err(PromptCancelled))
      && (u.Ok? && u.value != [] && !options.yes && picks.Some? ==>
            (r.Ok? <==> Selected(u.value, picks.value) != [])
            && (r.Ok? ==> r.value.features == Selected(u.value, picks.value))
            && (r.Err? ==> r.error == NoFeaturesSelected))
  {
    var ctx :- DetectProjectContext(codec, fs, cwd);
    if Truthy(featureArg) then
      var featureId :- ResolveFeatureArg(Ids(registry), featureArg.value);
      Ok(ResolvedAddContext(ctx.root, [featureId], options.dryRun, ctx.packageManager))
    else
      var available :- Undetected(Detector(codec, fs, ctx), registry);
      if |available| == 0 then Err(AllFeaturesConfigured)
      else if options.yes then
        Ok(ResolvedAddContext(ctx.root, Ids(available), options.dryRun, ctx.packageManager))
      else
        match picks
        case None => Err(PromptCancelled)
        case Some(p) =>
          var chosen := Selected(available, p);
          if |chosen| == 0 then Err(NoFeaturesSelected)
          else Ok(ResolvedAddContext(ctx.root, chosen, options.dryRun, ctx.packageManager))
  }

  /** Whatever the path taken, the collected ids are registered ids; without
      a feature argument they name features `detect` reported missing, in
      registry order. */
  lemma CollectedFeatures(codec: Codec, fs: FS, cwd: Path, registry: seq<Feature>,
                          featureArg: Option<string>, options: AddOptions, picks: Option<set<string>>)
    requires CollectAddContext(codec, fs, cwd, registry, featureArg, options, picks).Ok?
    ensures var c := CollectAddContext(codec, fs, cwd, registry, featureArg, options, picks).value;
      && |c.features| > 0
      && (forall id :: id in c.features ==> id in Ids(registry))
      && (!Truthy(featureArg) ==>
            var ctx := DetectProjectContext(codec, fs, cwd).value;
            && Subsequence(c.features, Ids(registry))
            && forall id :: id in c.features ==>
                 exists f :: f in registry && FeatureId(f) == id && DetectFeature(codec, fs, f, ctx) == Ok(false))
  {
    var c := CollectAddContext(codec, fs, cwd, registry, featureArg, options, picks).value;
    if !Truthy(featureArg) {
      var ctx := DetectProjectContext(codec, fs, cwd).value;
      var available := Undetected(Detector(codec, fs, ctx), registry).value;
      SubsequenceOfIds(available, registry);
      if options.yes {
        assert c.features == Ids(available);
      } else {
        SubsequenceTrans(c.features, Ids(available), Ids(registry));
      }
      forall id | id in c.features
        ensures exists f :: f in registry && FeatureId(f) == id && DetectFeature(codec, fs, f, ctx) == Ok(false)
      {
        assert id in Ids(available);
        var i :| 0 <= i < |available| && Ids(available)[i] == id;
        assert available[i] in available;
      }
      SubsequenceMembers(c.features, Ids(registry));
    }
  }

  /** Keeping some features keeps their ids in the same relative order. */
  lemma {:induction false} SubsequenceOfIds(part: seq<Feature>, whole: seq<Feature>)
    requires Subsequence(part, whole)
    ensures Subsequence(Ids(part), Ids(whole))
    decreases |whole|
  {
    if part != [] && whole != [] {
      assert Ids(whole)[1..] == Ids(whole[1..]);
      if part[0] == whole[0] {
        SubsequenceOfIds(part[1..], whole[1..]);
        assert Ids(part)[1..] == Ids(part[1..]);
      } else {
        SubsequenceOfIds(part, whole[1..]);
        FeatureIdInjective(part[0], whole[0]);
      }
    }
  }

  /** A subsequence without its head is still a subsequence. */
  lemma {:induction false} SubsequenceDropHead<T>(part: seq<T>, whole: seq<T>)
    requires part != [] && Subsequence(part, whole)
    ensures Subsequence(part[1..], whole)
    decreases |whole|, 0
  {
    if whole != [] {
      if part[0] == whole[0] {
        SubsequenceWiden(part[1..], whole[1..], whole[0]);
      } else {
        SubsequenceDropHead(part, whole[1..]);
        SubsequenceWiden(part[1..], whole[1..], whole[0]);
      }
    }
  }

  /** Putting one more element in front of the whole keeps a subsequence. */
  lemma {:induction false} SubsequenceWiden<T>(part: seq<T>, whole: seq<T>, x: T)
    requires Subsequence(part, whole)
    ensures Subsequence(part, [x] + whole)
    decreases |whole|, 1
  {
    var w := [x] + whole;
    assert w[1..] == whole;
    if part != [] && part[0] == x {
      SubsequenceDropHead(part, whole);
    }
  }

  lemma {:induction false} SubsequenceTrans<T>(a: seq<T>, b: seq<T>, c: seq<T>)
    requires Subsequence(a, b) && Subsequence(b, c)
    ensures Subsequence(a, c)
    decreases |c|
  {
    if a != [] && c != [] {
      assert b != [];
      if b[0] == c[0] {
        if a[0] == b[0] {
          SubsequenceTrans(a[1..], b[1..], c[1..]);
        } else {
          SubsequenceTrans(a, b[1..], c[1..]);
        }
      } else {
        SubsequenceTrans(a, b, c[1..]);
        if a[0] == c[0] {
          SubsequenceDropHead(a, c[1..]);
        }
      }
    }
  }
}

/** `addCommand` (src/commands/add.ts): list, dry run, or apply the
    collected features in order against one probed context and install
    the dependencies once. */
module AddCommand {
  import opened Wrappers
  import opened Manifests
  import opened FileSystem
  import opened PackageManagers
  import opened Probe
  import opened Collaborators
  import opened Registry
  import opened AddCollector

  datatype AddOutcome =
    | Listed(ids: seq<string>)
    | DryRun(ids: seq<string>)
    | Added(ids: seq<string>)
    | Ended(ending: Ending)

  datatype AddRun = AddRun(fs: FS, effects: seq<Effect>, outcome: AddOutcome)

  /** Each feature's `apply` with the one probed context. */
  function Applier(codec: Codec, ctx: ProjectContext): (FS, Feature) -> Result<FS> {
    (fs, f) => ApplyFeature(codec, fs, f, ctx)
  }

  /** The apply loop: each id looked up and its feature applied, in order;
      the first failure stops the loop and keeps the writes made before it. */
  function ApplyAll(fs: FS, registry: seq<Feature>, ids: seq<string>, apply: (FS, Feature) -> Result<FS>): (r: Run<()>)
    ensures r.effects == []
    decreases |ids|
  {
    if ids == [] then Run(fs, [], Ok(()))
    else
      match Lookup(registry, ids[0])
      case None => Run(fs, [], Err(NotRegistered(ids[0])))
      case Some(f) =>
        match apply(fs, f)
        case Err(e) => Run(fs, [], Err(e))
        case Ok(fs1) => ApplyAll(fs1, registry, ids[1..], apply)
  }

  /** Applying `a + b` is applying `a`, then, if that succeeded, `b` on its
      result: the features take effect in the order given. */
  lemma {:induction false} ApplyAllAppend(fs: FS, registry: seq<Feature>, a: seq<string>, b: seq<string>, apply: (FS, Feature) -> Result<FS>)
    ensures var ra := ApplyAll(fs, registry, a, apply);
      ApplyAll(fs, registry, a + b, apply) ==
        if ra.result.Err? then ra else ApplyAll(ra.fs, registry, b, apply)
    decreases |a|
  {
    if a != [] {
      assert (a + b)[0] == a[0] && (a + b)[1..] == a[1..] + b;
      match Lookup(registry, a[0])
      case None =>
      case Some(f) =>
        match apply(fs, f)
        case Err(e) =>
        case Ok(fs1) => ApplyAllAppend(fs1, registry, a[1..], b, apply);
    } else {
      assert a + b == b;
    }
  }

  /** With registered ids the lookup never comes back empty, so a failing
      loop failed in some feature's own `apply`. */
  lemma {:induction false} ApplyAllRegistered(fs: FS, registry: seq<Feature>, ids: seq<string>, apply: (FS, Feature) -> Result<FS>)
    requires forall id :: id in ids ==> id in Ids(registry)
    ensures var r := ApplyAll(fs, registry, ids, apply);
      r.result.Err? ==> exists fs0, f :: f in registry && apply(fs0, f) == Err(r.result.error)
    decreases |ids|
  {
    if ids != [] {
      assert ids[0] in ids;
      var f := Lookup(registry, ids[0]).value;
      match apply(fs, f)
      case Err(e) =>
        assert apply(fs, f) == Err(e);
      case Ok(fs1) =>
        assert forall id :: id in ids[1..] ==> id in ids;
        ApplyAllRegistered(fs1, registry, ids[1..], apply);
    }
  }

  /** The tail of the command once the features are known: the apply loop,
      then, only if every apply succeeded, one install. */
  function ApplyAndInstall(fs: FS, registry: seq<Feature>, c: ResolvedAddContext,
                           apply: (FS, Feature) -> Result<FS>, installSucceeds: bool): (r: AddRun)
    ensures var applied := ApplyAll(fs, registry, c.features, apply);
      && r.fs == applied.fs
      && (r.effects == [] <==> applied.result.Err?)
      && (r.effects != [] ==> r.effects == [Install(c.projectRoot, c.packageManager)])
      && (r.outcome.Added? <==> applied.result.Ok? && installSucceeds)
      && (r.outcome.Added? ==> r.outcome.ids == c.features)
      && (!r.outcome.Added? ==> r.outcome.Ended?)
  {
    var applied := ApplyAll(fs, registry, c.features, apply);
    if applied.result.Err? then AddRun(applied.fs, [], Ended(HandleError(applied.result.error)))
    else
      var installed := InstallDependencies(applied.fs, c.projectRoot, c.packageManager, installSucceeds);
      AddRun(installed.fs, installed.effects,
             if installed.result.Ok? then Added(c.features) else Ended(HandleError(installed.result.error)))
  }

  /** `addCommand(featureArg, options)` for the current directory `cwd`.
      The install subprocess's outcome is a parameter. */
  function Add(codec: Codec, fs: FS, cwd: Path, registry: seq<Feature>,
               featureArg: Option<string>, options: AddOptions,
               picks: Option<set<string>>, installSucceeds: bool): (r: AddRun)
    ensures options.list ==> r == AddRun(fs, [], Listed(Ids(registry)))
    ensures !options.list && CollectAddContext(codec, fs, cwd, registry, featureArg, options, picks) == Err(PromptCancelled) ==>
      r == AddRun(fs, [], Ended(Cancelled))
    ensures r.outcome.DryRun? ==> r.fs == fs && r.effects == []
    ensures r.effects == [] || r.effects == [Install(cwd, DetectPackageManager(fs, cwd))]
    ensures r.outcome.Added? ==>
      && r.effects == [Install(cwd, DetectPackageManager(fs, cwd))]
      && installSucceeds
      && CollectAddContext(codec, fs, cwd, registry, featureArg, options, picks).Ok?
      && r.outcome.ids == CollectAddContext(codec, fs, cwd, registry, featureArg, options, picks).value.features
  {
    if options.list then AddRun(fs, [], Listed(Ids(registry)))
    else
      match CollectAddContext(codec, fs, cwd, registry, featureArg, options, picks)
      case Err(e) => AddRun(fs, [], Ended(HandleError(e)))
      case Ok(c) =>
        if c.isDryRun then AddRun(fs, [], DryRun(c.features))
        else
          var ctx := DetectProjectContext(codec, fs, c.projectRoot).value;
          ApplyAndInstall(fs, registry, c, Applier(codec, ctx), installSucceeds)
  }

  /** The second probe `addCommand` makes sees the project the collector
      probed, so every feature is applied with that same context. */
  lemma SameContext(codec: Codec, fs: FS, cwd: Path, registry: seq<Feature>,
                    featureArg: Option<string>, options: AddOptions, picks: Option<set<string>>)
    requires CollectAddContext(codec, fs, cwd, registry, featureArg, options, picks).Ok?
    ensures var c := CollectAddContext(codec, fs, cwd, registry, featureArg, options, picks).value;
      DetectProjectContext(codec, fs, c.projectRoot) == DetectProjectContext(codec, fs, cwd)
  {
  }

  /** End to end: `add <id>` for a registered feature that succeeds leaves
      a project on which a fresh probe finds that feature configured. */
  lemma AddOneThenDetect(codec: Codec, fs: FS, cwd: Path, registry: seq<Feature>, f: Feature,
                         options: AddOptions, picks: Option<set<string>>, installSucceeds: bool)
    requires Lawful(codec)
    requires f in registry
    requires Add(codec, fs, cwd, registry, Some(FeatureId(f)), options, picks, installSucceeds).outcome.Added?
    ensures var r := Add(codec, fs, cwd, registry, Some(FeatureId(f)), options, picks, installSucceeds);
      DetectProjectContext(codec, r.fs, cwd).Ok?
      && DetectFeature(codec, r.fs, f, DetectProjectContext(codec, r.fs, cwd).value) == Ok(true)
  {
    AddOneApplies(codec, fs, cwd, registry, f, options, picks, installSucceeds);
    ApplyThenDetect(codec, fs, f, DetectProjectContext(codec, fs, cwd).value);
  }

  /** `add <id>` that succeeds applied exactly that feature, once, with the
      probed context. */
  lemma AddOneApplies(codec: Codec, fs: FS, cwd: Path, registry: seq<Feature>, f: Feature,
                      options: AddOptions, picks: Option<set<string>>, installSucceeds: bool)
    requires f in registry
    requires Add(codec, fs, cwd, registry, Some(FeatureId(f)), options, picks, installSucceeds).outcome.Added?
    ensures DetectProjectContext(codec, fs, cwd).Ok?
    ensures var ctx := DetectProjectContext(codec, fs, cwd).value;
      && ctx.root == cwd
      && ApplyFeature(codec, fs, f, ctx).Ok?
      && Add(codec, fs, cwd, registry, Some(FeatureId(f)), options, picks, installSucceeds).fs
         == ApplyFeature(codec, fs, f, ctx).value
  {
    var id := FeatureId(f);
    FeatureIdNonEmpty(f);
    assert id in Ids(registry) by {
      var i :| 0 <= i < |registry| && registry[i] == f;
      assert Ids(registry)[i] == id;
    }
    AddWithArg(codec, fs, cwd, registry, id, options, picks, installSucceeds);
    var ctx := DetectProjectContext(codec, fs, cwd).value;
    ApplyAllOne(fs, registry, f, Applier(codec, ctx));
  }

  /** `add <id>` with a registered id that succeeds ran the apply loop on
      that id alone. */
  lemma AddWithArg(codec: Codec, fs: FS, cwd: Path, registry: seq<Feature>, id: string,
                   options: AddOptions, picks: Option<set<string>>, installSucceeds: bool)
    requires |id| > 0 && id in Ids(registry)
    requires Add(codec, fs, cwd, registry, Some(id), options, picks, installSucceeds).outcome.Added?
    ensures DetectProjectContext(codec, fs, cwd).Ok?
    ensures var ctx := DetectProjectContext(codec, fs, cwd).value;
      var applied := ApplyAll(fs, registry, [id], Applier(codec, ctx));
      && applied.result.Ok?
      && Add(codec, fs, cwd, registry, Some(id), options, picks, installSucceeds).fs == applied.fs
  {
  }

  /** The loop over one registered id applies that id's feature. */
  lemma ApplyAllOne(fs: FS, registry: seq<Feature>, f: Feature, apply: (FS, Feature) -> Result<FS>)
    requires f in registry
    ensures var r := ApplyAll(fs, registry, [FeatureId(f)], apply);
      && (r.result.Ok? <==> apply(fs, f).Ok?)
      && (r.result.Ok? ==> r.fs == apply(fs, f).value)
  {
    LookupRegistered(registry, f);
  }
}

=== FILE: ci.dfy ===
/** The `ci` feature (src/features/ci.ts): a GitHub Actions workflow or a
    GitLab CI config whose jobs follow the project's scripts.  The generated
    files are modelled as their lists of lines; a file's text is `Unlines`
    of them. */
module Ci {
  import opened Wrappers
  import opened Strings
  import opened Manifests
  import opened FileSystem
  import opened PackageManagers
  import opened Probe

  const Id := "ci"

  /** `scripts.<name>` is truthy: present and not the empty string. */
  predicate ScriptSet(scripts: StrMap, name: string) {
    name in scripts && scripts[name] != ""
  }

  /** The scripts that can get a CI step, in the order the generators test them. */
  const JobOrder: seq<string> := ["lint", "test", "build"]

  function Rank(name: string): nat {
    if name == "lint" then 0 else if name == "test" then 1 else 2
  }

  /** `getScripts` (a missing `scripts` object reads as `{}`) followed by the
      three `if (scripts.x)` tests: the scripts that get a step, each once,
      in the fixed order. */
  function Jobs(m: Manifest): (r: seq<string>)
    ensures forall n :: n in r <==> n in JobOrder && ScriptSet(m.Scripts(), n)
    ensures forall i, j :: 0 <= i < j < |r| ==> Rank(r[i]) < Rank(r[j])
  {
    var s := m.Scripts();
    (if ScriptSet(s, "lint") then ["lint"] else [])
    + (if ScriptSet(s, "test") then ["test"] else [])
    + (if ScriptSet(s, "build") then ["build"] else [])
  }

  /** A manifest without `scripts` gets no step at all. */
  lemma NoScriptsNoJobs(m: Manifest)
    requires m.scripts.None?
    ensures Jobs(m) == []
  {
  }

  // ---------------------------------------------------------------- GitHub

  const WorkflowHeader: seq<string> := [
    "name: CI", "on:", "  push:", "    branches: [main]", "  pull_request:",
    "    branches: [main]", "jobs:", "  ci:", "    runs-on: ubuntu-latest", "    steps:"]

  const RunPrefix := "      - run: "

  function RunStep(cmd: string): string {
    RunPrefix + cmd
  }

  /** The first four fixed steps, the same for every package manager. */
  const FixedHead: seq<string> := ["      - uses: actions/checkout@v4", "      - uses: actions/setup-node@v4",
                                   "        with:", "          node-version: 20"]

  /** The five steps every workflow starts with: checkout, node setup and
      the install. */
  function FixedSteps(pm: PackageManager): seq<string> {
    FixedHead + [RunStep(InstallCommand(pm))]
  }

  function ScriptSteps(pm: PackageManager, jobs: seq<string>): (r: seq<string>)
    ensures |r| == |jobs|
  {
    seq(|jobs|, i requires 0 <= i < |jobs| => RunStep(RunCommand(pm, jobs[i])))
  }

  /** `generateGitHubWorkflow`: the header, the fixed steps, then one `run`
      step per job. */
  function GitHubLines(ctx: ProjectContext): seq<string> {
    WorkflowHeader + FixedSteps(ctx.packageManager) + ScriptSteps(ctx.packageManager, Jobs(ctx.packageJson))
  }

  function GitHubWorkflow(ctx: ProjectContext): string {
    Unlines(GitHubLines(ctx))
  }

  /** None of the lines before the install step is a `run` step. */
  lemma HeadIsNotRun(pm: PackageManager, cmd: string)
    ensures RunStep(cmd) !in WorkflowHeader
    ensures RunStep(cmd) !in FixedSteps(pm)[..4]
  {
    var line := RunStep(cmd);
    assert line[6] == '-' && line[8] == 'r' && |line| >= 13;
    NotRunLine(WorkflowHeader, line);
    assert FixedSteps(pm)[..4] == FixedHead;
    NotRunLine(FixedHead, line);
  }

  /** A line with `-` at column 6 and `r` at column 8 is none of the
      header lines or the first four fixed steps. */
  lemma NotRunLine(lines: seq<string>, line: string)
    requires lines == WorkflowHeader || lines == FixedHead
    requires |line| >= 13 && line[6] == '-' && line[8] == 'r'
    ensures line !in lines
  {
    forall i | 0 <= i < |lines| ensures lines[i] != line {
      assert |lines[i]| < 13 || lines[i][6] != '-' || lines[i][8] != 'r';
    }
  }

  /** The workflow runs script `n` exactly when `n` is one of lint, test and
      build and is set in the manifest; the install step is the fifteenth
      line and no line up to it runs a script. */
  lemma GitHubSteps(ctx: ProjectContext, n: string)
    ensures var lines := GitHubLines(ctx);
      && (RunStep(RunCommand(ctx.packageManager, n)) in lines <==> n in JobOrder && ScriptSet(ctx.packageJson.Scripts(), n))
      && lines[14] == RunStep(InstallCommand(ctx.packageManager))
      && (forall i :: 0 <= i <= 14 ==> lines[i] != RunStep(RunCommand(ctx.packageManager, n)))
      && lines[..14] == WorkflowHeader + FixedSteps(ctx.packageManager)[..4]
  {
    var pm := ctx.packageManager;
    var lines := GitHubLines(ctx);
    var jobs := Jobs(ctx.packageJson);
    var steps := ScriptSteps(pm, jobs);
    var line := RunStep(RunCommand(pm, n));
    var head := WorkflowHeader + FixedSteps(pm);
    assert lines == head + steps;
    assert head == WorkflowHeader + FixedSteps(pm)[..4] + [RunStep(InstallCommand(pm))];
    HeadIsNotRun(pm, RunCommand(pm, n));
    InstallIsNotRun(pm, n);
    RunStepCommand(RunCommand(pm, n), InstallCommand(pm));
    assert line !in head;
    forall i | 0 <= i <= 14 ensures lines[i] != line {
      assert lines[i] == head[i];
    }
    if line in steps {
      var j :| 0 <= j < |jobs| && steps[j] == line;
      RunStepInjective(pm, jobs[j], n);
    }
    if n in jobs {
      var j :| 0 <= j < |jobs| && jobs[j] == n;
      assert steps[j] == line;
    }
  }

  /** A `run` step determines its command. */
  lemma RunStepCommand(a: string, b: string)
    ensures RunStep(a) == RunStep(b) ==> a == b
  {
    assert RunStep(a)[|RunPrefix|..] == a;
    assert RunStep(b)[|RunPrefix|..] == b;
  }

  lemma RunStepInjective(pm: PackageManager, a: string, b: string)
    requires RunStep(RunCommand(pm, a)) == RunStep(RunCommand(pm, b))
    ensures a == b
  {
    RunStepCommand(RunCommand(pm, a), RunCommand(pm, b));
    RunCommandInjective(pm, a, b);
  }

  // ---------------------------------------------------------------- GitLab

  /** The stages block and the install job every config starts with. */
  function BaseConfig(installCmd: string): seq<string> {
    ["stages:", "  - install", "  - lint", "  - test", "  - build", "",
     "install:", "  stage: install", "  image: node:20-alpine", "  script:",
     "    - " + installCmd, "  cache:", "    paths:", "      - node_modules/"]
  }

  /** The job for one script: a blank separator line, then the job named
      after the script, in the stage of the same name. */
  function JobBlock(name: string, cmd: string): seq<string> {
    ["", name + ":", "  stage: " + name, "  image: node:20-alpine", "  script:",
     "    - " + cmd, "  cache:", "    paths:", "      - node_modules/"]
  }

  function JobBlocks(pm: PackageManager, jobs: seq<string>): seq<string>
    decreases |jobs|
  {
    if jobs == [] then [] else JobBlock(jobs[0], RunCommand(pm, jobs[0])) + JobBlocks(pm, jobs[1..])
  }

  /** The text the jobs append, built as the source builds it: one
      `config +=` of a job's text per script. */
  function JobsText(pm: PackageManager, jobs: seq<string>): string
    decreases |jobs|
  {
    if jobs == [] then "" else Unlines(JobBlock(jobs[0], RunCommand(pm, jobs[0]))) + JobsText(pm, jobs[1..])
  }

  /** `generateGitLabCI`: the base text, then each job's text appended. */
  function GitLabConfig(ctx: ProjectContext): string {
    var pm := ctx.packageManager;
    Unlines(BaseConfig(InstallCommand(pm))) + JobsText(pm, Jobs(ctx.packageJson))
  }

  /** The lines of the config: the base, then the job blocks. */
  function GitLabLines(ctx: ProjectContext): seq<string> {
    var pm := ctx.packageManager;
    BaseConfig(InstallCommand(pm)) + JobBlocks(pm, Jobs(ctx.packageJson))
  }

  /** Appending the jobs' texts one by one gives the text of all their lines. */
  lemma {:induction false} JobsTextIsLines(pm: PackageManager, jobs: seq<string>)
    requires jobs != []
    ensures JobsText(pm, jobs) == Unlines(JobBlocks(pm, jobs))
    decreases |jobs|
  {
    var head := JobBlock(jobs[0], RunCommand(pm, jobs[0]));
    if jobs[1..] != [] {
      JobsTextIsLines(pm, jobs[1..]);
      UnlinesAppend(head, JobBlocks(pm, jobs[1..]));
    } else {
      assert JobBlocks(pm, jobs) == head;
    }
  }

  /** The config text the source assembles by appending is exactly its lines. */
  lemma GitLabConfigIsLines(ctx: ProjectContext)
    ensures GitLabConfig(ctx) == Unlines(GitLabLines(ctx))
  {
    var pm := ctx.packageManager;
    var jobs := Jobs(ctx.packageJson);
    var base := BaseConfig(InstallCommand(pm));
    if jobs == [] {
      assert GitLabLines(ctx) == base;
    } else {
      JobsTextIsLines(pm, jobs);
      UnlinesAppend(base, JobBlocks(pm, jobs));
    }
  }

  /** A job header `n:` with `n` not starting with a blank is among the job
      blocks exactly when `n` is one of the jobs, and every job's block runs
      its script. */
  lemma {:induction false} JobBlocksMember(pm: PackageManager, jobs: seq<string>, n: string)
    requires |n| > 0 && n[0] != ' '
    ensures n + ":" in JobBlocks(pm, jobs) <==> n in jobs
    ensures n in jobs ==> "    - " + RunCommand(pm, n) in JobBlocks(pm, jobs)
    decreases |jobs|
  {
    if jobs != [] {
      var m := jobs[0];
      JobBlocksMember(pm, jobs[1..], n);
      var block := JobBlock(m, RunCommand(pm, m));
      assert (n + ":")[0] == n[0];
      assert n + ":" in block <==> n == m by {
        if n + ":" == m + ":" {
          assert n == (n + ":")[..|n|];
        }
        assert ("  stage: " + m)[0] == ' ';
        assert ("    - " + RunCommand(pm, m))[0] == ' ';
      }
      assert block[5] == "    - " + RunCommand(pm, m);
      assert jobs == [m] + jobs[1..];
    }
  }

  /** The config always has the stages and the install job; it has a job
      `n:` for one of lint, test and build exactly when that script is set,
      and that job runs the script with the project's package manager. */
  lemma GitLabJobs(ctx: ProjectContext, n: string)
    requires n in JobOrder
    ensures var lines := GitLabLines(ctx);
      && "stages:" in lines && "install:" in lines
      && "    - " + InstallCommand(ctx.packageManager) in lines
      && (n + ":" in lines <==> ScriptSet(ctx.packageJson.Scripts(), n))
      && (ScriptSet(ctx.packageJson.Scripts(), n) ==> "    - " + RunCommand(ctx.packageManager, n) in lines)
  {
    var pm := ctx.packageManager;
    var base := BaseConfig(InstallCommand(pm));
    assert n + ":" !in base;
    assert base[10] == "    - " + InstallCommand(pm);
    JobBlocksMember(pm, Jobs(ctx.packageJson), n);
  }

  // ---------------------------------------------------------------- detect, prompt, apply

  /** A workflow file: the name ends in `.yml` or `.yaml`. */
  predicate IsWorkflowFile(name: string) {
    EndsWith(name, ".yml") || EndsWith(name, ".yaml")
  }

  function WorkflowsDir(root: Path): Path {
    root + [".github", "workflows"]
  }

  /** `detect`: `.gitlab-ci.yml` exists at the root, or `.github/workflows`
      exists and lists a workflow file.  Listing a workflows path that is a
      file fails, as `readdir` does. */
  function Detect(fs: FS, ctx: ProjectContext): (r: Result<bool>)
    ensures Exists(fs, ctx.root + [".gitlab-ci.yml"]) ==> r == Ok(true)
    ensures r.Err? <==> !Exists(fs, ctx.root + [".gitlab-ci.yml"]) && IsFile(fs, WorkflowsDir(ctx.root))
    ensures r == Ok(true) <==>
      Exists(fs, ctx.root + [".gitlab-ci.yml"])
      || (IsDir(fs, WorkflowsDir(ctx.root)) && exists f :: f in ChildNames(fs, WorkflowsDir(ctx.root)) && IsWorkflowFile(f))
  {
    if Exists(fs, ctx.root + [".gitlab-ci.yml"]) then Ok(true)
    else
      var workflowsDir := WorkflowsDir(ctx.root);
      if Exists(fs, workflowsDir) then
        var files :- ReadDir(fs, workflowsDir);
        Ok(exists f :: f in files && IsWorkflowFile(f))
      else Ok(false)
  }

  /** An empty workflows directory does not count as configured CI. */
  lemma EmptyWorkflowsNotDetected(fs: FS, ctx: ProjectContext)
    requires !Exists(fs, ctx.root + [".gitlab-ci.yml"])
    requires IsDir(fs, WorkflowsDir(ctx.root)) && ChildNames(fs, WorkflowsDir(ctx.root)) == {}
    ensures Detect(fs, ctx) == Ok(false)
  {
  }

  /** `prompt`: the selected provider, or a cancellation when the answer is
      missing or empty. */
  function Prompt(reply: Option<string>): (r: Result<string>)
    ensures r.Ok? <==> Truthy(reply)
    ensures r.Ok? ==> r.value == reply.value
    ensures r.Err? ==> r.error == CiProviderCancelled
  {
    if !Truthy(reply) then Err(CiProviderCancelled) else Ok(reply.value)
  }

  /** `ensureDir(dir)` followed by `writeFile` of `name` in it. */
  function WriteInDir(fs: FS, dir: Path, name: string, text: string): (r: Result<FS>)
    ensures && (r.Ok? <==> EnsureDir(fs, dir).Ok? && !IsDir(fs, dir + [name]))
      && (r.Ok? ==> dir + [name] in r.value && r.value[dir + [name]] == File(text))
      && (r.Ok? ==> IsDir(r.value, dir))
      && (r.Ok? ==> forall q :: q in fs && q != dir + [name] ==> q in r.value && r.value[q] == fs[q])
      && (r.Ok? ==> forall q :: q in r.value && q !in fs && q != dir + [name] ==>
            r.value[q] == Dir && |q| <= |dir| && q == dir[..|q|])
  {
    var file := dir + [name];
    match EnsureDir(fs, dir)
    case Err(e) => Err(e)
    case Ok(fs1) =>
      assert Parent(file) == dir && IsDir(fs1, dir);
      assert IsDir(fs1, file) <==> IsDir(fs, file) by {
        assert |file| > |dir|;
      }
      WriteFile(fs1, file, text)
  }

  /** `ensureDir` of the workflows directory, then `writeFile` of
      `ci.yml` in it. */
  function WriteWorkflow(fs: FS, root: Path, text: string): (r: Result<FS>)
    ensures var wf := WorkflowsDir(root);
      && (r.Ok? <==> EnsureDir(fs, wf).Ok? && !IsDir(fs, wf + ["ci.yml"]))
      && (r.Ok? ==> wf + ["ci.yml"] in r.value && r.value[wf + ["ci.yml"]] == File(text))
      && (r.Ok? ==> IsDir(r.value, wf))
      && (r.Ok? ==> forall q :: q in fs && q != wf + ["ci.yml"] ==> q in r.value && r.value[q] == fs[q])
      && (r.Ok? ==> forall q :: q in r.value && q !in fs && q != wf + ["ci.yml"] ==>
            r.value[q] == Dir && |q| <= |wf| && q == wf[..|q|])
  {
    WriteInDir(fs, WorkflowsDir(root), "ci.yml", text)
  }

  /** `apply`: provider `github` writes `.github/workflows/ci.yml` after
      creating its directory; any other provider, none included, writes
      `.gitlab-ci.yml` at the root. */
  function Apply(fs: FS, ctx: ProjectContext, provider: Option<string>): (r: Result<FS>)
    ensures provider != Some("github") ==>
      && (r.Ok? <==> IsDir(fs, ctx.root) && !IsDir(fs, ctx.root + [".gitlab-ci.yml"]))
      && (r.Ok? ==> r.value == fs[ctx.root + [".gitlab-ci.yml"] := File(GitLabConfig(ctx))])
    ensures provider == Some("github") ==> r == WriteWorkflow(fs, ctx.root, GitHubWorkflow(ctx))
  {
    if provider == Some("github") then
      WriteWorkflow(fs, ctx.root, GitHubWorkflow(ctx))
    else
      WriteFile(fs, ctx.root + [".gitlab-ci.yml"], GitLabConfig(ctx))
  }

  /** Writing the workflow file leaves the probe's answer unchanged and
      makes `detect` true. */
  lemma WriteWorkflowThenDetect(codec: Codec, fs: FS, ctx: ProjectContext, text: string)
    requires WriteWorkflow(fs, ctx.root, text).Ok?
    ensures DetectProjectContext(codec, WriteWorkflow(fs, ctx.root, text).value, ctx.root) == DetectProjectContext(codec, fs, ctx.root)
    ensures Detect(WriteWorkflow(fs, ctx.root, text).value, ctx) == Ok(true)
  {
    var root := ctx.root;
    var r := WriteWorkflow(fs, root, text).value;
    forall name | name != ".github"
      ensures (root + [name] in r <==> root + [name] in fs)
      ensures root + [name] in r ==> r[root + [name]] == fs[root + [name]]
    {
      WriteWorkflowKeepsChild(fs, root, text, name);
    }
    ProbeKeptOutsideChild(codec, r, fs, root, ".github");
    WriteWorkflowDetected(fs, ctx, text);
  }

  /** A root entry other than `.github` is untouched by the workflow write. */
  lemma WriteWorkflowKeepsChild(fs: FS, root: Path, text: string, name: string)
    requires WriteWorkflow(fs, root, text).Ok?
    requires name != ".github"
    ensures var r := WriteWorkflow(fs, root, text).value;
      && (root + [name] in r <==> root + [name] in fs)
      && (root + [name] in fs ==> r[root + [name]] == fs[root + [name]])
  {
    var wf := WorkflowsDir(root);
    var p := root + [name];
    assert |p| != |wf + ["ci.yml"]|;
    assert p[|root|] == name && wf[|root|] == ".github";
  }

  /** After the workflow write `detect` finds `ci.yml`. */
  lemma WriteWorkflowDetected(fs: FS, ctx: ProjectContext, text: string)
    requires WriteWorkflow(fs, ctx.root, text).Ok?
    ensures Detect(WriteWorkflow(fs, ctx.root, text).value, ctx) == Ok(true)
  {
    var r := WriteWorkflow(fs, ctx.root, text).value;
    ChildListed(r, WorkflowsDir(ctx.root), "ci.yml");
    assert IsWorkflowFile("ci.yml");
  }

  /** Writing `.gitlab-ci.yml` leaves the probe's answer unchanged and makes
      `detect` true. */
  lemma WriteGitLabThenDetect(codec: Codec, fs: FS, ctx: ProjectContext, text: string)
    ensures var r := fs[ctx.root + [".gitlab-ci.yml"] := File(text)];
      && DetectProjectContext(codec, r, ctx.root) == DetectProjectContext(codec, fs, ctx.root)
      && Detect(r, ctx) == Ok(true)
  {
    ProbeIgnoresOtherChild(codec, fs, ctx.root, ".gitlab-ci.yml", File(text));
  }

  /** The fixed point: after `apply` with any provider the probe answers as
      before (it reads none of the written paths) and `detect` is true. */
  lemma ApplyThenDetect(codec: Codec, fs: FS, ctx: ProjectContext, provider: Option<string>)
    requires Apply(fs, ctx, provider).Ok?
    ensures DetectProjectContext(codec, Apply(fs, ctx, provider).value, ctx.root) == DetectProjectContext(codec, fs, ctx.root)
    ensures Detect(Apply(fs, ctx, provider).value, ctx) == Ok(true)
  {
    if provider == Some("github") {
      WriteWorkflowThenDetect(codec, fs, ctx, GitHubWorkflow(ctx));
    } else {
      WriteGitLabThenDetect(codec, fs, ctx, GitLabConfig(ctx));
    }
  }

  /** Writing the same workflow again changes nothing. */
  lemma WriteWorkflowIdempotent(fs: FS, root: Path, text: string)
    requires WriteWorkflow(fs, root, text).Ok?
    ensures WriteWorkflow(WriteWorkflow(fs, root, text).value, root, text) == WriteWorkflow(fs, root, text)
  {
    var r := WriteWorkflow(fs, root, text).value;
    var wf := WorkflowsDir(root);
    assert EnsureDir(r, wf) == Ok(r);
    assert r[wf + ["ci.yml"] := File(text)] == r;
  }

  /** Applying twice with the same provider leaves the project as applying once. */
  lemma ApplyIdempotent(fs: FS, ctx: ProjectContext, provider: Option<string>)
    requires Apply(fs, ctx, provider).Ok?
    ensures Apply(Apply(fs, ctx, provider).value, ctx, provider) == Apply(fs, ctx, provider)
  {
    if provider == Some("github") {
      WriteWorkflowIdempotent(fs, ctx.root, GitHubWorkflow(ctx));
    } else {
      var r := Apply(fs, ctx, provider).value;
      var p := ctx.root + [".gitlab-ci.yml"];
      assert Parent(p) == ctx.root;
      assert r[p := File(GitLabConfig(ctx))] == r;
    }
  }
}

=== FILE: copy_template.dfy ===
/** `copyTemplate(templatePath, targetPath, vars)` (src/utils/copyTemplate.ts):
    a recursive copy of a template tree into the file system, stripping the
    `.tpl` marker from every name and substituting `{{key}}` placeholders in
    every file.  The template is read from the packaged store, which the copy
    never writes to, so it is given as a tree rather than as part of `fs`. */
module Materialise {
  import opened Wrappers
  import opened FileSystem
  import opened TemplateTree

  type Vars = seq<(string, string)>

  /** Where an entry lands: `path.join(targetPath, entry.replace('.tpl', ''))`. */
  function Dest(target: Path, e: Entry): Path {
    Child(target, StripTpl(e.name))
  }

  function CopyTemplate(entries: seq<Entry>, fs: FS, target: Path, vars: Vars): (r: Result<FS>)
    ensures r.Err? ==> r.error.FromFileSystem()
    decreases SizeAll(entries), 2
  {
    var fs1 :- EnsureDir(fs, target);
    CopyEntries(entries, fs1, target, vars)
  }

  /** The `for (const entry of entries)` loop, in directory-entry order. */
  function CopyEntries(entries: seq<Entry>, fs: FS, target: Path, vars: Vars): (r: Result<FS>)
    ensures r.Err? ==> r.error.FromFileSystem()
    decreases SizeAll(entries), 1
  {
    if |entries| == 0 then Ok(fs)
    else
      SizeAllSplit(entries);
      var fs1 :- CopyEntry(entries[0], fs, target, vars);
      CopyEntries(entries[1..], fs1, target, vars)
  }

  /** One entry: a directory is ensured and then copied into; a file is
      written with its placeholders substituted. */
  function CopyEntry(e: Entry, fs: FS, target: Path, vars: Vars): (r: Result<FS>)
    ensures r.Err? ==> r.error.FromFileSystem()
    decreases Size(e), 0
  {
    match e
    case DirEntry(_, children) =>
      DirSize(e);
      var fs1 :- EnsureDir(fs, Dest(target, e));
      CopyTemplate(children, fs1, Dest(target, e), vars)
    case FileEntry(_, content) =>
      WriteFile(fs, Dest(target, e), Substitute(content, vars))
  }

  // -------------------------------------------------------------------
  // What a step may change

  /** `fs2` arises from `fs1` by writes at or below `t` and by creating
      directories on the way down to `t`: every existing path survives, a
      directory stays a directory, nothing outside `t` changes, and what is
      new above `t` is a directory. */
  predicate Frame(fs1: FS, fs2: FS, t: Path) {
    && (forall q :: q in fs1 ==>
         && q in fs2
         && (fs1[q].Dir? ==> fs2[q] == Dir)
         && (!Under(q, t) ==> fs2[q] == fs1[q]))
    && (forall q :: q in fs2 && q !in fs1 ==> Under(q, t) || (Under(t, q) && fs2[q] == Dir))
  }

  lemma FrameTrans(a: FS, b: FS, c: FS, t: Path)
    requires Frame(a, b, t) && Frame(b, c, t)
    ensures Frame(a, c, t)
  {
  }

  /** A frame at a child of `t` is a frame at `t`. */
  lemma FrameWiden(a: FS, b: FS, child: Path, t: Path)
    requires Frame(a, b, child)
    requires Under(child, t) && |child| <= |t| + 1
    ensures Frame(a, b, t)
  {
    forall q | q in b && q !in a
      ensures Under(q, t) || Under(t, q)
    {
      if Under(child, q) && |q| <= |t| {
        assert q == child[..|q|] == t[..|q|];
      }
    }
  }

  /** A directory stays a directory across a frame. */
  lemma FrameKeepsDir(a: FS, b: FS, t: Path, p: Path)
    requires Frame(a, b, t) && IsDir(a, p)
    ensures IsDir(b, p)
  {
  }

  /** Nothing lies at or below `t` and no file stands on the way down to
      it: a fresh place for a new directory tree. */
  predicate Vacant(fs: FS, t: Path) {
    && (forall k :: 0 <= k <= |t| ==> !IsFile(fs, t[..k]))
    && (forall q :: q in fs ==> !Under(q, t))
  }

  /** Neither path lies at or below the other. */
  predicate Apart(a: Path, b: Path) {
    !Under(a, b) && !Under(b, a)
  }

  /** Paths that differ in one segment are apart. */
  lemma ApartAt(a: Path, b: Path, i: int)
    requires 0 <= i < |a| && i < |b| && a[i] != b[i]
    ensures Apart(a, b)
  {
    assert |b| <= |a| ==> a[..|b|][i] != b[i];
    assert |a| <= |b| ==> b[..|a|][i] != a[i];
  }

  /** Two paths above one path are one above the other. */
  lemma UnderBoth(q: Path, a: Path, b: Path)
    ensures Under(q, a) && Under(q, b) ==> Under(a, b) || Under(b, a)
  {
    if Under(q, a) && Under(q, b) {
      if |a| <= |b| {
        assert b[..|a|] == q[..|b|][..|a|];
      } else {
        assert a[..|b|] == q[..|a|][..|b|];
      }
    }
  }

  /** Being below is transitive. */
  lemma UnderTrans(a: Path, b: Path, c: Path)
    ensures Under(a, b) && Under(b, c) ==> Under(a, c)
  {
    if Under(a, b) && Under(b, c) {
      assert a[..|c|] == a[..|b|][..|c|];
    }
  }

  /** Below a vacant path everything is vacant. */
  lemma VacantBelow(fs: FS, s: Path, t: Path)
    requires Vacant(fs, s) && Under(t, s)
    ensures Vacant(fs, t)
  {
    forall k | 0 <= k <= |t|
      ensures !IsFile(fs, t[..k])
    {
      if k <= |s| {
        assert t[..k] == s[..k];
      } else {
        assert t[..k][..|s|] == s;
      }
    }
    forall q | q in fs
      ensures !Under(q, t)
    {
      UnderTrans(q, t, s);
    }
  }

  /** A vacant path can be ensured. */
  lemma VacantEnsure(fs: FS, t: Path)
    requires Vacant(fs, t)
    ensures EnsureDir(fs, t).Ok?
  {
  }

  /** A frame at a path apart from `t` leaves `t` vacant. */
  lemma VacantKept(a: FS, b: FS, w: Path, t: Path)
    requires Vacant(a, t) && Frame(a, b, w) && Apart(t, w)
    ensures Vacant(b, t)
  {
    forall k | 0 <= k <= |t|
      ensures !IsFile(b, t[..k])
    {
      assert Under(t, t[..k]);
      UnderTrans(t, t[..k], w);
    }
    forall q | q in b
      ensures !Under(q, t)
    {
      UnderBoth(q, t, w);
      UnderTrans(w, q, t);
    }
  }

  /** `ensureDir` of a path not at or below `t` leaves `t` vacant. */
  lemma EnsureDirKeepsVacant(fs: FS, p: Path, t: Path)
    requires Vacant(fs, t) && !Under(p, t) && EnsureDir(fs, p).Ok?
    ensures Vacant(EnsureDir(fs, p).value, t)
  {
    var r := EnsureDir(fs, p).value;
    forall q | q in r
      ensures !Under(q, t)
    {
      if q !in fs {
        assert Under(p, q);
        UnderTrans(p, q, t);
      }
    }
  }

  lemma EnsureDirFrame(fs: FS, p: Path)
    requires EnsureDir(fs, p).Ok?
    ensures Frame(fs, EnsureDir(fs, p).value, p)
  {
  }

  lemma WriteFileFrame(fs: FS, p: Path, text: string)
    requires WriteFile(fs, p, text).Ok?
    ensures Frame(fs, WriteFile(fs, p, text).value, p)
  {
  }

  lemma DestUnder(target: Path, e: Entry)
    ensures Under(Dest(target, e), target) && |Dest(target, e)| <= |target| + 1
  {
  }

  /** `q` lies outside the destination of every entry. */
  predicate OutsideAll(q: Path, entries: seq<Entry>, target: Path) {
    forall i :: 0 <= i < |entries| ==> !Under(q, Dest(target, entries[i]))
  }

  /** The copy changes nothing outside the target except for creating the
      target's missing ancestors; it never removes a path and never turns a
      directory into a file. */
  lemma {:induction false} CopyTemplateFrame(entries: seq<Entry>, fs: FS, target: Path, vars: Vars)
    requires CopyTemplate(entries, fs, target, vars).Ok?
    ensures Frame(fs, CopyTemplate(entries, fs, target, vars).value, target)
    decreases SizeAll(entries), 2
  {
    var fs1 := EnsureDir(fs, target).value;
    EnsureDirFrame(fs, target);
    CopyEntriesFrame(entries, fs1, target, vars);
    FrameTrans(fs, fs1, CopyTemplate(entries, fs, target, vars).value, target);
  }

  /** The loop over entries changes nothing outside the entries'
      destinations. */
  lemma {:induction false} CopyEntriesFrame(entries: seq<Entry>, fs: FS, target: Path, vars: Vars)
    requires CopyEntries(entries, fs, target, vars).Ok?
    ensures Frame(fs, CopyEntries(entries, fs, target, vars).value, target)
    ensures forall q :: q in fs && OutsideAll(q, entries, target) ==>
      CopyEntries(entries, fs, target, vars).value[q] == fs[q]
    decreases SizeAll(entries), 1
  {
    if |entries| > 0 {
      SizeAllSplit(entries);
      var e := entries[0];
      var fs1 := CopyEntry(e, fs, target, vars).value;
      var r := CopyEntries(entries, fs, target, vars).value;
      assert r == CopyEntries(entries[1..], fs1, target, vars).value;
      CopyEntryFrame(e, fs, target, vars);
      DestUnder(target, e);
      FrameWiden(fs, fs1, Dest(target, e), target);
      CopyEntriesFrame(entries[1..], fs1, target, vars);
      FrameTrans(fs, fs1, r, target);
      forall q | q in fs && OutsideAll(q, entries, target)
        ensures r[q] == fs[q]
      {
        assert !Under(q, Dest(target, entries[0]));
        forall i | 0 <= i < |entries[1..]|
          ensures !Under(q, Dest(target, entries[1..][i]))
        {
          assert entries[1..][i] == entries[i + 1];
        }
      }
    }
  }

  /** One entry changes nothing outside its own destination. */
  lemma {:induction false} CopyEntryFrame(e: Entry, fs: FS, target: Path, vars: Vars)
    requires CopyEntry(e, fs, target, vars).Ok?
    ensures Frame(fs, CopyEntry(e, fs, target, vars).value, Dest(target, e))
    decreases Size(e), 0
  {
    match e
    case DirEntry(_, children) =>
      DirSize(e);
      var dest := Dest(target, e);
      var fs1 := EnsureDir(fs, dest).value;
      EnsureDirFrame(fs, dest);
      CopyTemplateFrame(children, fs1, dest, vars);
      FrameTrans(fs, fs1, CopyEntry(e, fs, target, vars).value, dest);
    case FileEntry(_, content) =>
      WriteFileFrame(fs, Dest(target, e), Substitute(content, vars));
  }

  // -------------------------------------------------------------------
  // When the copy succeeds

  /** Copying a well-formed template into a fresh target succeeds: no
      file stands where the target or one of its ancestors should be, and
      nothing lies below the target yet. */
  lemma CopyTemplateSucceeds(entries: seq<Entry>, fs: FS, target: Path, vars: Vars)
    requires WellFormed(entries)
    requires forall k :: 0 <= k <= |target| ==> !IsFile(fs, target[..k])
    requires forall q :: q in fs && Under(q, target) ==> q == target
    ensures CopyTemplate(entries, fs, target, vars).Ok?
  {
    var fs1 := EnsureDir(fs, target).value;
    forall q | q in fs1
      ensures OutsideAll(q, entries, target)
    {
      forall i | 0 <= i < |entries|
        ensures !Under(q, Dest(target, entries[i]))
      {
        WellFormedElement(entries, i);
        var d := Dest(target, entries[i]);
        assert d == target + [StripTpl(entries[i].name)];
        assert d[..|target|] == target;
      }
    }
    CopyEntriesSucceed(entries, fs1, target, vars);
  }

  /** The loop succeeds in an existing directory where no entry's
      destination is taken yet. */
  lemma {:induction false} CopyEntriesSucceed(entries: seq<Entry>, fs: FS, target: Path, vars: Vars)
    requires WellFormed(entries)
    requires IsDir(fs, target)
    requires forall q :: q in fs ==> OutsideAll(q, entries, target)
    ensures CopyEntries(entries, fs, target, vars).Ok?
    decreases SizeAll(entries), 1
  {
    if |entries| > 0 {
      SizeAllSplit(entries);
      var e := entries[0];
      WellFormedElement(entries, 0);
      WellFormedTail(entries);
      CopyEntrySucceeds(e, fs, target, vars);
      var fs1 := CopyEntry(e, fs, target, vars).value;
      CopyEntryFrame(e, fs, target, vars);
      forall q | q in fs1
        ensures OutsideAll(q, entries[1..], target)
      {
        forall i | 0 <= i < |entries[1..]|
          ensures !Under(q, Dest(target, entries[1..][i]))
        {
          assert entries[1..][i] == entries[i + 1];
          if q in fs {
            assert !Under(q, Dest(target, entries[i + 1]));
          } else {
            LaterDestApart(entries, target, q, i + 1);
          }
        }
      }
      CopyEntriesSucceed(entries[1..], fs1, target, vars);
    }
  }

  /** A path the first entry's copy may create, being at or below its
      destination or on the way down to it, is not below a later entry's
      destination. */
  lemma LaterDestApart(entries: seq<Entry>, target: Path, q: Path, j: int)
    requires WellFormed(entries) && 0 < j < |entries|
    requires Under(q, Dest(target, entries[0])) || Under(Dest(target, entries[0]), q)
    ensures !Under(q, Dest(target, entries[j]))
  {
    WellFormedElement(entries, 0);
    WellFormedElement(entries, j);
    var d0 := Dest(target, entries[0]);
    var dj := Dest(target, entries[j]);
    assert d0 == target + [StripTpl(entries[0].name)];
    assert dj == target + [StripTpl(entries[j].name)];
    assert StripTpl(entries[0].name) != StripTpl(entries[j].name);
    assert d0[|target|] != dj[|target|];
  }

  /** One entry succeeds in an existing directory when nothing lies at or
      below its destination yet. */
  lemma {:induction false} CopyEntrySucceeds(e: Entry, fs: FS, target: Path, vars: Vars)
    requires PlainName(StripTpl(e.name))
    requires e.DirEntry? ==> WellFormed(e.children)
    requires IsDir(fs, target)
    requires forall q :: q in fs ==> !Under(q, Dest(target, e))
    ensures CopyEntry(e, fs, target, vars).Ok?
    decreases Size(e), 0
  {
    var dest := Dest(target, e);
    assert dest == target + [StripTpl(e.name)];
    assert Parent(dest) == target;
    assert dest !in fs by {
      if dest in fs { assert Under(dest, dest); }
    }
    match e
    case FileEntry(_, content) =>
    case DirEntry(_, children) =>
      DirSize(e);
      EnsureDirChild(fs, target, StripTpl(e.name));
      var fs1 := fs[dest := Dir];
      assert EnsureDir(fs1, dest) == Ok(fs1);
      forall q | q in fs1
        ensures OutsideAll(q, children, dest)
      {
        forall i | 0 <= i < |children|
          ensures !Under(q, Dest(dest, children[i]))
        {
          WellFormedElement(children, i);
          var d := Dest(dest, children[i]);
          assert d == dest + [StripTpl(children[i].name)];
          assert d[..|dest|] == dest;
        }
      }
      CopyEntriesSucceed(children, fs1, dest, vars);
  }

  // -------------------------------------------------------------------
  // Where things land

  /** The target root exists afterwards, even for an empty template. */
  lemma CopyTemplateTargetIsDir(entries: seq<Entry>, fs: FS, target: Path, vars: Vars)
    requires CopyTemplate(entries, fs, target, vars).Ok?
    ensures IsDir(CopyTemplate(entries, fs, target, vars).value, target)
  {
    var fs1 := EnsureDir(fs, target).value;
    CopyEntriesFrame(entries, fs1, target, vars);
  }

  /** A destination of a non-empty stripped name is one segment deeper. */
  lemma DestExtends(target: Path, e: Entry, rest: seq<string>)
    requires PlainName(StripTpl(e.name))
    ensures Dest(target, e) + StripEach(rest) == target + StripEach([e.name] + rest)
  {
    assert ([e.name] + rest)[1..] == rest;
  }

  /** Every directory of the template, including an empty one, exists at
      its destination path, with `.tpl` stripped from every segment. */
  lemma {:induction false} CopyTemplateDirs(entries: seq<Entry>, fs: FS, target: Path, vars: Vars, rel: seq<string>)
    requires WellFormed(entries)
    requires Lookup(entries, rel).Some? && Lookup(entries, rel).value.FoundDir?
    requires CopyTemplate(entries, fs, target, vars).Ok?
    ensures IsDir(CopyTemplate(entries, fs, target, vars).value, target + StripEach(rel))
    decreases SizeAll(entries), 2
  {
    var fs1 := EnsureDir(fs, target).value;
    CopyEntriesFrame(entries, fs1, target, vars);
    if |rel| == 0 {
      assert target + StripEach(rel) == target;
    } else {
      CopyEntriesDirs(entries, fs1, target, vars, rel);
    }
  }

  lemma {:induction false} CopyEntriesDirs(entries: seq<Entry>, fs: FS, target: Path, vars: Vars, rel: seq<string>)
    requires WellFormed(entries) && |rel| > 0
    requires Lookup(entries, rel).Some? && Lookup(entries, rel).value.FoundDir?
    requires CopyEntries(entries, fs, target, vars).Ok?
    ensures IsDir(CopyEntries(entries, fs, target, vars).value, target + StripEach(rel))
    decreases SizeAll(entries), 1
  {
    SizeAllSplit(entries);
    var e := entries[0];
    var fs1 := CopyEntry(e, fs, target, vars).value;
    var r := CopyEntries(entries, fs, target, vars).value;
    assert r == CopyEntries(entries[1..], fs1, target, vars).value;
    WellFormedTail(entries);
    if e.name == rel[0] {
      WellFormedElement(entries, 0);
      CopyEntryDirs(e, fs, target, vars, rel[1..]);
      DestExtends(target, e, rel[1..]);
      assert [e.name] + rel[1..] == rel;
      CopyEntriesFrame(entries[1..], fs1, target, vars);
      FrameKeepsDir(fs1, r, target, target + StripEach(rel));
    } else {
      LookupSkip(entries, rel);
      CopyEntriesDirs(entries[1..], fs1, target, vars, rel);
    }
  }

  lemma {:induction false} CopyEntryDirs(e: Entry, fs: FS, target: Path, vars: Vars, rest: seq<string>)
    requires e.DirEntry? ==> WellFormed(e.children)
    requires LookupEntry(e, rest).Some? && LookupEntry(e, rest).value.FoundDir?
    requires CopyEntry(e, fs, target, vars).Ok?
    ensures IsDir(CopyEntry(e, fs, target, vars).value, Dest(target, e) + StripEach(rest))
    decreases Size(e), 0
  {
    DirSize(e);
    var dest := Dest(target, e);
    var fs1 := EnsureDir(fs, dest).value;
    CopyTemplateDirs(e.children, fs1, dest, vars, rest);
  }

  /** A template file at `a/b/f` lands at `a'/b'/f'`, each segment with
      `.tpl` stripped, holding its content with the placeholders
      substituted. */
  lemma {:induction false} CopyTemplateFiles(entries: seq<Entry>, fs: FS, target: Path, vars: Vars, rel: seq<string>, content: string)
    requires WellFormed(entries)
    requires Lookup(entries, rel) == Some(FoundFile(content))
    requires CopyTemplate(entries, fs, target, vars).Ok?
    ensures var r := CopyTemplate(entries, fs, target, vars).value;
      target + StripEach(rel) in r && r[target + StripEach(rel)] == File(Substitute(content, vars))
    decreases SizeAll(entries), 2
  {
    var fs1 := EnsureDir(fs, target).value;
    CopyEntriesFiles(entries, fs1, target, vars, rel, content);
  }

  lemma {:induction false} CopyEntriesFiles(entries: seq<Entry>, fs: FS, target: Path, vars: Vars, rel: seq<string>, content: string)
    requires WellFormed(entries)
    requires Lookup(entries, rel) == Some(FoundFile(content))
    requires CopyEntries(entries, fs, target, vars).Ok?
    ensures var r := CopyEntries(entries, fs, target, vars).value;
      target + StripEach(rel) in r && r[target + StripEach(rel)] == File(Substitute(content, vars))
    decreases SizeAll(entries), 1
  {
    assert |rel| > 0;
    SizeAllSplit(entries);
    var e := entries[0];
    var fs1 := CopyEntry(e, fs, target, vars).value;
    var r := CopyEntries(entries, fs, target, vars).value;
    assert r == CopyEntries(entries[1..], fs1, target, vars).value;
    WellFormedTail(entries);
    if e.name == rel[0] {
      WellFormedElement(entries, 0);
      CopyEntryFiles(e, fs, target, vars, rel[1..], content);
      DestExtends(target, e, rel[1..]);
      assert [e.name] + rel[1..] == rel;
      OutsideLaterEntries(entries, target, rel);
      CopyEntriesFrame(entries[1..], fs1, target, vars);
    } else {
      LookupSkip(entries, rel);
      CopyEntriesFiles(entries[1..], fs1, target, vars, rel, content);
    }
  }

  /** A path below the first entry's destination lies outside the
      destinations of the entries after it, the stripped names being
      distinct. */
  lemma OutsideLaterEntries(entries: seq<Entry>, target: Path, rel: seq<string>)
    requires WellFormed(entries) && |entries| > 0 && |rel| > 0 && entries[0].name == rel[0]
    ensures OutsideAll(target + StripEach(rel), entries[1..], target)
  {
    var p := target + StripEach(rel);
    forall i | 0 <= i < |entries[1..]|
      ensures !Under(p, Dest(target, entries[1..][i]))
    {
      assert entries[1..][i] == entries[i + 1];
      WellFormedElement(entries, i + 1);
      assert StripTpl(entries[0].name) != StripTpl(entries[i + 1].name);
      var d := Dest(target, entries[i + 1]);
      assert d == target + [StripTpl(entries[i + 1].name)];
      assert p[|target|] == StripTpl(rel[0]);
      assert |d| <= |p| ==> p[..|d|][|target|] == StripTpl(rel[0]);
    }
  }

  lemma {:induction false} CopyEntryFiles(e: Entry, fs: FS, target: Path, vars: Vars, rest: seq<string>, content: string)
    requires e.DirEntry? ==> WellFormed(e.children)
    requires LookupEntry(e, rest) == Some(FoundFile(content))
    requires CopyEntry(e, fs, target, vars).Ok?
    ensures var r := CopyEntry(e, fs, target, vars).value;
      Dest(target, e) + StripEach(rest) in r && r[Dest(target, e) + StripEach(rest)] == File(Substitute(content, vars))
    decreases Size(e), 0
  {
    var dest := Dest(target, e);
    match e
    case FileEntry(_, c) =>
      assert dest + StripEach(rest) == dest;
    case DirEntry(_, children) =>
      DirSize(e);
      var fs1 := EnsureDir(fs, dest).value;
      CopyTemplateFiles(children, fs1, dest, vars, rest, content);
  }

  /** With no variables every file is copied byte for byte. */
  lemma CopyTemplateNoVars(entries: seq<Entry>, fs: FS, target: Path, rel: seq<string>, content: string)
    requires WellFormed(entries)
    requires Lookup(entries, rel) == Some(FoundFile(content))
    requires CopyTemplate(entries, fs, target, []).Ok?
    ensures var r := CopyTemplate(entries, fs, target, []).value;
      target + StripEach(rel) in r && r[target + StripEach(rel)] == File(content)
  {
    CopyTemplateFiles(entries, fs, target, [], rel, content);
  }
}

=== FILE: docker.dfy ===
/** The `docker` feature (src/features/docker.ts).  The generated files are
    modelled as their lists of lines; a file's text is `Unlines` of them. */
module Docker {
  import opened Wrappers
  import opened Strings
  import opened Manifests
  import opened FileSystem
  import opened PackageManagers
  import opened Probe
  import opened FeatureKit

  const Id := "docker"

  const ConfigFiles: seq<string> := ["Dockerfile", "docker-compose.yml", "docker-compose.yaml", "compose.yml", "compose.yaml"]

  /** `detect`: one of the Docker or compose files exists; the manifest is
      not consulted. */
  function Detect(fs: FS, ctx: ProjectContext): (b: bool)
    ensures b <==> exists i :: 0 <= i < |ConfigFiles| && Exists(fs, ctx.root + [ConfigFiles[i]])
  {
    ConfigPresent(fs, ctx.root, ConfigFiles)
  }

  /** Whatever the manifest holds, `detect` answers the same. */
  lemma DetectIgnoresManifest(fs: FS, ctx: ProjectContext, m: Manifest)
    ensures Detect(fs, ctx.(packageJson := m)) == Detect(fs, ctx)
  {
  }

  /** `isFrontend`: the project depends on `vite`. */
  predicate IsFrontend(m: Manifest) {
    HasDependency(m, "vite")
  }

  /** The build stage both Dockerfiles share. */
  function BuildStage(installCmd: string): seq<string> {
    ["FROM node:20-alpine AS build", "WORKDIR /app", "COPY package*.json ./",
     "RUN " + installCmd, "COPY . .", "RUN npm run build", ""]
  }

  /** The frontend's serving stage. */
  const NginxStage: seq<string> := [
    "FROM nginx:alpine", "COPY --from=build /app/dist /usr/share/nginx/html",
    "EXPOSE 80", "CMD [\"nginx\", \"-g\", \"daemon off;\"]"]

  /** The backend's production stage. */
  function NodeStage(installCmd: string): seq<string> {
    ["FROM node:20-alpine", "WORKDIR /app", "COPY --from=build /app/dist ./dist",
     "COPY --from=build /app/package*.json ./", "RUN " + installCmd + " --omit=dev",
     "EXPOSE 3000", "CMD [\"node\", \"dist/index.js\"]"]
  }

  /** `generateDockerfile`: the shared build stage, then an nginx stage for
      a frontend or a production node stage otherwise. */
  function DockerfileLines(ctx: ProjectContext): (r: seq<string>)
    ensures |r| > 7 && r[3] == "RUN " + InstallCommand(ctx.packageManager)
  {
    var installCmd := InstallCommand(ctx.packageManager);
    BuildStage(installCmd) + (if IsFrontend(ctx.packageJson) then NginxStage else NodeStage(installCmd))
  }

  /** A frontend image serves the build with nginx on port 80; any other
      project runs `dist/index.js` with node on port 3000, installing only
      production dependencies. */
  lemma DockerfileStages(ctx: ProjectContext)
    ensures var r := DockerfileLines(ctx);
      && ("EXPOSE 80" in r <==> IsFrontend(ctx.packageJson))
      && ("EXPOSE 3000" in r <==> !IsFrontend(ctx.packageJson))
      && ("FROM nginx:alpine" in r <==> IsFrontend(ctx.packageJson))
      && (!IsFrontend(ctx.packageJson) ==>
           && "CMD [\"node\", \"dist/index.js\"]" in r
           && "RUN " + InstallCommand(ctx.packageManager) + " --omit=dev" in r)
  {
    var cmd := InstallCommand(ctx.packageManager);
    assert ("RUN " + cmd)[0] == 'R';
    assert ("RUN " + cmd + " --omit=dev")[0] == 'R';
    assert "EXPOSE 80" !in BuildStage(cmd) && "EXPOSE 80" !in NodeStage(cmd);
    assert "EXPOSE 3000" !in BuildStage(cmd) && "EXPOSE 3000" !in NginxStage;
    assert "FROM nginx:alpine" !in BuildStage(cmd) && "FROM nginx:alpine" !in NodeStage(cmd);
    assert "EXPOSE 80" in NginxStage && "FROM nginx:alpine" in NginxStage;
    assert NodeStage(cmd)[5] == "EXPOSE 3000";
  }

  /** The published port mapping of the compose file. */
  function ComposePort(frontend: bool): (r: string)
    ensures r == "8080:80" <==> frontend
    ensures r == "3000:3000" <==> !frontend
  {
    if frontend then "8080:80" else "3000:3000"
  }

  /** `generateDockerCompose`: one `app` service built from the project,
      with the port mapping and the production environment. */
  function ComposeLines(ctx: ProjectContext): (r: seq<string>)
    ensures "      - \"8080:80\"" in r <==> IsFrontend(ctx.packageJson)
    ensures "      - \"3000:3000\"" in r <==> !IsFrontend(ctx.packageJson)
    ensures "      - NODE_ENV=production" in r
  {
    var port := ComposePort(IsFrontend(ctx.packageJson));
    var portLine := "      - \"" + port + "\"";
    assert portLine == "      - \"8080:80\"" <==> port == "8080:80" by {
      assert "      - \"" + "8080:80" + "\"" == "      - \"8080:80\"";
      if portLine == "      - \"8080:80\"" {
        assert |port| == 7;
        assert port == portLine[9..16];
      }
    }
    assert portLine == "      - \"3000:3000\"" <==> port == "3000:3000" by {
      assert "      - \"" + "3000:3000" + "\"" == "      - \"3000:3000\"";
      if portLine == "      - \"3000:3000\"" {
        assert |port| == 9;
        assert port == portLine[9..18];
      }
    }
    ["services:", "  app:", "    build: .", "    ports:", portLine, "    environment:", "      - NODE_ENV=production"]
  }

  const IgnoreLines: seq<string> := ["node_modules", "dist", ".git", "*.log", ".env"]

  /** The text of `.dockerignore`: dependencies, build output, the
      repository and secrets stay out of the image. */
  const IgnoreText := Unlines(IgnoreLines)

  function DockerfileText(ctx: ProjectContext): string {
    Unlines(DockerfileLines(ctx))
  }

  function ComposeText(ctx: ProjectContext): string {
    Unlines(ComposeLines(ctx))
  }

  /** The three writes of `apply`, for any texts. */
  function WriteAll(fs: FS, root: Path, dockerfile: string, compose: string, ignore: string): (r: Result<FS>)
    ensures r.Ok? <==>
      IsDir(fs, root) && !IsDir(fs, root + ["Dockerfile"])
      && !IsDir(fs, root + ["docker-compose.yml"]) && !IsDir(fs, root + [".dockerignore"])
    ensures r.Ok? ==> r.value == fs[root + ["Dockerfile"] := File(dockerfile)]
                                   [root + ["docker-compose.yml"] := File(compose)]
                                   [root + [".dockerignore"] := File(ignore)]
  {
    ChildrenDiffer(root, "Dockerfile", "docker-compose.yml");
    ChildrenDiffer(root, "Dockerfile", ".dockerignore");
    ChildrenDiffer(root, "docker-compose.yml", ".dockerignore");
    var fs1 :- WriteFile(fs, root + ["Dockerfile"], dockerfile);
    var fs2 :- WriteFile(fs1, root + ["docker-compose.yml"], compose);
    WriteFile(fs2, root + [".dockerignore"], ignore)
  }

  /** `apply`: writes exactly the Dockerfile, the compose file and the
      ignore file at the root, in that order. */
  function Apply(fs: FS, ctx: ProjectContext): (r: Result<FS>)
    ensures r.Ok? <==>
      IsDir(fs, ctx.root) && !IsDir(fs, ctx.root + ["Dockerfile"])
      && !IsDir(fs, ctx.root + ["docker-compose.yml"]) && !IsDir(fs, ctx.root + [".dockerignore"])
    ensures r.Ok? ==> r.value == fs[ctx.root + ["Dockerfile"] := File(DockerfileText(ctx))]
                                   [ctx.root + ["docker-compose.yml"] := File(ComposeText(ctx))]
                                   [ctx.root + [".dockerignore"] := File(IgnoreText)]
  {
    WriteAll(fs, ctx.root, DockerfileText(ctx), ComposeText(ctx), IgnoreText)
  }

  /** The three writes leave the probe's answer as it was and the
      Dockerfile in place, whatever the texts. */
  lemma WriteAllKeepsProbe(codec: Codec, fs: FS, root: Path, dockerfile: string, compose: string, ignore: string)
    requires WriteAll(fs, root, dockerfile, compose, ignore).Ok?
    ensures var r := WriteAll(fs, root, dockerfile, compose, ignore).value;
      DetectProjectContext(codec, r, root) == DetectProjectContext(codec, fs, root) && Exists(r, root + ["Dockerfile"])
  {
    var fs1 := fs[root + ["Dockerfile"] := File(dockerfile)];
    var fs2 := fs1[root + ["docker-compose.yml"] := File(compose)];
    ProbeIgnoresOtherChild(codec, fs, root, "Dockerfile", File(dockerfile));
    ProbeIgnoresOtherChild(codec, fs1, root, "docker-compose.yml", File(compose));
    ProbeIgnoresOtherChild(codec, fs2, root, ".dockerignore", File(ignore));
  }

  /** The fixed point: the probe reads none of the written files, so it
      answers as before, and `detect` is true afterwards. */
  lemma ApplyThenDetect(codec: Codec, fs: FS, ctx: ProjectContext)
    requires Apply(fs, ctx).Ok?
    ensures DetectProjectContext(codec, Apply(fs, ctx).value, ctx.root) == DetectProjectContext(codec, fs, ctx.root)
    ensures Detect(Apply(fs, ctx).value, ctx)
  {
    WriteAllKeepsProbe(codec, fs, ctx.root, DockerfileText(ctx), ComposeText(ctx), IgnoreText);
    assert Exists(Apply(fs, ctx).value, ctx.root + [ConfigFiles[0]]);
  }

  /** Writing the same three texts again changes nothing. */
  lemma WriteAllIdempotent(fs: FS, root: Path, dockerfile: string, compose: string, ignore: string)
    requires WriteAll(fs, root, dockerfile, compose, ignore).Ok?
    ensures var r := WriteAll(fs, root, dockerfile, compose, ignore).value;
      WriteAll(r, root, dockerfile, compose, ignore) == Ok(r)
  {
    var r := WriteAll(fs, root, dockerfile, compose, ignore).value;
    ChildrenDiffer(root, "Dockerfile", "Dockerfile");
    assert r[root] == fs[root];
    var r2 := WriteAll(r, root, dockerfile, compose, ignore).value;
    assert r2.Keys == r.Keys;
    assert r2 == r;
  }

  /** Applying twice leaves the project as applying once. */
  lemma ApplyIdempotent(fs: FS, ctx: ProjectContext)
    requires Apply(fs, ctx).Ok?
    ensures Apply(Apply(fs, ctx).value, ctx) == Apply(fs, ctx)
  {
    WriteAllIdempotent(fs, ctx.root, DockerfileText(ctx), ComposeText(ctx), IgnoreText);
  }
}

=== FILE: eslint.dfy ===
/** The `eslint` feature (dist/features/eslint.js), the one feature the
    registry ships. */
module Eslint {
  import opened Wrappers
  import opened Manifests
  import opened FileSystem
  import opened Probe
  import opened FeatureKit

  const Id := "eslint"

  const ConfigFiles: seq<string> := [
    "eslint.config.js", "eslint.config.mjs", "eslint.config.cjs",
    ".eslintrc.js", ".eslintrc.json", ".eslintrc.yml", ".eslintrc"]

  /** The flat config for a TypeScript project. */
  const ConfigTs := "import eslint from '@eslint/js';\nimport tseslint from 'typescript-eslint';\n\nexport default tseslint.config(\n  eslint.configs.recommended,\n  ...tseslint.configs.recommended,\n  {\n    ignores: ['dist/'],\n  },\n);\n"

  /** The flat config for a JavaScript project. */
  const ConfigJs := "import eslint from '@eslint/js';\n\nexport default [\n  eslint.configs.recommended,\n  {\n    ignores: ['dist/'],\n  },\n];\n"

  const AddedScripts: StrMap := map["lint" := "eslint ."]

  /** The devDependencies `apply` adds: the linter and its rules always,
      the TypeScript bridge exactly when the probe saw `tsconfig.json`. */
  function AddedDevDeps(hasTypescript: bool): (r: StrMap)
    ensures "eslint" in r && r["eslint"] == "^9.0.0"
    ensures "@eslint/js" in r && r["@eslint/js"] == "^9.0.0"
    ensures "typescript-eslint" in r <==> hasTypescript
    ensures hasTypescript ==> r["typescript-eslint"] == "^8.0.0"
    ensures r.Keys <= {"eslint", "@eslint/js", "typescript-eslint"}
  {
    var base := map["eslint" := "^9.0.0", "@eslint/js" := "^9.0.0"];
    if hasTypescript then base["typescript-eslint" := "^8.0.0"] else base
  }

  /** The config text for the project's language. */
  function ConfigText(hasTypescript: bool): (r: string)
    ensures r == ConfigTs <==> hasTypescript
    ensures r == ConfigJs <==> !hasTypescript
  {
    assert |ConfigTs| != |ConfigJs|;
    if hasTypescript then ConfigTs else ConfigJs
  }

  /** `detect`: one of the seven config files at the root, or an `eslint`
      dependency in the probed manifest. */
  function Detect(fs: FS, ctx: ProjectContext): bool {
    ConfiguredOrDepends(fs, ctx, ConfigFiles, "eslint")
  }

  /** `apply`: merges the dependencies and the `lint` script into the
      manifest on disk, then writes `eslint.config.js` in the project's
      language. */
  function Apply(codec: Codec, fs: FS, ctx: ProjectContext): (r: Result<FS>)
    ensures r.Ok? <==>
      ReadJson(codec, fs, ctx.root + ["package.json"]).Ok? && IsDir(fs, ctx.root)
      && !IsDir(fs, ctx.root + ["eslint.config.js"])
    ensures r.Ok? ==> ctx.root + ["eslint.config.js"] in r.value
    ensures r.Ok? ==> (r.value[ctx.root + ["eslint.config.js"]] == File(ConfigTs) <==> ctx.hasTypescript)
    ensures r.Ok? ==> (r.value[ctx.root + ["eslint.config.js"]] == File(ConfigJs) <==> !ctx.hasTypescript)
    ensures r.Ok? ==> r.value.Keys == fs.Keys + {ctx.root + ["package.json"], ctx.root + ["eslint.config.js"]}
  {
    UpdateAndWrite(codec, fs, ctx.root, AddedDevDeps(ctx.hasTypescript), Some(AddedScripts),
                   "eslint.config.js", ConfigText(ctx.hasTypescript))
  }

  /** `after` is `before` with the linter packages at `^9.0.0`, the
      TypeScript bridge added iff the project has TypeScript (otherwise
      kept as it was), every other devDependency and script kept, `lint`
      set, and the other keys untouched. */
  predicate EditedForEslint(before: Manifest, after: Manifest, hasTypescript: bool) {
    && "eslint" in after.DevDeps() && after.DevDeps()["eslint"] == "^9.0.0"
    && "@eslint/js" in after.DevDeps() && after.DevDeps()["@eslint/js"] == "^9.0.0"
    && (hasTypescript ==> "typescript-eslint" in after.DevDeps() && after.DevDeps()["typescript-eslint"] == "^8.0.0")
    && (!hasTypescript ==> ("typescript-eslint" in after.DevDeps() <==> "typescript-eslint" in before.DevDeps()))
    && (forall k :: k in before.DevDeps() && k !in AddedDevDeps(hasTypescript) ==> k in after.DevDeps() && after.DevDeps()[k] == before.DevDeps()[k])
    && (forall k :: k in after.DevDeps() ==> k in before.DevDeps() || k in {"eslint", "@eslint/js", "typescript-eslint"})
    && "lint" in after.Scripts() && after.Scripts()["lint"] == "eslint ."
    && (forall k :: k in before.Scripts() && k != "lint" ==> k in after.Scripts() && after.Scripts()[k] == before.Scripts()[k])
    && after.dependencies == before.dependencies && after.others == before.others
  }

  /** The manifest edit `apply` performs. */
  lemma EditIsEslintEdit(before: Manifest, hasTypescript: bool)
    ensures EditedForEslint(before, Edit(before, AddedDevDeps(hasTypescript), Some(AddedScripts)), hasTypescript)
  {
  }

  /** The manifest on disk afterwards is the edited one. */
  lemma ApplyManifest(codec: Codec, fs: FS, ctx: ProjectContext)
    requires Lawful(codec)
    requires Apply(codec, fs, ctx).Ok?
    ensures var pkg := ctx.root + ["package.json"];
      var after := ReadJson(codec, Apply(codec, fs, ctx).value, pkg);
      after.Ok? && EditedForEslint(ReadJson(codec, fs, pkg).value, after.value, ctx.hasTypescript)
  {
    UpdateAndWriteReadBack(codec, fs, ctx.root, AddedDevDeps(ctx.hasTypescript), Some(AddedScripts),
                           "eslint.config.js", ConfigText(ctx.hasTypescript));
    EditIsEslintEdit(ReadJson(codec, fs, ctx.root + ["package.json"]).value, ctx.hasTypescript);
  }

  /** The fixed point: after `apply`, `eslint.config.js` exists, so the
      re-probed `detect` is true. */
  lemma ApplyThenDetect(codec: Codec, fs: FS, ctx: ProjectContext)
    requires Lawful(codec)
    requires Apply(codec, fs, ctx).Ok?
    ensures var fs1 := Apply(codec, fs, ctx).value;
      DetectProjectContext(codec, fs1, ctx.root).Ok? && Detect(fs1, DetectProjectContext(codec, fs1, ctx.root).value)
  {
    var fs1 := Apply(codec, fs, ctx).value;
    UpdateAndWriteReprobe(codec, fs, ctx.root, AddedDevDeps(ctx.hasTypescript), Some(AddedScripts),
                          "eslint.config.js", ConfigText(ctx.hasTypescript));
    assert Exists(fs1, ctx.root + [ConfigFiles[0]]);
  }

  /** Applying twice with the same context leaves the project as applying once. */
  lemma ApplyIdempotent(codec: Codec, fs: FS, ctx: ProjectContext)
    requires Lawful(codec)
    requires Apply(codec, fs, ctx).Ok?
    ensures Apply(codec, Apply(codec, fs, ctx).value, ctx) == Apply(codec, fs, ctx)
  {
    UpdateAndWriteIdempotent(codec, fs, ctx.root, AddedDevDeps(ctx.hasTypescript), Some(AddedScripts),
                             "eslint.config.js", ConfigText(ctx.hasTypescript));
  }
}

=== FILE: feature_kit.dfy ===
/** What the feature plugins (the files under src/features and
    dist/features) share: the "first config file that exists" scan of every `detect`, and the
    read-spread-write edit of `package.json` that every manifest-changing
    `apply` performs. */
module FeatureKit {
  import opened Wrappers
  import opened Manifests
  import opened FileSystem
  import opened Probe

  /** `for (const file of configFiles) if (await fs.pathExists(path.join(dir, file))) return true`. */
  function ConfigPresent(fs: FS, dir: Path, names: seq<string>): (b: bool)
    ensures b <==> exists i :: 0 <= i < |names| && Exists(fs, dir + [names[i]])
  {
    if |names| == 0 then false
    else if Exists(fs, dir + [names[0]]) then true
    else
      assert forall i :: 0 < i < |names| ==> names[i] == names[1..][i - 1];
      ConfigPresent(fs, dir, names[1..])
  }

  /** A listed config file that exists is found. */
  lemma ConfigFound(fs: FS, dir: Path, names: seq<string>, i: int)
    requires 0 <= i < |names| && Exists(fs, dir + [names[i]])
    ensures ConfigPresent(fs, dir, names)
  {
  }

  /** The `detect` that prettier, vitest and eslint share: one of the
      feature's config files exists at the probed root, or the probed
      manifest lists the feature's package in `dependencies` or
      `devDependencies`. */
  function ConfiguredOrDepends(fs: FS, ctx: ProjectContext, configs: seq<string>, dep: string): (b: bool)
    ensures b <==>
      (exists i :: 0 <= i < |configs| && Exists(fs, ctx.root + [configs[i]]))
      || dep in ctx.packageJson.Deps() || dep in ctx.packageJson.DevDeps()
  {
    ConfigPresent(fs, ctx.root, configs) || HasDependency(ctx.packageJson, dep)
  }

  /** `packageJson.devDependencies = { ...packageJson.devDependencies, ...devDeps }`,
      followed, when `scripts` is given, by the same spread on `scripts`. */
  function Edit(m: Manifest, devDeps: StrMap, scripts: Option<StrMap>): (r: Manifest)
    ensures r.devDependencies.Some?
    ensures forall k :: k in devDeps ==> k in r.DevDeps() && r.DevDeps()[k] == devDeps[k]
    ensures forall k :: k in m.DevDeps() && k !in devDeps ==> k in r.DevDeps() && r.DevDeps()[k] == m.DevDeps()[k]
    ensures forall k :: k in r.DevDeps() ==> k in m.DevDeps() || k in devDeps
    ensures scripts.None? ==> r.scripts == m.scripts
    ensures scripts.Some? ==> r.scripts.Some?
    ensures scripts.Some? ==> forall k :: k in scripts.value ==> k in r.Scripts() && r.Scripts()[k] == scripts.value[k]
    ensures scripts.Some? ==> forall k :: k in m.Scripts() && k !in scripts.value ==> k in r.Scripts() && r.Scripts()[k] == m.Scripts()[k]
    ensures scripts.Some? ==> forall k :: k in r.Scripts() ==> k in m.Scripts() || k in scripts.value
    ensures r.dependencies == m.dependencies && r.others == m.others
  {
    var m1 := MergeDevDependencies(m, devDeps);
    if scripts.Some? then MergeScripts(m1, scripts.value) else m1
  }

  /** Editing twice with the same entries is editing once. */
  lemma EditIdempotent(m: Manifest, devDeps: StrMap, scripts: Option<StrMap>)
    ensures Edit(Edit(m, devDeps, scripts), devDeps, scripts) == Edit(m, devDeps, scripts)
  {
    SpreadIdempotent(m.DevDeps(), devDeps);
    if scripts.Some? {
      SpreadIdempotent(m.Scripts(), scripts.value);
    }
  }

  /** `readJson` the manifest at `p`, edit it, `writeJson` it back. */
  function UpdateManifest(codec: Codec, fs: FS, p: Path, devDeps: StrMap, scripts: Option<StrMap>): (r: Result<FS>)
    ensures ReadJson(codec, fs, p).Err? ==> r == Err(ReadJson(codec, fs, p).error)
    ensures ReadJson(codec, fs, p).Ok? ==>
      (r.Ok? <==> |p| > 0 && IsDir(fs, Parent(p)))
    ensures r.Ok? ==> (ReadJson(codec, fs, p).Ok? &&
      r.value == fs[p := File(codec.stringify(Edit(ReadJson(codec, fs, p).value, devDeps, scripts)))])
    ensures r.Err? ==> r.error.FromFileSystem()
  {
    var m :- ReadJson(codec, fs, p);
    WriteJson(codec, fs, p, Edit(m, devDeps, scripts))
  }

  /** A manifest that already holds the edit of `m` is rewritten with the
      same text: with a lawful codec the update changes nothing. */
  lemma UpdateManifestSettled(codec: Codec, fs: FS, p: Path, devDeps: StrMap, scripts: Option<StrMap>, m: Manifest)
    requires Lawful(codec)
    requires |p| > 0 && IsDir(fs, Parent(p))
    requires p in fs && fs[p] == File(codec.stringify(Edit(m, devDeps, scripts)))
    ensures UpdateManifest(codec, fs, p, devDeps, scripts) == Ok(fs)
  {
    assert codec.parse(codec.stringify(Edit(m, devDeps, scripts))) == Some(Edit(m, devDeps, scripts));
    EditIdempotent(m, devDeps, scripts);
    assert fs[p := fs[p]] == fs;
  }

  /** With a lawful codec the file holds the edited manifest afterwards. */
  lemma UpdateManifestReadBack(codec: Codec, fs: FS, p: Path, devDeps: StrMap, scripts: Option<StrMap>)
    requires Lawful(codec)
    requires UpdateManifest(codec, fs, p, devDeps, scripts).Ok?
    ensures ReadJson(codec, UpdateManifest(codec, fs, p, devDeps, scripts).value, p)
         == Ok(Edit(ReadJson(codec, fs, p).value, devDeps, scripts))
  {
    var m := ReadJson(codec, fs, p).value;
    WriteJsonReadBack(codec, fs, p, Edit(m, devDeps, scripts));
  }

  /** Probing a directory whose `package.json` is a file the lawful codec
      wrote succeeds and reports the written manifest. */
  lemma ReprobeAfterWrite(codec: Codec, fs: FS, root: Path, m: Manifest)
    requires Lawful(codec)
    requires root + ["package.json"] in fs && fs[root + ["package.json"]] == File(codec.stringify(m))
    ensures DetectProjectContext(codec, fs, root).Ok?
    ensures DetectProjectContext(codec, fs, root).value.packageJson == m
  {
    assert codec.parse(codec.stringify(m)) == Some(m);
  }

  /** A probe that depends on `package.json` alone: when the manifest file is
      the same, the probe is as it was. */
  lemma ReprobeUnchangedManifest(codec: Codec, fs: FS, fs2: FS, root: Path)
    requires DetectProjectContext(codec, fs, root).Ok?
    requires root + ["package.json"] in fs2 && fs2[root + ["package.json"]] == fs[root + ["package.json"]]
    ensures DetectProjectContext(codec, fs2, root).Ok?
  {
  }

  /** The manifest edit followed by one config-file write, the shape of
      every `apply` that touches `package.json` and writes one file next to
      it (prettier, setupVitest, eslint). */
  function UpdateAndWrite(codec: Codec, fs: FS, root: Path, devDeps: StrMap, scripts: Option<StrMap>,
                          file: string, text: string): (r: Result<FS>)
    requires file != "package.json"
    ensures ReadJson(codec, fs, root + ["package.json"]).Err? ==> r == Err(ReadJson(codec, fs, root + ["package.json"]).error)
    ensures r.Ok? <==>
      ReadJson(codec, fs, root + ["package.json"]).Ok? && IsDir(fs, root) && !IsDir(fs, root + [file])
    ensures r.Ok? ==> root + [file] in r.value && r.value[root + [file]] == File(text)
    ensures r.Ok? ==> IsFile(r.value, root + ["package.json"])
    ensures r.Ok? ==> r.value.Keys == fs.Keys + {root + ["package.json"], root + [file]}
    ensures r.Ok? ==> forall q :: q in fs && q != root + ["package.json"] && q != root + [file] ==> r.value[q] == fs[q]
    ensures r.Err? ==> r.error.FromFileSystem()
  {
    var pkg := root + ["package.json"];
    assert Parent(pkg) == root && Parent(root + [file]) == root;
    assert pkg != root + [file] by { assert pkg[|root|] != (root + [file])[|root|]; }
    var fs1 :- UpdateManifest(codec, fs, pkg, devDeps, scripts);
    WriteFile(fs1, root + [file], text)
  }

  /** With a lawful codec, the manifest written is the edited one. */
  lemma UpdateAndWriteReadBack(codec: Codec, fs: FS, root: Path, devDeps: StrMap, scripts: Option<StrMap>,
                               file: string, text: string)
    requires Lawful(codec) && file != "package.json"
    requires UpdateAndWrite(codec, fs, root, devDeps, scripts, file, text).Ok?
    ensures ReadJson(codec, UpdateAndWrite(codec, fs, root, devDeps, scripts, file, text).value, root + ["package.json"])
         == Ok(Edit(ReadJson(codec, fs, root + ["package.json"]).value, devDeps, scripts))
  {
    var pkg := root + ["package.json"];
    var m := ReadJson(codec, fs, pkg).value;
    var fs2 := UpdateAndWrite(codec, fs, root, devDeps, scripts, file, text).value;
    var fs1 := UpdateManifest(codec, fs, pkg, devDeps, scripts).value;
    assert pkg != root + [file] by { assert pkg[|root|] != (root + [file])[|root|]; }
    assert fs2[pkg] == fs1[pkg] == File(codec.stringify(Edit(m, devDeps, scripts)));
    assert codec.parse(codec.stringify(Edit(m, devDeps, scripts))) == Some(Edit(m, devDeps, scripts));
  }

  /** Applying the edit and write a second time changes nothing. */
  lemma UpdateAndWriteIdempotent(codec: Codec, fs: FS, root: Path, devDeps: StrMap, scripts: Option<StrMap>,
                                 file: string, text: string)
    requires Lawful(codec) && file != "package.json"
    requires UpdateAndWrite(codec, fs, root, devDeps, scripts, file, text).Ok?
    ensures var fs1 := UpdateAndWrite(codec, fs, root, devDeps, scripts, file, text).value;
      UpdateAndWrite(codec, fs1, root, devDeps, scripts, file, text) == Ok(fs1)
  {
    var pkg := root + ["package.json"];
    var m := ReadJson(codec, fs, pkg).value;
    var fs1 := UpdateAndWrite(codec, fs, root, devDeps, scripts, file, text).value;
    assert pkg != root + [file] by { assert pkg[|root|] != (root + [file])[|root|]; }
    assert Parent(pkg) == root && Parent(root + [file]) == root;
    assert IsDir(fs1, root) && fs1[pkg] == File(codec.stringify(Edit(m, devDeps, scripts)));
    UpdateManifestSettled(codec, fs1, pkg, devDeps, scripts, m);
    assert fs1[root + [file] := File(text)] == fs1;
  }

  /** After the edit and write, the project probe succeeds, reports the
      edited manifest, and the written file exists. */
  lemma UpdateAndWriteReprobe(codec: Codec, fs: FS, root: Path, devDeps: StrMap, scripts: Option<StrMap>,
                              file: string, text: string)
    requires Lawful(codec) && file != "package.json"
    requires UpdateAndWrite(codec, fs, root, devDeps, scripts, file, text).Ok?
    ensures var fs1 := UpdateAndWrite(codec, fs, root, devDeps, scripts, file, text).value;
      && DetectProjectContext(codec, fs1, root).Ok?
      && DetectProjectContext(codec, fs1, root).value.packageJson
         == Edit(ReadJson(codec, fs, root + ["package.json"]).value, devDeps, scripts)
      && Exists(fs1, root + [file])
  {
    UpdateAndWriteReadBack(codec, fs, root, devDeps, scripts, file, text);
  }
}

=== FILE: filesystem.dfy ===
/** An abstract file system: a finite map from absolute paths (sequences of
    segments, `[]` being the root) to a file with text content or a
    directory.  The operations are the `fs` / `fs-extra` calls the program
    makes, with the failures Node reports (ENOENT, EISDIR, ENOTDIR, a JSON
    syntax error) as `Err` values. */
module FileSystem {
  import opened Wrappers
  import opened Manifests

  type Path = seq<string>

  datatype Node = File(text: string) | Dir

  type FS = map<Path, Node>

  /** `path.join(p, name)` for a single directory-entry name: joining the
      empty name leaves the path unchanged. */
  function Child(p: Path, name: string): Path {
    if name == "" then p else p + [name]
  }

  function Parent(p: Path): Path
    requires |p| > 0
  {
    p[..|p| - 1]
  }

  /** `fs.pathExists(p)` / `fs.existsSync(p)`. */
  predicate Exists(fs: FS, p: Path) {
    p in fs
  }

  predicate IsDir(fs: FS, p: Path) {
    p in fs && fs[p].Dir?
  }

  predicate IsFile(fs: FS, p: Path) {
    p in fs && fs[p].File?
  }

  /** `q` is `p` or lies below it. */
  predicate Under(q: Path, p: Path) {
    |p| <= |q| && q[..|p|] == p
  }

  /** Children with different names are different paths, each below
      its parent. */
  lemma ChildrenDiffer(dir: Path, a: string, b: string)
    ensures Parent(dir + [a]) == dir && dir + [a] != dir
    ensures a != b ==> dir + [a] != dir + [b]
  {
    assert (dir + [a])[|dir|] == a && (dir + [b])[|dir|] == b;
  }

  /** `fs.ensureDir(p)`: creates `p` and its missing ancestors; fails when a
      path on the way down is a file.  Existing entries are never changed. */
  function EnsureDir(fs: FS, p: Path): (r: Result<FS>)
    ensures r.Ok? ==> IsDir(r.value, p)
    ensures r.Ok? ==> forall q :: q in fs ==> q in r.value && r.value[q] == fs[q]
    ensures r.Ok? ==> forall q :: q in r.value && q !in fs ==> r.value[q] == Dir && |q| <= |p| && q == p[..|q|]
    ensures (forall k :: 0 <= k <= |p| ==> !IsFile(fs, p[..k])) ==> r.Ok?
    ensures r.Err? ==> r.error.FromFileSystem()
    decreases |p|
  {
    if p in fs then
      if fs[p].Dir? then Ok(fs) else assert p[..|p|] == p; Err(NotADirectory(p))
    else if |p| == 0 then Ok(fs[p := Dir])
    else
      assert forall k :: 0 <= k <= |p| - 1 ==> Parent(p)[..k] == p[..k];
      var fs1 :- EnsureDir(fs, Parent(p));
      Ok(fs1[p := Dir])
  }

  /** `fs.writeFile(p, text)`: the parent must be a directory and `p` must
      not be one. */
  function WriteFile(fs: FS, p: Path, text: string): (r: Result<FS>)
    ensures r.Ok? <==> |p| > 0 && IsDir(fs, Parent(p)) && !IsDir(fs, p)
    ensures r.Ok? ==> r.value == fs[p := File(text)]
    ensures r.Err? ==> r.error.FromFileSystem()
  {
    if |p| == 0 then Err(IsADirectory(p))
    else if !IsDir(fs, Parent(p)) then
      if Parent(p) in fs then Err(NotADirectory(Parent(p))) else Err(NotFound(Parent(p)))
    else if IsDir(fs, p) then Err(IsADirectory(p))
    else Ok(fs[p := File(text)])
  }

  /** `fs.readFile(p, 'utf8')`. */
  function ReadFile(fs: FS, p: Path): (r: Result<string>)
    ensures r.Ok? <==> IsFile(fs, p)
    ensures r.Ok? ==> fs[p] == File(r.value)
    ensures r.Err? ==> r.error.FromFileSystem()
  {
    if p !in fs then Err(NotFound(p))
    else match fs[p]
      case Dir => Err(IsADirectory(p))
      case File(t) => Ok(t)
  }

  /** The names `fs.readdir(p)` lists: the last segment of every direct child. */
  function ChildNames(fs: FS, p: Path): set<string> {
    set q | q in fs && |q| == |p| + 1 && q[..|p|] == p :: q[|p|]
  }

  /** `fs.readdir(p)` (the order of the names does not matter to its caller). */
  function ReadDir(fs: FS, p: Path): (r: Result<set<string>>)
    ensures r.Ok? <==> IsDir(fs, p)
    ensures r.Ok? ==> r.value == ChildNames(fs, p)
    ensures r.Err? ==> r.error.FromFileSystem()
  {
    if p !in fs then Err(NotFound(p))
    else if fs[p].File? then Err(NotADirectory(p))
    else Ok(ChildNames(fs, p))
  }

  /** `fs.readJson(p)`. */
  function ReadJson(codec: Codec, fs: FS, p: Path): (r: Result<Manifest>)
    ensures r.Ok? <==> IsFile(fs, p) && codec.parse(fs[p].text).Some?
    ensures r.Ok? ==> Some(r.value) == codec.parse(fs[p].text)
    ensures r.Err? ==> r.error.FromFileSystem()
  {
    var text :- ReadFile(fs, p);
    match codec.parse(text)
    case None => Err(InvalidJson(p))
    case Some(m) => Ok(m)
  }

  /** `fs.writeJson(p, m, { spaces: 2 })`. */
  function WriteJson(codec: Codec, fs: FS, p: Path, m: Manifest): Result<FS> {
    WriteFile(fs, p, codec.stringify(m))
  }

  /** What `writeJson` wrote, `readJson` reads back (for a lawful codec). */
  lemma WriteJsonReadBack(codec: Codec, fs: FS, p: Path, m: Manifest)
    requires Lawful(codec)
    requires WriteJson(codec, fs, p, m).Ok?
    ensures ReadJson(codec, WriteJson(codec, fs, p, m).value, p) == Ok(m)
  {
    assert codec.parse(codec.stringify(m)) == Some(m);
  }

  /** A child of a directory shows up in its listing. */
  lemma ChildListed(fs: FS, p: Path, name: string)
    requires p + [name] in fs
    ensures name in ChildNames(fs, p)
  {
    var q := p + [name];
    assert q[..|p|] == p && q[|p|] == name;
  }

  /** `ensureDir` of a child of an existing directory adds at most that child. */
  lemma EnsureDirChild(fs: FS, p: Path, name: string)
    requires IsDir(fs, p)
    ensures !IsFile(fs, p + [name]) ==> EnsureDir(fs, p + [name]) == Ok(fs[p + [name] := Dir])
    ensures IsFile(fs, p + [name]) ==> EnsureDir(fs, p + [name]).Err?
  {
    assert Parent(p + [name]) == p;
    if IsDir(fs, p + [name]) {
      assert fs[p + [name] := Dir] == fs;
    }
  }

  /** `ensureDir` of a path that did not exist creates its parent too. */
  lemma EnsureDirMakesParent(fs: FS, p: Path)
    requires |p| > 0 && p !in fs && EnsureDir(fs, p).Ok?
    ensures IsDir(EnsureDir(fs, p).value, Parent(p))
  {
    assert p != Parent(p);
  }
}

=== FILE: generators.dfy ===
/** The two generators `init` dispatches to: `createProject`
    (src/generators/createProject.ts) and `createMonorepo`
    (dist/generators/createMonorepo.js).  Both refuse an existing target
    before writing anything, materialise templates from the packaged store,
    and end with the recorded subprocess effects. */
module Generators {
  import opened Wrappers
  import opened Manifests
  import opened FileSystem
  import opened PackageManagers
  import opened ProjectTypes
  import opened TemplateTree
  import opened Materialise
  import opened Collaborators
  import opened InitTypes
  import Vitest

  /** The failures a generator can raise: a file-system error, an existing
      target, a missing template, or a failing subprocess.  None of them is
      the cancellation sentinel. */
  predicate GeneratorError(e: Error) {
    e.FromFileSystem() || e.DirectoryExists? || e.TemplateNotFound?
    || e.GitRootMissing? || e.GitRepositoryExists? || e.GitFailed? || e.InstallFailed?
  }

  /** `getTemplatePath(type, template)`: where the template lies in the
      packaged store.  Its layout depends on bundling, so it is a parameter. */
  type TemplatePaths = (ProjectType, string) -> seq<string>

  /** `path.resolve(process.cwd(), projectName)` for a one-segment name. */
  function ProjectRoot(cwd: Path, name: string): Path {
    Child(cwd, name)
  }

  /** The variables every copied template sees. */
  function NameVars(name: string): Vars {
    [("projectName", name)]
  }

  /** `copyTemplate(src, target, vars)` with `src` a path in the store: the
      target is ensured first, then the listing of `src` fails unless it is
      a directory, whose entries are copied. */
  function CopyFromStore(store: seq<Entry>, src: seq<string>, fs: FS, target: Path, vars: Vars): (r: Result<FS>)
    ensures Lookup(store, src).Some? && Lookup(store, src).value.FoundDir? ==>
      r == CopyTemplate(Lookup(store, src).value.children, fs, target, vars)
    ensures r.Ok? ==> Lookup(store, src).Some? && Lookup(store, src).value.FoundDir?
    ensures r.Ok? ==> Frame(fs, r.value, target) && IsDir(r.value, target)
    ensures r.Err? ==> r.error.FromFileSystem()
  {
    match Lookup(store, src)
    case None =>
      var _ :- EnsureDir(fs, target);
      Err(NotFound(src))
    case Some(FoundFile(_)) =>
      var _ :- EnsureDir(fs, target);
      Err(NotADirectory(src))
    case Some(FoundDir(children)) =>
      var r := CopyTemplate(children, fs, target, vars);
      if r.Ok? then
        CopyTemplateFrame(children, fs, target, vars);
        CopyTemplateTargetIsDir(children, fs, target, vars);
        r
      else r
  }

  // ------------------------------------------------------------------
  // createProject

  /** Everything `createProject` writes before git: the root, then the
      template copied into it with the project name substituted. */
  function Populate(store: seq<Entry>, src: seq<string>, fs: FS, root: Path, name: string): (r: Result<FS>)
    ensures r.Ok? ==> Frame(fs, r.value, root) && IsDir(r.value, root)
    ensures r.Err? ==> r.error.FromFileSystem()
  {
    var fs1 :- EnsureDir(fs, root);
    EnsureDirFrame(fs, root);
    var fs2 :- CopyFromStore(store, src, fs1, root, NameVars(name));
    FrameTrans(fs, fs1, fs2, root);
    Ok(fs2)
  }

  /** `createProject(context)`: an existing target or a missing template
      fails before anything is written; otherwise the root is created, the
      template copied into it, and a repository initialised when asked. */
  function CreateProject(store: seq<Entry>, templatePath: TemplatePaths, fs: FS, cwd: Path,
                         ctx: ResolvedInitContext, gitSucceeds: bool): (r: Run<()>)
    requires ctx.Basic?
    ensures var root := ProjectRoot(cwd, ctx.projectName);
      Exists(fs, root) ==> r == Run(fs, [], Err(DirectoryExists(ctx.projectName)))
    ensures var root := ProjectRoot(cwd, ctx.projectName);
      !Exists(fs, root) && Lookup(store, templatePath(ctx.projectType, ctx.template)).None? ==>
      r == Run(fs, [], Err(TemplateNotFound(TypeName(ctx.projectType))))
    ensures var root := ProjectRoot(cwd, ctx.projectName);
      r.result.Ok? ==> !Exists(fs, root) && IsDir(r.fs, root) && Frame(fs, r.fs, root)
    ensures var root := ProjectRoot(cwd, ctx.projectName);
      r.effects != [] ==> ctx.initGit && r.effects == [GitInit(root)]
    ensures var root := ProjectRoot(cwd, ctx.projectName);
      r.result.Ok? ==> (r.effects == [GitInit(root)] <==> ctx.initGit)
    ensures var root := ProjectRoot(cwd, ctx.projectName);
      r.result.Ok? && ctx.initGit ==> IsDir(r.fs, root + [".git"])
    ensures r.result.Err? ==> GeneratorError(r.result.error)
  {
    var root := ProjectRoot(cwd, ctx.projectName);
    if Exists(fs, root) then Run(fs, [], Err(DirectoryExists(ctx.projectName)))
    else
      var src := templatePath(ctx.projectType, ctx.template);
      if Lookup(store, src).None? then Run(fs, [], Err(TemplateNotFound(TypeName(ctx.projectType))))
      else
        match Populate(store, src, fs, root, ctx.projectName)
        case Err(e) => Run(fs, [], Err(e))
        case Ok(fs2) =>
          if ctx.initGit then
            var g := InitGitRepo(fs2, root, gitSucceeds);
            if g.result.Ok? then
              assert Frame(fs2, g.fs, root) by {
                assert Under(root + [".git"], root);
              }
              FrameTrans(fs, fs2, g.fs, root);
              g
            else g
          else Run(fs2, [], Ok(()))
  }

  /** Every file of the chosen template lands below the new root, `.tpl`
      stripped from each segment, with `{{projectName}}` replaced by the
      project name; every directory of it, even an empty one, exists. */
  lemma CreateProjectCopiesTemplate(store: seq<Entry>, templatePath: TemplatePaths, fs: FS, cwd: Path,
                                    ctx: ResolvedInitContext, gitSucceeds: bool, rel: seq<string>)
    requires ctx.Basic?
    requires CreateProject(store, templatePath, fs, cwd, ctx, gitSucceeds).result.Ok?
    requires var found := Lookup(store, templatePath(ctx.projectType, ctx.template));
      found.Some? && found.value.FoundDir? && WellFormed(found.value.children)
    ensures var children := Lookup(store, templatePath(ctx.projectType, ctx.template)).value.children;
      var r := CreateProject(store, templatePath, fs, cwd, ctx, gitSucceeds).fs;
      var dest := ProjectRoot(cwd, ctx.projectName) + StripEach(rel);
      && (Lookup(children, rel).Some? && Lookup(children, rel).value.FoundFile? ==>
           dest in r && r[dest] == File(Substitute(Lookup(children, rel).value.content, NameVars(ctx.projectName))))
      && (Lookup(children, rel).Some? && Lookup(children, rel).value.FoundDir? ==> IsDir(r, dest))
  {
    var root := ProjectRoot(cwd, ctx.projectName);
    var src := templatePath(ctx.projectType, ctx.template);
    var children := Lookup(store, src).value.children;
    var fs1 := EnsureDir(fs, root).value;
    var fs2 := CopyTemplate(children, fs1, root, NameVars(ctx.projectName)).value;
    assert Populate(store, src, fs, root, ctx.projectName) == Ok(fs2);
    var dest := root + StripEach(rel);
    if Lookup(children, rel).Some? && Lookup(children, rel).value.FoundFile? {
      CopyTemplateFiles(children, fs1, root, NameVars(ctx.projectName), rel, Lookup(children, rel).value.content);
    }
    if Lookup(children, rel).Some? && Lookup(children, rel).value.FoundDir? {
      CopyTemplateDirs(children, fs1, root, NameVars(ctx.projectName), rel);
    }
  }

  /** Populating a fresh root from a well-formed template directory
      succeeds: no file stands on the way down to the root and nothing
      lies at or below it. */
  lemma PopulateSucceeds(store: seq<Entry>, src: seq<string>, fs: FS, root: Path, name: string)
    requires Lookup(store, src).Some? && Lookup(store, src).value.FoundDir?
    requires WellFormed(Lookup(store, src).value.children)
    requires Vacant(fs, root)
    ensures Populate(store, src, fs, root, name).Ok?
  {
    var fs1 := EnsureDir(fs, root).value;
    forall k | 0 <= k <= |root|
      ensures !IsFile(fs1, root[..k])
    {
    }
    forall q | q in fs1 && Under(q, root)
      ensures q == root
    {
    }
    CopyTemplateSucceeds(Lookup(store, src).value.children, fs1, root, NameVars(name));
  }

  /** `createProject` into a fresh root with a well-formed template
      succeeds without git.  With git, a `.git` the copied template brought
      along is refused before anything runs; otherwise `git init` runs and
      the whole succeeds exactly when it does. */
  lemma CreateProjectSucceeds(store: seq<Entry>, templatePath: TemplatePaths, fs: FS, cwd: Path,
                              ctx: ResolvedInitContext, gitSucceeds: bool)
    requires ctx.Basic?
    requires var found := Lookup(store, templatePath(ctx.projectType, ctx.template));
      found.Some? && found.value.FoundDir? && WellFormed(found.value.children)
    requires Vacant(fs, ProjectRoot(cwd, ctx.projectName))
    ensures var root := ProjectRoot(cwd, ctx.projectName);
      var src := templatePath(ctx.projectType, ctx.template);
      var r := CreateProject(store, templatePath, fs, cwd, ctx, gitSucceeds);
      && Populate(store, src, fs, root, ctx.projectName).Ok?
      && (!ctx.initGit ==> r.result.Ok? && r.effects == [])
      && (ctx.initGit && !Exists(Populate(store, src, fs, root, ctx.projectName).value, root + [".git"]) ==>
            r.effects == [GitInit(root)] && (r.result.Ok? <==> gitSucceeds))
      && (ctx.initGit && Exists(Populate(store, src, fs, root, ctx.projectName).value, root + [".git"]) ==>
            r.effects == [] && r.result == Err(GitRepositoryExists))
  {
    var root := ProjectRoot(cwd, ctx.projectName);
    var src := templatePath(ctx.projectType, ctx.template);
    PopulateSucceeds(store, src, fs, root, ctx.projectName);
    assert !Exists(fs, root) by {
      if root in fs { assert Under(root, root); }
    }
    var fs2 := Populate(store, src, fs, root, ctx.projectName).value;
    var r := CreateProject(store, templatePath, fs, cwd, ctx, gitSucceeds);
    if ctx.initGit {
      var g := InitGitRepo(fs2, root, gitSucceeds);
      assert Exists(fs2, root);
      assert r.effects == g.effects && r.result == g.result;
    } else {
      assert r == Run(fs2, [], Ok(()));
    }
  }

  // ------------------------------------------------------------------
  // createMonorepo

  /** `apps/<app>` below the monorepo root. */
  function AppDir(root: Path, app: string): Path {
    root + ["apps", app]
  }

  function SharedDir(root: Path): Path {
    root + ["packages", "shared"]
  }

  /** The root scripts: each runs the same script in every workspace. */
  const RootScripts: StrMap := map["dev" := "pnpm -r dev", "build" := "pnpm -r build", "lint" := "pnpm -r lint"]

  /** The root `package.json` of `createMonorepoConfig`. */
  function RootManifest(name: string): (m: Manifest)
    ensures m.others.Keys == {"name", "private"}
    ensures m.others["name"] == JString(name) && m.others["private"] == JBool(true)
    ensures m.Scripts().Keys == {"dev", "build", "lint"}
    ensures forall k :: k in m.Scripts() ==> m.Scripts()[k] == "pnpm -r " + k
    ensures m.dependencies.None? && m.devDependencies.None?
  {
    Manifest(None, None, Some(RootScripts), map["name" := JString(name), "private" := JBool(true)])
  }

  const WorkspaceConfig := "packages:\n  - 'apps/*'\n  - 'packages/*'\n"

  /** `tsconfig.base.json`; the compiler options object is kept opaque. */
  const TsconfigBase: Manifest := JsonObject(map["compilerOptions" := JOpaque("compilerOptions")])

  /** The lines of the generated `README.md`: a heading with the project
      name, then the layout and the start command. */
  function ReadmeLines(name: string): (lines: seq<string>)
    ensures |lines| > 1 && lines[0] == "# " + name
  {
    ["# " + name, "", "Monorepo project " + "created with devstarter-cli.", "",
     "## Structure", "", "```", name + "/",
     "\U{251C}\U{2500} apps/",
     "\U{2502}  \U{251C}\U{2500} " + "web/        " + "\U{2190} frontend",
     "\U{2502}  \U{2514}\U{2500} " + "api/        " + "\U{2190} backend",
     "\U{251C}\U{2500} packages/",
     "\U{2502}  \U{2514}\U{2500} " + "shared/     " + "\U{2190} shared code",
     "\U{251C}\U{2500} " + "package.json",
     "\U{251C}\U{2500} " + "pnpm-workspace.yaml",
     "\U{2514}\U{2500} " + "tsconfig.base.json",
     "```", "", "## Getting Started", "", "```bash", "pnpm dev", "```"]
  }

  /** The generated `README.md`, each line ended by a newline. */
  function Readme(name: string): (t: string)
    ensures Strings.StartsWith(t, "# " + name + "\n")
  {
    var lines := ReadmeLines(name);
    var heading := lines[0] + "\n";
    assert Strings.Join(lines, "\n") == heading + Strings.Join(lines[1..], "\n");
    assert Strings.Unlines(lines) == heading + (Strings.Join(lines[1..], "\n") + "\n");
    Strings.Unlines(lines)
  }

  /** The `package.json` of the shared workspace package. */
  function SharedManifest(name: string): (m: Manifest)
    ensures "name" in m.others && m.others["name"] == JString("@" + name + "/shared")
    ensures m.Scripts() == map["build" := "tsc", "dev" := "tsc --watch"]
  {
    Manifest(None, None, Some(map["build" := "tsc", "dev" := "tsc --watch"]),
             map["name" := JString("@" + name + "/shared"), "version" := JString("0.0.1"),
                 "private" := JBool(true), "type" := JString("module"),
                 "main" := JString("./src/index.ts"), "types" := JString("./src/index.ts")])
  }

  /** The shared package's `tsconfig.json`, extending the base one. */
  const SharedTsconfig: Manifest :=
    JsonObject(map["extends" := JString("../../tsconfig.base.json"),
                   "compilerOptions" := JOpaque("compilerOptions"), "include" := JOpaque("include")])

  const SharedIndex := "// Shared utilities and types\nexport {};\n"

  /** No name of `files` occurs again later in the list. */
  predicate DistinctNames(files: seq<(string, string)>) {
    forall i, j :: 0 <= i < j < |files| ==> files[i].0 != files[j].0
  }

  /** A run of `fs.writeFile` / `fs.writeJson` calls into one directory, in
      order; each file ends up with the last text written to it, and every
      other path keeps its entry. */
  function WriteFiles(fs: FS, dir: Path, files: seq<(string, string)>): (r: Result<FS>)
    ensures r.Ok? ==> Frame(fs, r.value, dir)
    ensures r.Ok? ==> forall q :: q in fs && (forall i :: 0 <= i < |files| ==> q != dir + [files[i].0]) ==> r.value[q] == fs[q]
    ensures r.Ok? && DistinctNames(files) ==>
      forall i :: 0 <= i < |files| ==> dir + [files[i].0] in r.value && r.value[dir + [files[i].0]] == File(files[i].1)
    decreases |files|
    ensures r.Err? ==> r.error.FromFileSystem()
  {
    if |files| == 0 then Ok(fs)
    else
      var p := dir + [files[0].0];
      var fs1 :- WriteFile(fs, p, files[0].1);
      WriteFileFrame(fs, p, files[0].1);
      FrameWiden(fs, fs1, p, dir);
      var r :- WriteFiles(fs1, dir, files[1..]);
      FrameTrans(fs, fs1, r, dir);
      assert forall i :: 0 < i < |files| ==> files[i] == files[1..][i - 1];
      if DistinctNames(files) then
        forall j | 0 <= j < |files[1..]|
          ensures p != dir + [files[1..][j].0]
        {
          assert files[1..][j] == files[j + 1];
          ChildrenDiffer(dir, files[0].0, files[j + 1].0);
        }
        assert DistinctNames(files[1..]);
        Ok(r)
      else Ok(r)
  }

  /** The four files of `createMonorepoConfig`, in the order written. */
  function ConfigFiles(codec: Codec, name: string): (files: seq<(string, string)>)
    ensures DistinctNames(files) && |files| == 4
    ensures files[0] == ("package.json", codec.stringify(RootManifest(name)))
    ensures files[1] == ("pnpm-workspace.yaml", WorkspaceConfig)
    ensures files[2] == ("tsconfig.base.json", codec.stringify(TsconfigBase))
    ensures files[3] == ("README.md", Readme(name))
  {
    var t0, t1, t2, t3 := codec.stringify(RootManifest(name)), WorkspaceConfig, codec.stringify(TsconfigBase), Readme(name);
    ConfigNamesDistinct(t0, t1, t2, t3);
    [("package.json", t0), ("pnpm-workspace.yaml", t1), ("tsconfig.base.json", t2), ("README.md", t3)]
  }

  /** The four root file names differ (their lengths do), whatever is
      written to them. */
  lemma ConfigNamesDistinct(t0: string, t1: string, t2: string, t3: string)
    ensures DistinctNames([("package.json", t0), ("pnpm-workspace.yaml", t1), ("tsconfig.base.json", t2), ("README.md", t3)])
  {
    var files := [("package.json", t0), ("pnpm-workspace.yaml", t1), ("tsconfig.base.json", t2), ("README.md", t3)];
    assert forall i :: 0 <= i < 4 ==> |files[i].0| == [12, 19, 18, 9][i];
  }

  /** The root, `apps/` and `packages/`, then `createMonorepoConfig`: the
      root manifest, the workspace file, the base tsconfig and the README. */
  function Skeleton(codec: Codec, fs: FS, root: Path, name: string): (r: Result<FS>)
    ensures r.Ok? ==> IsDir(r.value, root) && IsDir(r.value, root + ["apps"]) && IsDir(r.value, root + ["packages"])
    ensures r.Ok? ==> forall i :: 0 <= i < 4 ==>
      root + [ConfigFiles(codec, name)[i].0] in r.value
      && r.value[root + [ConfigFiles(codec, name)[i].0]] == File(ConfigFiles(codec, name)[i].1)
    ensures r.Err? ==> r.error.FromFileSystem()
  {
    var fs3 :- SkeletonDirs(fs, root);
    var r :- WriteFiles(fs3, root, ConfigFiles(codec, name));
    Ok(r)
  }

  /** `ensureDir` of the root, `apps/` and `packages/`, in order. */
  function SkeletonDirs(fs: FS, root: Path): (r: Result<FS>)
    ensures r.Ok? ==> IsDir(r.value, root) && IsDir(r.value, root + ["apps"]) && IsDir(r.value, root + ["packages"])
    ensures r.Ok? ==> forall q :: q in fs ==> q in r.value && r.value[q] == fs[q]
    ensures r.Err? ==> r.error.FromFileSystem()
  {
    var fs1 :- EnsureDir(fs, root);
    var fs2 :- EnsureDir(fs1, root + ["apps"]);
    EnsureDir(fs2, root + ["packages"])
  }

  /** `if (await fs.pathExists(templatePath)) await copyTemplate(...)`: a
      missing template is skipped without a trace. */
  function CopyIfPresent(store: seq<Entry>, src: seq<string>, fs: FS, target: Path, vars: Vars): (r: Result<FS>)
    ensures Lookup(store, src).None? ==> r == Ok(fs)
    ensures Lookup(store, src).Some? ==> r == CopyFromStore(store, src, fs, target, vars)
    ensures r.Ok? ==> Frame(fs, r.value, target)
    ensures r.Err? ==> r.error.FromFileSystem()
  {
    if Lookup(store, src).None? then Ok(fs) else CopyFromStore(store, src, fs, target, vars)
  }

  /** The two JSON files of the shared package, in the order written. */
  function SharedFiles(codec: Codec, name: string): (files: seq<(string, string)>)
    ensures DistinctNames(files) && |files| == 2
    ensures files[0] == ("package.json", codec.stringify(SharedManifest(name)))
    ensures files[1] == ("tsconfig.json", codec.stringify(SharedTsconfig))
  {
    var files := [("package.json", codec.stringify(SharedManifest(name))), ("tsconfig.json", codec.stringify(SharedTsconfig))];
    assert |files[0].0| != |files[1].0|;
    files
  }

  /** The last step of `createSharedPackage`: `src/index.ts`, which lies
      one level deeper than the JSON files and so leaves them alone. */
  function WriteSharedIndex(fs: FS, dir: Path): (r: Result<FS>)
    ensures r.Ok? ==> Frame(fs, r.value, dir)
    ensures r.Ok? ==> IsFile(r.value, dir + ["src", "index.ts"])
    ensures r.Ok? ==> forall q :: q in fs && |q| == |dir| + 1 ==> r.value[q] == fs[q]
    ensures r.Err? ==> r.error.FromFileSystem()
  {
    var src := dir + ["src"];
    var index := src + ["index.ts"];
    var r :- WriteFile(fs, index, SharedIndex);
    WriteFileFrame(fs, index, SharedIndex);
    FrameWiden(fs, r, index, src);
    FrameWiden(fs, r, src, dir);
    assert index == dir + ["src", "index.ts"];
    Ok(r)
  }

  /** `createSharedPackage`: `packages/shared/src`, the package manifest,
      its tsconfig and an empty `src/index.ts`. */
  function CreateSharedPackage(codec: Codec, fs: FS, root: Path, name: string): (r: Result<FS>)
    ensures r.Ok? ==> Frame(fs, r.value, SharedDir(root))
    ensures r.Ok? ==> forall i :: 0 <= i < 2 ==>
      SharedDir(root) + [SharedFiles(codec, name)[i].0] in r.value
      && r.value[SharedDir(root) + [SharedFiles(codec, name)[i].0]] == File(SharedFiles(codec, name)[i].1)
    ensures r.Ok? ==> IsFile(r.value, SharedDir(root) + ["src", "index.ts"])
    ensures r.Err? ==> r.error.FromFileSystem()
  {
    var dir := SharedDir(root);
    var fs1 :- EnsureDir(fs, dir + ["src"]);
    EnsureDirFrame(fs, dir + ["src"]);
    FrameWiden(fs, fs1, dir + ["src"], dir);
    var fs2 :- WriteFiles(fs1, dir, SharedFiles(codec, name));
    FrameTrans(fs, fs1, fs2, dir);
    var fs3 :- WriteSharedIndex(fs2, dir);
    FrameTrans(fs, fs2, fs3, dir);
    Ok(fs3)
  }

  /** Every file-system step of `createMonorepo` after the existence check,
      in order: skeleton and config, the web and api templates, the shared
      package, and Vitest in both apps when asked. */
  function BuildMonorepo(codec: Codec, store: seq<Entry>, templatePath: TemplatePaths, fs: FS, root: Path,
                         ctx: ResolvedInitContext): (r: Result<FS>)
    requires ctx.Monorepo?
    ensures r.Err? ==> r.error.FromFileSystem()
  {
    var fs4 :- BuildWorkspace(codec, store, templatePath, fs, root, ctx);
    if ctx.useVitest then AddVitest(codec, fs4, root) else Ok(fs4)
  }

  /** The steps before Vitest: skeleton and config, the web and api
      templates, the shared package. */
  function BuildWorkspace(codec: Codec, store: seq<Entry>, templatePath: TemplatePaths, fs: FS, root: Path,
                          ctx: ResolvedInitContext): (r: Result<FS>)
    requires ctx.Monorepo?
    ensures r.Err? ==> r.error.FromFileSystem()
  {
    var fs1 :- Skeleton(codec, fs, root, ctx.projectName);
    var fs2 :- CopyIfPresent(store, templatePath(Frontend, ctx.webTemplate), fs1, AppDir(root, "web"), NameVars(ctx.projectName + "-web"));
    var fs3 :- CopyIfPresent(store, templatePath(Backend, ctx.apiTemplate), fs2, AppDir(root, "api"), NameVars(ctx.projectName + "-api"));
    CreateSharedPackage(codec, fs3, root, ctx.projectName)
  }

  /** `setupVitest` in `apps/web`, then in `apps/api`; nothing outside
      `apps/` changes. */
  function AddVitest(codec: Codec, fs: FS, root: Path): (r: Result<FS>)
    ensures r.Ok? ==> KeepsOutsideApps(fs, r.value, root)
    ensures r.Err? ==> r.error.FromFileSystem()
  {
    var fs5 :- Vitest.SetupVitest(codec, fs, AppDir(root, "web"));
    VitestKeeps(codec, fs, root, "web");
    var r :- Vitest.SetupVitest(codec, fs5, AppDir(root, "api"));
    VitestKeeps(codec, fs5, root, "api");
    Ok(r)
  }

  /** The two subprocess steps that close `createMonorepo`: one install,
      then, if asked and only after a successful install, `git init`. */
  function InstallThenGit(fs: FS, root: Path, pm: PackageManager, initGit: bool,
                          installSucceeds: bool, gitSucceeds: bool): (r: Run<()>)
    ensures |r.effects| >= 1 && r.effects[0] == Install(root, pm)
    ensures GitInit(root) in r.effects ==> initGit && installSucceeds && r.effects == [Install(root, pm), GitInit(root)]
    ensures r.result.Ok? ==> r.effects == [Install(root, pm)] + (if initGit then [GitInit(root)] else [])
    ensures r.result.Ok? ==> installSucceeds && (initGit ==> gitSucceeds)
    ensures r.result.Ok? ==> forall q :: q in fs ==> q in r.fs && r.fs[q] == fs[q]
    ensures r.result.Err? ==> GeneratorError(r.result.error)
  {
    var install := InstallDependencies(fs, root, pm, installSucceeds);
    if install.result.Err? then install
    else if initGit then
      var g := InitGitRepo(fs, root, gitSucceeds);
      Run(g.fs, install.effects + g.effects, g.result)
    else Run(fs, install.effects, Ok(()))
  }

  /** `createMonorepo(context)`: an existing target fails before any write;
      after the files, dependencies are installed once and only then, if
      asked and the install succeeded, a repository is initialised. */
  function CreateMonorepo(codec: Codec, store: seq<Entry>, templatePath: TemplatePaths, fs: FS, cwd: Path,
                          ctx: ResolvedInitContext, installSucceeds: bool, gitSucceeds: bool): (r: Run<()>)
    requires ctx.Monorepo?
    ensures var root := ProjectRoot(cwd, ctx.projectName);
      Exists(fs, root) ==> r == Run(fs, [], Err(DirectoryExists(ctx.projectName)))
    ensures var root := ProjectRoot(cwd, ctx.projectName);
      r.effects != [] <==> !Exists(fs, root) && BuildMonorepo(codec, store, templatePath, fs, root, ctx).Ok?
    ensures var root := ProjectRoot(cwd, ctx.projectName);
      r.effects != [] ==> r.effects[0] == Install(root, ctx.packageManager)
    ensures var root := ProjectRoot(cwd, ctx.projectName);
      GitInit(root) in r.effects ==> ctx.initGit && installSucceeds && r.effects == [Install(root, ctx.packageManager), GitInit(root)]
    ensures var root := ProjectRoot(cwd, ctx.projectName);
      r.result.Ok? ==> r.effects == [Install(root, ctx.packageManager)] + (if ctx.initGit then [GitInit(root)] else [])
    ensures r.result.Ok? ==> installSucceeds && (ctx.initGit ==> gitSucceeds)
    ensures var root := ProjectRoot(cwd, ctx.projectName);
      r.result.Ok? ==> (
        && !Exists(fs, root) && BuildMonorepo(codec, store, templatePath, fs, root, ctx).Ok?
        && var built := BuildMonorepo(codec, store, templatePath, fs, root, ctx).value;
           forall q :: q in built ==> q in r.fs && r.fs[q] == built[q])
    ensures r.result.Err? ==> GeneratorError(r.result.error)
  {
    var root := ProjectRoot(cwd, ctx.projectName);
    if Exists(fs, root) then Run(fs, [], Err(DirectoryExists(ctx.projectName)))
    else
      match BuildMonorepo(codec, store, templatePath, fs, root, ctx)
      case Err(e) => Run(fs, [], Err(e))
      case Ok(fs1) => InstallThenGit(fs1, root, ctx.packageManager, ctx.initGit, installSucceeds, gitSucceeds)
  }

  // ------------------------------------------------------------------
  // The monorepo layout

  /** Each of `files` lies in `dir` with its text. */
  predicate FilesAt(fs: FS, dir: Path, files: seq<(string, string)>) {
    forall i :: 0 <= i < |files| ==> dir + [files[i].0] in fs && fs[dir + [files[i].0]] == File(files[i].1)
  }

  /** The root of a monorepo is a directory holding `apps/`, `packages/`
      and the four files of `createMonorepoConfig`. */
  predicate ConfigLaidOut(codec: Codec, fs: FS, root: Path, name: string) {
    IsDir(fs, root) && IsDir(fs, root + ["apps"]) && IsDir(fs, root + ["packages"]) && FilesAt(fs, root, ConfigFiles(codec, name))
  }

  /** `packages/shared` holds its manifest, its tsconfig and `src/index.ts`. */
  predicate SharedLaidOut(codec: Codec, fs: FS, root: Path, name: string) {
    IsFile(fs, SharedDir(root) + ["src", "index.ts"]) && FilesAt(fs, SharedDir(root), SharedFiles(codec, name))
  }

  /** A step confined to a directory two levels below the root leaves the
      root's own entries alone. */
  lemma ConfigKept(codec: Codec, a: FS, b: FS, root: Path, name: string, t: Path)
    requires ConfigLaidOut(codec, a, root, name) && Frame(a, b, t) && |t| >= |root| + 2
    ensures ConfigLaidOut(codec, b, root, name)
  {
    var files := ConfigFiles(codec, name);
    forall i | 0 <= i < |files|
      ensures root + [files[i].0] in b && b[root + [files[i].0]] == File(files[i].1)
    {
      assert !Under(root + [files[i].0], t);
    }
  }

  /** Entries of one length, or away from `apps/`, are kept by a step that
      writes only below `apps/<app>/` at depth three. */
  predicate KeepsOutsideApps(a: FS, b: FS, root: Path) {
    forall q :: q in a && (|q| != |root| + 3 || q[|root|] != "apps") ==> q in b && b[q] == a[q]
  }

  /** A step that changes nothing outside `apps/<app>/` keeps the layout. */
  lemma LaidOutKept(codec: Codec, a: FS, b: FS, root: Path, name: string)
    requires ConfigLaidOut(codec, a, root, name) && SharedLaidOut(codec, a, root, name)
    requires KeepsOutsideApps(a, b, root)
    ensures ConfigLaidOut(codec, b, root, name) && SharedLaidOut(codec, b, root, name)
  {
    var files := ConfigFiles(codec, name);
    forall i | 0 <= i < |files|
      ensures root + [files[i].0] in b && b[root + [files[i].0]] == File(files[i].1)
    {
      assert |root + [files[i].0]| == |root| + 1;
    }
    assert |root + ["apps"]| == |root| + 1 && |root + ["packages"]| == |root| + 1;
    SharedKept(codec, a, b, root, name);
  }

  lemma SharedKept(codec: Codec, a: FS, b: FS, root: Path, name: string)
    requires SharedLaidOut(codec, a, root, name)
    requires KeepsOutsideApps(a, b, root)
    ensures SharedLaidOut(codec, b, root, name)
  {
    var shared := SharedFiles(codec, name);
    var dir := SharedDir(root);
    var packages := "packages";
    assert packages != "apps" by {
      assert |packages| == 8;
    }
    forall i | 0 <= i < |shared|
      ensures dir + [shared[i].0] in b && b[dir + [shared[i].0]] == File(shared[i].1)
    {
      assert (dir + [shared[i].0])[|root|] == packages;
    }
    assert |dir + ["src", "index.ts"]| == |root| + 4;
  }

  /** `setupVitest` in an app touches only two files of that app. */
  lemma VitestKeeps(codec: Codec, a: FS, root: Path, app: string)
    requires Vitest.SetupVitest(codec, a, AppDir(root, app)).Ok?
    ensures KeepsOutsideApps(a, Vitest.SetupVitest(codec, a, AppDir(root, app)).value, root)
  {
    var dir := AppDir(root, app);
    assert (dir + ["package.json"])[|root|] == "apps";
    assert (dir + ["vitest.config.ts"])[|root|] == "apps";
  }

  /** After `BuildMonorepo`, the root and the shared package are laid out. */
  lemma {:induction false} BuildMonorepoLaysOut(codec: Codec, store: seq<Entry>, templatePath: TemplatePaths, fs: FS, root: Path,
                                                ctx: ResolvedInitContext)
    requires ctx.Monorepo?
    requires BuildMonorepo(codec, store, templatePath, fs, root, ctx).Ok?
    ensures var built := BuildMonorepo(codec, store, templatePath, fs, root, ctx).value;
      ConfigLaidOut(codec, built, root, ctx.projectName) && SharedLaidOut(codec, built, root, ctx.projectName)
  {
    var name := ctx.projectName;
    BuildWorkspaceLaysOut(codec, store, templatePath, fs, root, ctx);
    if ctx.useVitest {
      var fs4 := BuildWorkspace(codec, store, templatePath, fs, root, ctx).value;
      LaidOutKept(codec, fs4, AddVitest(codec, fs4, root).value, root, name);
    }
  }

  /** With `useVitest`, both `apps/web` and `apps/api` end up holding the
      Vitest config. */
  lemma BuildMonorepoSetsUpVitest(codec: Codec, store: seq<Entry>, templatePath: TemplatePaths, fs: FS, root: Path,
                                  ctx: ResolvedInitContext)
    requires ctx.Monorepo? && ctx.useVitest
    requires BuildMonorepo(codec, store, templatePath, fs, root, ctx).Ok?
    ensures var built := BuildMonorepo(codec, store, templatePath, fs, root, ctx).value;
      && AppDir(root, "web") + ["vitest.config.ts"] in built && built[AppDir(root, "web") + ["vitest.config.ts"]] == File(Vitest.Config)
      && AppDir(root, "api") + ["vitest.config.ts"] in built && built[AppDir(root, "api") + ["vitest.config.ts"]] == File(Vitest.Config)
  {
    var fs4 := BuildWorkspace(codec, store, templatePath, fs, root, ctx).value;
    AddVitestBothApps(codec, fs4, root);
  }

  /** `AddVitest` leaves the config in both apps: the api setup keeps the
      web config it finds. */
  lemma AddVitestBothApps(codec: Codec, fs: FS, root: Path)
    requires AddVitest(codec, fs, root).Ok?
    ensures var r := AddVitest(codec, fs, root).value;
      && AppDir(root, "web") + ["vitest.config.ts"] in r && r[AppDir(root, "web") + ["vitest.config.ts"]] == File(Vitest.Config)
      && AppDir(root, "api") + ["vitest.config.ts"] in r && r[AppDir(root, "api") + ["vitest.config.ts"]] == File(Vitest.Config)
  {
    var fs5 := Vitest.SetupVitest(codec, fs, AppDir(root, "web")).value;
    var r := Vitest.SetupVitest(codec, fs5, AppDir(root, "api")).value;
    assert AddVitest(codec, fs, root).value == r;
    var webConfig := AppDir(root, "web") + ["vitest.config.ts"];
    assert webConfig != AppDir(root, "api") + ["package.json"] && webConfig != AppDir(root, "api") + ["vitest.config.ts"] by {
      OtherAppPath(root, "web", "api", "vitest.config.ts", "package.json");
      OtherAppPath(root, "web", "api", "vitest.config.ts", "vitest.config.ts");
    }
  }

  /** A file of one app is never a file of another. */
  lemma OtherAppPath(root: Path, app: string, other: string, f: string, g: string)
    requires |app| > 0 && |other| > 0 && app[0] != other[0]
    ensures AppDir(root, app) + [f] != AppDir(root, other) + [g]
  {
    assert (AppDir(root, app) + [f])[|root| + 1] == app;
    assert (AppDir(root, other) + [g])[|root| + 1] == other;
  }

  /** After `BuildWorkspace`, the root and the shared package are laid out. */
  lemma BuildWorkspaceLaysOut(codec: Codec, store: seq<Entry>, templatePath: TemplatePaths, fs: FS, root: Path,
                              ctx: ResolvedInitContext)
    requires ctx.Monorepo?
    requires BuildWorkspace(codec, store, templatePath, fs, root, ctx).Ok?
    ensures var built := BuildWorkspace(codec, store, templatePath, fs, root, ctx).value;
      ConfigLaidOut(codec, built, root, ctx.projectName) && SharedLaidOut(codec, built, root, ctx.projectName)
  {
    var name := ctx.projectName;
    var fs1 := Skeleton(codec, fs, root, name).value;
    var fs2 := CopyIfPresent(store, templatePath(Frontend, ctx.webTemplate), fs1, AppDir(root, "web"), NameVars(name + "-web")).value;
    ConfigKept(codec, fs1, fs2, root, name, AppDir(root, "web"));
    var fs3 := CopyIfPresent(store, templatePath(Backend, ctx.apiTemplate), fs2, AppDir(root, "api"), NameVars(name + "-api")).value;
    ConfigKept(codec, fs2, fs3, root, name, AppDir(root, "api"));
    var fs4 := CreateSharedPackage(codec, fs3, root, name).value;
    ConfigKept(codec, fs3, fs4, root, name, SharedDir(root));
  }

  /** A successful `createMonorepo` leaves `apps/` and `packages/`, the root
      manifest named after the project, private, whose `dev`, `build` and
      `lint` scripts each run `pnpm -r <script>`, and the shared package
      `@<name>/shared` with its `src/index.ts`. */
  lemma CreateMonorepoLayout(codec: Codec, store: seq<Entry>, templatePath: TemplatePaths, fs: FS, cwd: Path,
                             ctx: ResolvedInitContext, installSucceeds: bool, gitSucceeds: bool)
    requires Lawful(codec)
    requires ctx.Monorepo?
    requires CreateMonorepo(codec, store, templatePath, fs, cwd, ctx, installSucceeds, gitSucceeds).result.Ok?
    ensures var root := ProjectRoot(cwd, ctx.projectName);
      var r := CreateMonorepo(codec, store, templatePath, fs, cwd, ctx, installSucceeds, gitSucceeds).fs;
      && IsDir(r, root) && IsDir(r, root + ["apps"]) && IsDir(r, root + ["packages"])
      && ReadJson(codec, r, root + ["package.json"]) == Ok(RootManifest(ctx.projectName))
      && ReadJson(codec, r, SharedDir(root) + ["package.json"]) == Ok(SharedManifest(ctx.projectName))
      && IsFile(r, SharedDir(root) + ["src", "index.ts"])
      && IsFile(r, root + ["pnpm-workspace.yaml"]) && IsFile(r, root + ["README.md"])
  {
    var root := ProjectRoot(cwd, ctx.projectName);
    var name := ctx.projectName;
    BuildMonorepoLaysOut(codec, store, templatePath, fs, root, ctx);
    var files := ConfigFiles(codec, name);
    var shared := SharedFiles(codec, name);
    assert codec.parse(codec.stringify(RootManifest(name))) == Some(RootManifest(name));
    assert codec.parse(codec.stringify(SharedManifest(name))) == Some(SharedManifest(name));
    assert root + [files[0].0] == root + ["package.json"];
    assert root + [files[1].0] == root + ["pnpm-workspace.yaml"];
    assert root + [files[3].0] == root + ["README.md"];
    assert SharedDir(root) + [shared[0].0] == SharedDir(root) + ["package.json"];
  }

  /** A path below `apps/<app>` is outside the other app and outside
      `packages/shared`. */
  lemma AppPathOutside(root: Path, app: string, other: string, rest: seq<string>)
    requires app != other
    ensures !Under(AppDir(root, app) + rest, AppDir(root, other))
    ensures !Under(AppDir(root, app) + rest, SharedDir(root))
  {
    var q := AppDir(root, app) + rest;
    assert q[|root| + 1] == app && AppDir(root, other)[|root| + 1] == other;
    var apps := "apps";
    assert apps != "packages" by {
      assert |apps| == 4;
    }
    assert q[|root|] == apps && SharedDir(root)[|root|] == "packages";
  }

  /** Without Vitest, each file of the web (api) template lands below
      `apps/web` (`apps/api`), with `{{projectName}}` replaced by the
      project name suffixed `-web` (`-api`). */
  lemma CreateMonorepoCopiesApps(codec: Codec, store: seq<Entry>, templatePath: TemplatePaths, fs: FS, cwd: Path,
                                 ctx: ResolvedInitContext, installSucceeds: bool, gitSucceeds: bool,
                                 web: bool, rel: seq<string>, content: string)
    requires ctx.Monorepo? && !ctx.useVitest
    requires CreateMonorepo(codec, store, templatePath, fs, cwd, ctx, installSucceeds, gitSucceeds).result.Ok?
    requires var src := if web then templatePath(Frontend, ctx.webTemplate) else templatePath(Backend, ctx.apiTemplate);
      && Lookup(store, src).Some? && Lookup(store, src).value.FoundDir?
      && WellFormed(Lookup(store, src).value.children)
      && Lookup(Lookup(store, src).value.children, rel) == Some(FoundFile(content))
    ensures var root := ProjectRoot(cwd, ctx.projectName);
      var r := CreateMonorepo(codec, store, templatePath, fs, cwd, ctx, installSucceeds, gitSucceeds).fs;
      var dest := AppDir(root, if web then "web" else "api") + StripEach(rel);
      dest in r && r[dest] == File(Substitute(content, NameVars(ctx.projectName + (if web then "-web" else "-api"))))
  {
    var root := ProjectRoot(cwd, ctx.projectName);
    var name := ctx.projectName;
    var webSrc := templatePath(Frontend, ctx.webTemplate);
    var apiSrc := templatePath(Backend, ctx.apiTemplate);
    var fs1 := Skeleton(codec, fs, root, name).value;
    var fs2 := CopyIfPresent(store, webSrc, fs1, AppDir(root, "web"), NameVars(name + "-web")).value;
    var fs3 := CopyIfPresent(store, apiSrc, fs2, AppDir(root, "api"), NameVars(name + "-api")).value;
    var fs4 := CreateSharedPackage(codec, fs3, root, name).value;
    assert BuildWorkspace(codec, store, templatePath, fs, root, ctx) == Ok(fs4);
    assert BuildMonorepo(codec, store, templatePath, fs, root, ctx) == Ok(fs4);
    var dest := AppDir(root, if web then "web" else "api") + StripEach(rel);
    var web3 := "web";
    assert web3 != "api" by {
      assert web3[0] == 'w';
    }
    if web {
      var children := Lookup(store, webSrc).value.children;
      CopyTemplateFiles(children, fs1, AppDir(root, "web"), NameVars(name + "-web"), rel, content);
      AppPathOutside(root, "web", "api", StripEach(rel));
    } else {
      var children := Lookup(store, apiSrc).value.children;
      CopyTemplateFiles(children, fs2, AppDir(root, "api"), NameVars(name + "-api"), rel, content);
      AppPathOutside(root, "api", "web", StripEach(rel));
    }
  }

  // ------------------------------------------------------------------
  // When createMonorepo succeeds

  /** A template the monorepo can copy: absent, and then skipped, or a
      well-formed directory. */
  predicate Copyable(store: seq<Entry>, src: seq<string>) {
    var found := Lookup(store, src);
    found.None? || (found.value.FoundDir? && WellFormed(found.value.children))
  }

  /** A copyable template goes into a vacant target without error. */
  lemma CopyIfPresentSucceeds(store: seq<Entry>, src: seq<string>, fs: FS, target: Path, vars: Vars)
    requires Copyable(store, src) && Vacant(fs, target)
    ensures CopyIfPresent(store, src, fs, target, vars).Ok?
  {
    if Lookup(store, src).Some? {
      CopyTemplateSucceeds(Lookup(store, src).value.children, fs, target, vars);
    }
  }

  /** Files written into an existing directory succeed when none of their
      paths is a directory. */
  lemma {:induction false} WriteFilesSucceed(fs: FS, dir: Path, files: seq<(string, string)>)
    requires IsDir(fs, dir)
    requires forall i :: 0 <= i < |files| ==> !IsDir(fs, dir + [files[i].0])
    ensures WriteFiles(fs, dir, files).Ok?
    decreases |files|
  {
    if |files| > 0 {
      var p := dir + [files[0].0];
      assert Parent(p) == dir && p != dir;
      var fs1 := fs[p := File(files[0].1)];
      forall i | 0 <= i < |files[1..]|
        ensures !IsDir(fs1, dir + [files[1..][i].0])
      {
        assert files[1..][i] == files[i + 1];
      }
      WriteFilesSucceed(fs1, dir, files[1..]);
    }
  }

  /** Writing files leaves vacant a path apart from each of them. */
  lemma {:induction false} WriteFilesKeepVacant(fs: FS, dir: Path, files: seq<(string, string)>, t: Path)
    requires Vacant(fs, t) && WriteFiles(fs, dir, files).Ok?
    requires forall i :: 0 <= i < |files| ==> Apart(t, dir + [files[i].0])
    ensures Vacant(WriteFiles(fs, dir, files).value, t)
    decreases |files|
  {
    if |files| > 0 {
      var p := dir + [files[0].0];
      var fs1 := WriteFile(fs, p, files[0].1).value;
      WriteFileFrame(fs, p, files[0].1);
      VacantKept(fs, fs1, p, t);
      forall i | 0 <= i < |files[1..]|
        ensures Apart(t, dir + [files[1..][i].0])
      {
        assert files[1..][i] == files[i + 1];
      }
      WriteFilesKeepVacant(fs1, dir, files[1..], t);
    }
  }

  /** The three directories of the skeleton go into a vacant root, and a
      path below the root on neither `apps` nor `packages`'s way stays
      vacant. */
  lemma SkeletonDirsKeepVacant(fs: FS, root: Path, t: Path)
    requires Vacant(fs, root)
    requires |t| > |root| && Under(t, root)
    requires !Under(root + ["apps"], t) && !Under(root + ["packages"], t)
    ensures SkeletonDirs(fs, root).Ok? && Vacant(SkeletonDirs(fs, root).value, t)
  {
    var apps := root + ["apps"];
    var packages := root + ["packages"];
    assert !Under(apps, packages) by { assert apps[|root|] != packages[|root|]; }
    VacantBelow(fs, root, t);
    VacantBelow(fs, root, apps);
    VacantBelow(fs, root, packages);
    var fs1 := EnsureDir(fs, root).value;
    EnsureDirKeepsVacant(fs, root, t);
    EnsureDirKeepsVacant(fs, root, apps);
    EnsureDirKeepsVacant(fs, root, packages);
    var fs2 := EnsureDir(fs1, apps).value;
    EnsureDirKeepsVacant(fs1, apps, t);
    EnsureDirKeepsVacant(fs1, apps, packages);
    EnsureDirKeepsVacant(fs2, packages, t);
  }

  /** After the skeleton's directories, a root file other than `apps` and
      `packages` is not a directory. */
  lemma RootFileFree(fs: FS, root: Path, n: string)
    requires Vacant(fs, root) && n != "apps" && n != "packages"
    ensures SkeletonDirs(fs, root).Ok? && !IsDir(SkeletonDirs(fs, root).value, root + [n])
  {
    var m := root + [n];
    assert !Under(root + ["apps"], m) by { assert (root + ["apps"])[|root|] != m[|root|]; }
    assert !Under(root + ["packages"], m) by { assert (root + ["packages"])[|root|] != m[|root|]; }
    SkeletonDirsKeepVacant(fs, root, m);
    assert Under(m, m);
  }

  /** The skeleton is laid out in a vacant root, and a path below the root
      that is none of the skeleton's own stays vacant. */
  lemma {:induction false} SkeletonKeepsVacant(codec: Codec, fs: FS, root: Path, name: string, t: Path)
    requires Vacant(fs, root)
    requires |t| > |root| && Under(t, root)
    requires !Under(root + ["apps"], t) && !Under(root + ["packages"], t)
    requires forall i :: 0 <= i < 4 ==> t[|root|] != ConfigFiles(codec, name)[i].0
    ensures Skeleton(codec, fs, root, name).Ok?
    ensures Vacant(Skeleton(codec, fs, root, name).value, t)
  {
    SkeletonDirsKeepVacant(fs, root, t);
    var fs3 := SkeletonDirs(fs, root).value;
    var files := ConfigFiles(codec, name);
    forall i | 0 <= i < |files|
      ensures !IsDir(fs3, root + [files[i].0]) && Apart(t, root + [files[i].0])
    {
      assert files[i].0 != "apps" && files[i].0 != "packages" by {
        assert i == 0 || i == 1 || i == 2 || i == 3;
      }
      RootFileFree(fs, root, files[i].0);
      ApartAt(t, root + [files[i].0], |root|);
    }
    WriteFilesSucceed(fs3, root, files);
    WriteFilesKeepVacant(fs3, root, files, t);
  }

  /** `ensureDir` of `src` in a vacant package directory creates the
      package directory too and leaves `src/index.ts` vacant. */
  lemma SharedSrcMade(fs: FS, dir: Path)
    requires Vacant(fs, dir)
    ensures var r := EnsureDir(fs, dir + ["src"]);
      r.Ok? && IsDir(r.value, dir) && IsDir(r.value, dir + ["src"]) && Vacant(r.value, dir + ["src"] + ["index.ts"])
  {
    var src := dir + ["src"];
    var index := src + ["index.ts"];
    VacantBelow(fs, dir, src);
    VacantBelow(fs, dir, index);
    assert Under(src, src) && Parent(src) == dir;
    EnsureDirMakesParent(fs, src);
    EnsureDirKeepsVacant(fs, src, index);
  }

  /** Beside `src` in a vacant package directory, no other name is a
      directory after `src` is ensured. */
  lemma SharedFileFree(fs: FS, dir: Path, n: string)
    requires Vacant(fs, dir) && n != "src"
    ensures EnsureDir(fs, dir + ["src"]).Ok? && !IsDir(EnsureDir(fs, dir + ["src"]).value, dir + [n])
  {
    var src := dir + ["src"];
    var m := dir + [n];
    assert !Under(src, m) by { assert src[|dir|] != m[|dir|]; }
    VacantBelow(fs, dir, src);
    VacantBelow(fs, dir, m);
    EnsureDirKeepsVacant(fs, src, m);
    assert Under(m, m);
  }

  /** The two JSON files go into the package directory once `src` is
      ensured, and `src/index.ts` stays vacant. */
  lemma SharedJsonWritten(codec: Codec, fs: FS, dir: Path, name: string)
    requires Vacant(fs, dir)
    ensures EnsureDir(fs, dir + ["src"]).Ok?
    ensures var r := WriteFiles(EnsureDir(fs, dir + ["src"]).value, dir, SharedFiles(codec, name));
      r.Ok? && IsDir(r.value, dir + ["src"]) && Vacant(r.value, dir + ["src"] + ["index.ts"])
  {
    var src := dir + ["src"];
    var index := src + ["index.ts"];
    SharedSrcMade(fs, dir);
    var fs1 := EnsureDir(fs, src).value;
    var files := SharedFiles(codec, name);
    forall i | 0 <= i < |files|
      ensures !IsDir(fs1, dir + [files[i].0]) && Apart(index, dir + [files[i].0]) && src != dir + [files[i].0]
    {
      assert files[i].0 != "src" by { assert i == 0 || i == 1; }
      SharedFileFree(fs, dir, files[i].0);
      ApartAt(index, dir + [files[i].0], |dir|);
    }
    WriteFilesSucceed(fs1, dir, files);
    WriteFilesKeepVacant(fs1, dir, files, index);
  }

  /** `src/index.ts` is written into an existing `src` where it is vacant. */
  lemma SharedIndexWritten(fs: FS, dir: Path)
    requires IsDir(fs, dir + ["src"]) && Vacant(fs, dir + ["src"] + ["index.ts"])
    ensures WriteSharedIndex(fs, dir).Ok?
  {
    var index := dir + ["src"] + ["index.ts"];
    assert Under(index, index) && Parent(index) == dir + ["src"];
  }

  /** The shared package goes into a vacant `packages/shared`. */
  lemma SharedPackageSucceeds(codec: Codec, fs: FS, root: Path, name: string)
    requires Vacant(fs, SharedDir(root))
    ensures CreateSharedPackage(codec, fs, root, name).Ok?
  {
    var dir := SharedDir(root);
    SharedJsonWritten(codec, fs, dir, name);
    var fs2 := WriteFiles(EnsureDir(fs, dir + ["src"]).value, dir, SharedFiles(codec, name)).value;
    SharedIndexWritten(fs2, dir);
  }

  /** A copy into a vacant target keeps a path apart from it vacant and a
      directory a directory. */
  lemma CopyKeepsVacant(store: seq<Entry>, src: seq<string>, fs: FS, target: Path, vars: Vars, t: Path, d: Path)
    requires Copyable(store, src) && Vacant(fs, target) && Vacant(fs, t) && Apart(t, target) && IsDir(fs, d)
    ensures CopyIfPresent(store, src, fs, target, vars).Ok?
    ensures Vacant(CopyIfPresent(store, src, fs, target, vars).value, t)
    ensures IsDir(CopyIfPresent(store, src, fs, target, vars).value, d)
  {
    CopyIfPresentSucceeds(store, src, fs, target, vars);
    var r := CopyIfPresent(store, src, fs, target, vars).value;
    VacantKept(fs, r, target, t);
    FrameKeepsDir(fs, r, target, d);
  }

  /** The skeleton in a vacant root leaves both apps, the shared package
      and `.git` vacant. */
  lemma SkeletonLeavesRoom(codec: Codec, fs: FS, root: Path, name: string)
    requires Vacant(fs, root)
    ensures Skeleton(codec, fs, root, name).Ok?
    ensures var sk := Skeleton(codec, fs, root, name).value;
      && IsDir(sk, root)
      && Vacant(sk, AppDir(root, "web")) && Vacant(sk, AppDir(root, "api"))
      && Vacant(sk, SharedDir(root)) && Vacant(sk, root + [".git"])
  {
    var git := root + [".git"];
    var files := ConfigFiles(codec, name);
    assert forall i :: 0 <= i < 4 ==> files[i].0 != "apps" && files[i].0 != "packages" && files[i].0 != ".git";
    SkeletonKeepsVacant(codec, fs, root, name, AppDir(root, "web"));
    SkeletonKeepsVacant(codec, fs, root, name, AppDir(root, "api"));
    SkeletonKeepsVacant(codec, fs, root, name, SharedDir(root));
    assert !Under(root + ["apps"], git) by { assert (root + ["apps"])[|root|] != git[|root|]; }
    assert !Under(root + ["packages"], git) by { assert (root + ["packages"])[|root|] != git[|root|]; }
    SkeletonKeepsVacant(codec, fs, root, name, git);
  }

  /** The two app templates go into a laid-out skeleton, leaving the
      shared package and `.git` vacant and the root a directory. */
  lemma AppsCopied(store: seq<Entry>, webSrc: seq<string>, apiSrc: seq<string>, fs: FS, root: Path, name: string)
    requires Copyable(store, webSrc) && Copyable(store, apiSrc)
    requires IsDir(fs, root)
    requires Vacant(fs, AppDir(root, "web")) && Vacant(fs, AppDir(root, "api"))
    requires Vacant(fs, SharedDir(root)) && Vacant(fs, root + [".git"])
    ensures CopyIfPresent(store, webSrc, fs, AppDir(root, "web"), NameVars(name + "-web")).Ok?
    ensures var fs2 := CopyIfPresent(store, webSrc, fs, AppDir(root, "web"), NameVars(name + "-web")).value;
      var r := CopyIfPresent(store, apiSrc, fs2, AppDir(root, "api"), NameVars(name + "-api"));
      r.Ok? && IsDir(r.value, root) && Vacant(r.value, SharedDir(root)) && Vacant(r.value, root + [".git"])
  {
    var web := AppDir(root, "web");
    var api := AppDir(root, "api");
    var shared := SharedDir(root);
    var git := root + [".git"];
    ApartAt(api, web, |root| + 1);
    ApartAt(shared, web, |root|);
    ApartAt(git, web, |root|);
    ApartAt(shared, api, |root|);
    ApartAt(git, api, |root|);
    CopyKeepsVacant(store, webSrc, fs, web, NameVars(name + "-web"), api, root);
    CopyKeepsVacant(store, webSrc, fs, web, NameVars(name + "-web"), shared, root);
    CopyKeepsVacant(store, webSrc, fs, web, NameVars(name + "-web"), git, root);
    var fs2 := CopyIfPresent(store, webSrc, fs, web, NameVars(name + "-web")).value;
    CopyKeepsVacant(store, apiSrc, fs2, api, NameVars(name + "-api"), shared, root);
    CopyKeepsVacant(store, apiSrc, fs2, api, NameVars(name + "-api"), git, root);
  }

  /** Everything before Vitest succeeds in a vacant root with copyable
      templates; the root is then a directory without `.git`. */
  lemma {:induction false} BuildWorkspaceSucceeds(codec: Codec, store: seq<Entry>, templatePath: TemplatePaths, fs: FS, root: Path,
                                                  ctx: ResolvedInitContext)
    requires ctx.Monorepo?
    requires Copyable(store, templatePath(Frontend, ctx.webTemplate))
    requires Copyable(store, templatePath(Backend, ctx.apiTemplate))
    requires Vacant(fs, root)
    ensures BuildWorkspace(codec, store, templatePath, fs, root, ctx).Ok?
    ensures var ws := BuildWorkspace(codec, store, templatePath, fs, root, ctx).value;
      IsDir(ws, root) && root + [".git"] !in ws
  {
    var name := ctx.projectName;
    var git := root + [".git"];
    var webSrc := templatePath(Frontend, ctx.webTemplate);
    var apiSrc := templatePath(Backend, ctx.apiTemplate);
    SkeletonLeavesRoom(codec, fs, root, name);
    var fs1 := Skeleton(codec, fs, root, name).value;
    AppsCopied(store, webSrc, apiSrc, fs1, root, name);
    var fs2 := CopyIfPresent(store, webSrc, fs1, AppDir(root, "web"), NameVars(name + "-web")).value;
    var fs3 := CopyIfPresent(store, apiSrc, fs2, AppDir(root, "api"), NameVars(name + "-api")).value;
    SharedLast(codec, fs3, root, name);
  }

  /** The shared package, last before Vitest, keeps the root a directory
      and adds no `.git`. */
  lemma SharedLast(codec: Codec, fs: FS, root: Path, name: string)
    requires IsDir(fs, root) && Vacant(fs, SharedDir(root)) && Vacant(fs, root + [".git"])
    ensures CreateSharedPackage(codec, fs, root, name).Ok?
    ensures var ws := CreateSharedPackage(codec, fs, root, name).value;
      IsDir(ws, root) && root + [".git"] !in ws
  {
    SharedPackageSucceeds(codec, fs, root, name);
    ApartAt(root + [".git"], SharedDir(root), |root|);
    FramedStep(fs, CreateSharedPackage(codec, fs, root, name).value, SharedDir(root), root, root + [".git"]);
  }

  /** A step confined to `w` keeps the directory `d` and leaves `g`,
      apart from `w`, absent. */
  lemma FramedStep(a: FS, b: FS, w: Path, d: Path, g: Path)
    requires Frame(a, b, w) && IsDir(a, d) && Vacant(a, g) && Apart(g, w)
    ensures IsDir(b, d) && g !in b
  {
    FrameKeepsDir(a, b, w, d);
    VacantKept(a, b, w, g);
    assert Under(g, g);
  }


  /** Vitest goes into both apps exactly when each is ready for it (the
      web step does not touch the api app); only paths three segments
      below the root are added. */
  lemma AddVitestSucceeds(codec: Codec, fs: FS, root: Path)
    ensures AddVitest(codec, fs, root).Ok? <==>
      Vitest.Ready(codec, fs, AppDir(root, "web")) && Vitest.Ready(codec, fs, AppDir(root, "api"))
  {
    var web := AppDir(root, "web");
    var api := AppDir(root, "api");
    if Vitest.Ready(codec, fs, web) {
      var fs5 := Vitest.SetupVitest(codec, fs, web).value;
      var wp, wc := web + ["package.json"], web + ["vitest.config.ts"];
      var ap, ac := api + ["package.json"], api + ["vitest.config.ts"];
      assert "web" != "api";
      assert api != wp && api != wc by { assert |api| != |wp|; }
      assert ap != wp && ap != wc && ac != wp && ac != wc by {
        assert ap[|root| + 1] != wp[|root| + 1];
        assert ac[|root| + 1] != wp[|root| + 1];
      }
      assert api in fs5 <==> api in fs;
      assert ap in fs5 <==> ap in fs;
      assert ac in fs5 <==> ac in fs;
      assert ReadJson(codec, fs5, ap) == ReadJson(codec, fs, ap);
      assert Vitest.Ready(codec, fs5, api) <==> Vitest.Ready(codec, fs, api);
    }
  }

  /** Vitest adds the two files of each app and no other path. */
  lemma AddVitestAdds(codec: Codec, fs: FS, root: Path)
    requires AddVitest(codec, fs, root).Ok?
    ensures var r := AddVitest(codec, fs, root).value;
      r.Keys == fs.Keys + {AppDir(root, "web") + ["package.json"], AppDir(root, "web") + ["vitest.config.ts"],
                           AppDir(root, "api") + ["package.json"], AppDir(root, "api") + ["vitest.config.ts"]}
  {
    var web, api := AppDir(root, "web"), AppDir(root, "api");
    var fs5 := Vitest.SetupVitest(codec, fs, web).value;
    assert AddVitest(codec, fs, root) == Vitest.SetupVitest(codec, fs5, api);
    KeysAddedTwice(fs, fs5, AddVitest(codec, fs, root).value, web + ["package.json"], web + ["vitest.config.ts"],
                   api + ["package.json"], api + ["vitest.config.ts"]);
  }

  /** Two rounds of added keys add their union. */
  lemma KeysAddedTwice(a: FS, b: FS, c: FS, x1: Path, x2: Path, y1: Path, y2: Path)
    requires b.Keys == a.Keys + {x1, x2} && c.Keys == b.Keys + {y1, y2}
    ensures c.Keys == a.Keys + {x1, x2, y1, y2}
  {
  }

  /** Paths of another depth than the app files are neither added nor
      removed by Vitest. */
  lemma AddVitestKeepsShallow(codec: Codec, fs: FS, root: Path, q: Path)
    requires AddVitest(codec, fs, root).Ok? && |q| < |root| + 3
    ensures q in AddVitest(codec, fs, root).value <==> q in fs
  {
    AddVitestAdds(codec, fs, root);
    var r := AddVitest(codec, fs, root).value;
    KeysOfOtherDepth(fs, r, AppDir(root, "web"), AppDir(root, "api"), q);
  }

  /** Adding two files in each of two directories of one depth leaves the
      paths of another depth as they were. */
  lemma KeysOfOtherDepth(a: FS, b: FS, d: Path, e: Path, q: Path)
    requires |d| == |e| && |q| < |d| + 1
    requires b.Keys == a.Keys + {d + ["package.json"], d + ["vitest.config.ts"], e + ["package.json"], e + ["vitest.config.ts"]}
    ensures q in b <==> q in a
  {
    assert q in b <==> q in b.Keys;
  }

  /** The two subprocess steps succeed exactly when the install does and,
      if asked, `git init` does, provided the root exists without `.git`. */
  lemma InstallThenGitSucceeds(fs: FS, root: Path, pm: PackageManager, initGit: bool,
                               installSucceeds: bool, gitSucceeds: bool)
    requires root in fs && root + [".git"] !in fs
    ensures InstallThenGit(fs, root, pm, initGit, installSucceeds, gitSucceeds).result.Ok? <==>
      installSucceeds && (initGit ==> gitSucceeds)
  {
  }

  /** All file-system steps of `createMonorepo` in a vacant root with
      copyable templates: they fail only when Vitest is asked for and an app
      is not ready for it, and they leave the root without `.git`. */
  lemma MonorepoBuilt(codec: Codec, store: seq<Entry>, templatePath: TemplatePaths, fs: FS, root: Path,
                      ctx: ResolvedInitContext, installSucceeds: bool, gitSucceeds: bool)
    requires ctx.Monorepo?
    requires Copyable(store, templatePath(Frontend, ctx.webTemplate))
    requires Copyable(store, templatePath(Backend, ctx.apiTemplate))
    requires Vacant(fs, root)
    ensures BuildWorkspace(codec, store, templatePath, fs, root, ctx).Ok?
    ensures var ws := BuildWorkspace(codec, store, templatePath, fs, root, ctx).value;
      BuildMonorepo(codec, store, templatePath, fs, root, ctx).Ok? <==>
        (ctx.useVitest ==> Vitest.Ready(codec, ws, AppDir(root, "web")) && Vitest.Ready(codec, ws, AppDir(root, "api")))
    ensures var built := BuildMonorepo(codec, store, templatePath, fs, root, ctx);
      built.Ok? ==>
        (InstallThenGit(built.value, root, ctx.packageManager, ctx.initGit, installSucceeds, gitSucceeds).result.Ok? <==>
           installSucceeds && (ctx.initGit ==> gitSucceeds))
  {
    BuildWorkspaceSucceeds(codec, store, templatePath, fs, root, ctx);
    var ws := BuildWorkspace(codec, store, templatePath, fs, root, ctx).value;
    AddVitestSucceeds(codec, ws, root);
    if ctx.useVitest && AddVitest(codec, ws, root).Ok? {
      AddVitestKeepsShallow(codec, ws, root, root);
      AddVitestKeepsShallow(codec, ws, root, root + [".git"]);
    }
    var built := BuildMonorepo(codec, store, templatePath, fs, root, ctx);
    if built.Ok? {
      InstallThenGitSucceeds(built.value, root, ctx.packageManager, ctx.initGit, installSucceeds, gitSucceeds);
    }
  }

  /** Past the existence check, `createMonorepo` succeeds exactly when its
      file-system steps and then its subprocess steps do. */
  lemma CreateMonorepoAfterCheck(codec: Codec, store: seq<Entry>, templatePath: TemplatePaths, fs: FS, cwd: Path,
                                 ctx: ResolvedInitContext, installSucceeds: bool, gitSucceeds: bool)
    requires ctx.Monorepo? && !Exists(fs, ProjectRoot(cwd, ctx.projectName))
    ensures var root := ProjectRoot(cwd, ctx.projectName);
      var built := BuildMonorepo(codec, store, templatePath, fs, root, ctx);
      CreateMonorepo(codec, store, templatePath, fs, cwd, ctx, installSucceeds, gitSucceeds).result.Ok? <==>
        built.Ok? && InstallThenGit(built.value, root, ctx.packageManager, ctx.initGit, installSucceeds, gitSucceeds).result.Ok?
  {
  }

  /** `createMonorepo` in a vacant root with copyable templates: all files
      are written, and the whole succeeds exactly when both apps are ready
      for Vitest (if asked), the install succeeds and, if asked, `git init`
      does. */
  lemma CreateMonorepoSucceeds(codec: Codec, store: seq<Entry>, templatePath: TemplatePaths, fs: FS, cwd: Path,
                               ctx: ResolvedInitContext, installSucceeds: bool, gitSucceeds: bool)
    requires ctx.Monorepo?
    requires Copyable(store, templatePath(Frontend, ctx.webTemplate))
    requires Copyable(store, templatePath(Backend, ctx.apiTemplate))
    requires Vacant(fs, ProjectRoot(cwd, ctx.projectName))
    ensures BuildWorkspace(codec, store, templatePath, fs, ProjectRoot(cwd, ctx.projectName), ctx).Ok?
    ensures var root := ProjectRoot(cwd, ctx.projectName);
      var ws := BuildWorkspace(codec, store, templatePath, fs, root, ctx).value;
      CreateMonorepo(codec, store, templatePath, fs, cwd, ctx, installSucceeds, gitSucceeds).result.Ok? <==>
        && (ctx.useVitest ==> Vitest.Ready(codec, ws, AppDir(root, "web")) && Vitest.Ready(codec, ws, AppDir(root, "api")))
        && installSucceeds
        && (ctx.initGit ==> gitSucceeds)
  {
    var root := ProjectRoot(cwd, ctx.projectName);
    assert !Exists(fs, root) by {
      assert Under(root, root);
    }
    CreateMonorepoAfterCheck(codec, store, templatePath, fs, cwd, ctx, installSucceeds, gitSucceeds);
    MonorepoBuilt(codec, store, templatePath, fs, root, ctx, installSucceeds, gitSucceeds);
  }
}

=== FILE: init_collector.dfy ===
/** The resolved init context (src/types/cli.ts): a tagged union over the
    project structure. */
module InitTypes {
  import opened Wrappers
  import opened ProjectTypes
  import opened PackageManagers

  /** `InitCommandOptions`; an absent boolean flag reads as false. */
  datatype InitOptions = InitOptions(yes: bool, projectType: Option<string>, template: Option<string>, dryRun: bool)

  /** `ResolvedInitContext`: `structure: 'basic'` or `structure: 'monorepo'`.
      The monorepo variant also carries the `useVitest` switch its
      generator reads. */
  datatype ResolvedInitContext =
    | Basic(projectName: string, projectType: ProjectType, template: string,
            initGit: bool, packageManager: PackageManager, isDryRun: bool)
    | Monorepo(projectName: string, webTemplate: string, apiTemplate: string,
               initGit: bool, useVitest: bool, packageManager: PackageManager, isDryRun: bool)
}

/** `collectInitContext` (src/commands/init/collector.ts): flags, the
    positional name, the defaults and the interactive answers combined in a
    fixed precedence.  The questions put to the user are recorded, so the
    contracts can say when the user is asked at all. */
module InitCollector {
  import opened Wrappers
  import opened FileSystem
  import opened PackageManagers
  import opened ProjectTypes
  import opened TemplateTree
  import opened TemplateListing
  import opened InitResolvers
  import opened InitTypes

  /** `DEFAULT_INIT_OPTIONS`, whose values are not part of this model. */
  datatype Defaults = Defaults(projectType: ProjectType, initGit: bool)

  /** The answers to the init questions.  A skipped question has no
      answer; the type question is a choice between the two types. */
  datatype InitReply = InitReply(projectName: Option<string>, projectType: ProjectType, initGit: Option<bool>)

  /** A question put to the user. */
  datatype Question =
    | InitQuestions(skipProjectName: bool, skipProjectType: bool)
    | TemplateQuestion(templates: seq<string>)

  /** What the user would answer; `None` is a cancelled prompt. */
  datatype Replies = Replies(init: Option<InitReply>, template: Option<string>)

  /** Everything the collector reads besides its arguments: the defaults,
      `normalizeProjectName`, the working directory as text, the packaged
      template store and the user's replies. */
  datatype Env = Env(defaults: Defaults, normalize: string -> string, cwdText: string,
                     store: seq<Entry>, replies: Replies)

  /** A result together with the questions asked on the way to it. */
  datatype Asked<T> = Asked(questions: seq<Question>, result: Result<T>)

  datatype BaseAnswers = BaseAnswers(projectName: string, projectType: ProjectType, initGit: bool)

  /** `collectBaseAnswers`: in defaults mode nothing is asked and the type
      and git choice come from the flag and the defaults; otherwise one
      round of init questions is asked, skipping what the arguments already
      say, and an argument overrides the matching answer. */
  function CollectBaseAnswers(env: Env, nameArg: Option<string>, typeFromFlag: Option<ProjectType>, useDefaults: bool): (r: Asked<BaseAnswers>)
    ensures useDefaults ==> r.questions == [] && r.result.Ok?
    ensures useDefaults ==> r.result.value.initGit == env.defaults.initGit
    ensures useDefaults && typeFromFlag.None? ==> r.result.value.projectType == env.defaults.projectType
    ensures !useDefaults ==> r.questions == [InitQuestions(Truthy(nameArg), typeFromFlag.Some?)]
    ensures !useDefaults ==> (r.result.Err? <==> env.replies.init.None?)
    ensures r.result.Err? ==> r.result.error == PromptCancelled
    ensures r.result.Ok? && typeFromFlag.Some? ==> r.result.value.projectType == typeFromFlag.value
    ensures r.result.Ok? && Truthy(nameArg) ==> r.result.value.projectName == nameArg.value
    ensures r.result.Ok? && !useDefaults && !Truthy(nameArg) && Truthy(env.replies.init.value.projectName) ==>
      r.result.value.projectName == env.replies.init.value.projectName.value
    ensures r.result.Ok? && !useDefaults && typeFromFlag.None? ==>
      r.result.value.projectType == env.replies.init.value.projectType
  {
    if useDefaults then
      Asked([], Ok(BaseAnswers(ResolveProjectName(nameArg, None, env.cwdText),
                               typeFromFlag.GetOr(env.defaults.projectType),
                               env.defaults.initGit)))
    else
      var q := InitQuestions(Truthy(nameArg), typeFromFlag.Some?);
      match env.replies.init
      case None => Asked([q], Err(PromptCancelled))
      case Some(reply) =>
        Asked([q], Ok(BaseAnswers(ResolveProjectName(nameArg, reply.projectName, env.cwdText),
                                  typeFromFlag.GetOr(reply.projectType),
                                  reply.initGit.GetOr(false))))
  }

  /** `collectTemplate`: the user is asked only when the resolvers leave
      the template undecided (or decide on an empty name). */
  function CollectTemplate(env: Env, templateFlag: Option<string>, templates: seq<string>, useDefaults: bool): (r: Asked<string>)
    ensures r.questions == [] <==> Truthy(ResolveTemplateFinal(templateFlag, templates, useDefaults))
    ensures r.questions != [] ==> r.questions == [TemplateQuestion(templates)]
    ensures r.questions == [] ==> r.result.Ok?
    ensures Truthy(templateFlag) ==> r == Asked([], Ok(templateFlag.value))
    ensures r.result.Err? <==> r.questions != [] && env.replies.template.None?
    ensures r.result.Err? ==> r.result.error == PromptCancelled
    ensures r.result.Ok? && r.questions != [] ==> Some(r.result.value) == env.replies.template
  {
    var resolved := ResolveTemplateFinal(templateFlag, templates, useDefaults);
    if Truthy(resolved) then Asked([], Ok(resolved.value))
    else
      match env.replies.template
      case None => Asked([TemplateQuestion(templates)], Err(PromptCancelled))
      case Some(t) => Asked([TemplateQuestion(templates)], Ok(t))
  }

  /** The rest of `collectInitContext` once the base answers are in: the
      templates of the chosen type are listed, the template flag checked
      against them and the template collected. */
  function CollectRest(env: Env, fs: FS, cwd: Path, options: InitOptions, b: BaseAnswers): (r: Asked<ResolvedInitContext>)
    ensures forall i :: 0 <= i < |r.questions| ==> r.questions[i].TemplateQuestion?
    ensures r.result.Ok? ==> r.result.value.Basic?
    ensures r.result.Ok? ==>
      && r.result.value.isDryRun == options.dryRun
      && r.result.value.packageManager == DetectPackageManager(fs, cwd)
      && r.result.value.projectName == env.normalize(b.projectName)
      && r.result.value.projectType == b.projectType
      && r.result.value.initGit == b.initGit
    ensures r.result.Ok? && Truthy(options.template) ==>
      && r.result.value.template == options.template.value
      && ListTemplates(env.store, b.projectType).Ok?
      && options.template.value in ListTemplates(env.store, b.projectType).value
  {
    match ListTemplates(env.store, b.projectType)
    case Err(e) => Asked([], Err(e))
    case Ok(templates) =>
      match ResolveTemplateFlag(options.template, templates)
      case Err(e) => Asked([], Err(e))
      case Ok(templateFromFlag) =>
        var t := CollectTemplate(env, templateFromFlag, templates, options.yes);
        match t.result
        case Err(e) => Asked(t.questions, Err(e))
        case Ok(template) =>
          Asked(t.questions,
                Ok(Basic(env.normalize(b.projectName), b.projectType, template, b.initGit,
                         DetectPackageManager(fs, cwd), options.dryRun)))
  }

  /** `collectInitContext(projectNameArg, options)`. */
  function CollectInitContext(env: Env, fs: FS, cwd: Path, nameArg: Option<string>, options: InitOptions): (r: Asked<ResolvedInitContext>)
    // an invalid type fails before anything is asked
    ensures ResolveProjectType(options.projectType).Err? ==>
      r == Asked([], Err(InvalidProjectType(options.projectType.value)))
    // defaults mode never asks the init questions
    ensures options.yes ==> forall i :: 0 <= i < |r.questions| ==> r.questions[i].TemplateQuestion?
    ensures !options.yes && ResolveProjectType(options.projectType).Ok? ==>
      |r.questions| >= 1 && r.questions[0] == InitQuestions(Truthy(nameArg), Truthy(options.projectType))
    ensures r.result.Ok? ==> r.result.value.Basic?
    ensures r.result.Ok? ==> r.result.value.isDryRun == options.dryRun
    ensures r.result.Ok? ==> r.result.value.packageManager == DetectPackageManager(fs, cwd)
    ensures r.result.Ok? && Truthy(nameArg) ==> r.result.value.projectName == env.normalize(nameArg.value)
    ensures r.result.Ok? && Truthy(options.projectType) ==> options.projectType == Some(TypeName(r.result.value.projectType))
    ensures r.result.Ok? && options.yes ==> r.result.value.initGit == env.defaults.initGit
    ensures r.result.Ok? && options.yes && !Truthy(options.projectType) ==> r.result.value.projectType == env.defaults.projectType
    // a template flag is checked against the templates of the resolved type
    ensures r.result.Ok? && Truthy(options.template) ==>
      && r.result.value.template == options.template.value
      && ListTemplates(env.store, r.result.value.projectType).Ok?
      && options.template.value in ListTemplates(env.store, r.result.value.projectType).value
  {
    match ResolveProjectType(options.projectType)
    case Err(e) => Asked([], Err(e))
    case Ok(typeFromFlag) =>
      var base := CollectBaseAnswers(env, nameArg, typeFromFlag, options.yes);
      match base.result
      case Err(e) => Asked(base.questions, Err(e))
      case Ok(b) =>
        var rest := CollectRest(env, fs, cwd, options, b);
        Asked(base.questions + rest.questions, rest.result)
  }

  /** The template in a collected context is the flag, or the template the
      user picked, or, without either, the only (or in defaults mode the
      first) template listed for the type, or `basic` when none is listed.
      A picked reply from the offered list keeps the template listed. */
  lemma CollectedTemplateIsListed(env: Env, fs: FS, cwd: Path, nameArg: Option<string>, options: InitOptions)
    requires CollectInitContext(env, fs, cwd, nameArg, options).result.Ok?
    requires var ctx := CollectInitContext(env, fs, cwd, nameArg, options).result.value;
      env.replies.template.Some? && ListTemplates(env.store, ctx.projectType).Ok? ==>
      env.replies.template.value in ListTemplates(env.store, ctx.projectType).value
    ensures var ctx := CollectInitContext(env, fs, cwd, nameArg, options).result.value;
      ListTemplates(env.store, ctx.projectType).Ok?
      && (var templates := ListTemplates(env.store, ctx.projectType).value;
          ctx.template in templates || (templates == [] && ctx.template == "basic"))
  {
  }
}

=== FILE: init_command.dfy ===
/** `initCommand` (src/commands/init.ts): collect the context, stop at the
    plan in a dry run, otherwise run the generator the context's structure
    names; a cancelled prompt ends silently, any other failure is reported. */
module InitCommand {
  import opened Wrappers
  import opened Manifests
  import opened FileSystem
  import opened TemplateTree
  import opened Materialise
  import opened Collaborators
  import opened InitTypes
  import opened InitCollector
  import opened Generators

  /** How a run of the command ends: the dry-run plan printed, the summary
      printed after a successful generator, silence after a cancelled
      prompt, or an error message. */
  datatype InitOutcome =
    | Planned(context: ResolvedInitContext)
    | Created(context: ResolvedInitContext)
    | Ended(ending: Ending)

  /** The questions asked, the file system and subprocesses afterwards, and
      the outcome. */
  datatype InitRun = InitRun(questions: seq<Question>, fs: FS, effects: seq<Effect>, outcome: InitOutcome)

  /** Whether the `pnpm install` and `git` subprocesses would succeed. */
  datatype Subprocesses = Subprocesses(installSucceeds: bool, gitSucceeds: bool)

  /** The generator a context names: `createMonorepo` for the monorepo
      structure, `createProject` otherwise. */
  function Generate(codec: Codec, store: seq<Entry>, templatePath: TemplatePaths, fs: FS, cwd: Path,
                    ctx: ResolvedInitContext, sub: Subprocesses): (r: Run<()>)
    ensures ctx.Basic? ==> forall e :: e in r.effects ==> e.GitInit?
    ensures ctx.Monorepo? && r.effects != [] ==> r.effects[0] == Install(ProjectRoot(cwd, ctx.projectName), ctx.packageManager)
    ensures r.result.Ok? ==> !Exists(fs, ProjectRoot(cwd, ctx.projectName)) && IsDir(r.fs, ProjectRoot(cwd, ctx.projectName))
    ensures r.result.Err? ==> GeneratorError(r.result.error)
    ensures Exists(fs, ProjectRoot(cwd, ctx.projectName)) ==> r == Run(fs, [], Err(DirectoryExists(ctx.projectName)))
    ensures ctx.Basic? && r.result.Ok? ==> Frame(fs, r.fs, ProjectRoot(cwd, ctx.projectName))
    ensures ctx.Monorepo? && r.result.Ok? ==> r.effects != []
  {
    if ctx.Monorepo? then
      MonorepoCreated(codec, store, templatePath, fs, cwd, ctx, sub);
      CreateMonorepo(codec, store, templatePath, fs, cwd, ctx, sub.installSucceeds, sub.gitSucceeds)
    else
      CreateProject(store, templatePath, fs, cwd, ctx, sub.gitSucceeds)
  }

  /** A monorepo that was created did not exist before and has its root as
      a directory. */
  lemma MonorepoCreated(codec: Codec, store: seq<Entry>, templatePath: TemplatePaths, fs: FS, cwd: Path,
                        ctx: ResolvedInitContext, sub: Subprocesses)
    requires ctx.Monorepo?
    ensures var r := CreateMonorepo(codec, store, templatePath, fs, cwd, ctx, sub.installSucceeds, sub.gitSucceeds);
      r.result.Ok? ==> !Exists(fs, ProjectRoot(cwd, ctx.projectName)) && IsDir(r.fs, ProjectRoot(cwd, ctx.projectName))
  {
    var r := CreateMonorepo(codec, store, templatePath, fs, cwd, ctx, sub.installSucceeds, sub.gitSucceeds);
    if r.result.Ok? {
      var root := ProjectRoot(cwd, ctx.projectName);
      BuildMonorepoLaysOut(codec, store, templatePath, fs, root, ctx);
    }
  }

  /** The command once the context is known: a dry run stops at the plan;
      otherwise the named generator runs and the summary follows only its
      success. */
  function Execute(codec: Codec, store: seq<Entry>, templatePath: TemplatePaths, fs: FS, cwd: Path,
                   ctx: ResolvedInitContext, sub: Subprocesses): (r: InitRun)
    ensures r.questions == []
    ensures ctx.isDryRun ==> r == InitRun([], fs, [], Planned(ctx))
    ensures r.outcome != Ended(Cancelled)
    ensures r.outcome.Planned? ==> ctx.isDryRun
    ensures r.outcome.Created? ==> r.outcome.context == ctx && !ctx.isDryRun
    ensures !ctx.isDryRun && Exists(fs, ProjectRoot(cwd, ctx.projectName)) ==>
      r == InitRun([], fs, [], Ended(Reported(DirectoryExists(ctx.projectName))))
    ensures r.outcome.Created? ==>
      !Exists(fs, ProjectRoot(cwd, ctx.projectName)) && IsDir(r.fs, ProjectRoot(cwd, ctx.projectName))
    ensures r.outcome.Created? && ctx.Basic? ==> Frame(fs, r.fs, ProjectRoot(cwd, ctx.projectName))
    ensures r.outcome.Ended? && r.outcome.ending.Reported? ==> GeneratorError(r.outcome.ending.error)
    ensures ctx.Basic? ==> forall e :: e in r.effects ==> e.GitInit?
    ensures ctx.Monorepo? && r.outcome.Created? ==>
      r.effects != [] && r.effects[0] == Install(ProjectRoot(cwd, ctx.projectName), ctx.packageManager)
  {
    if ctx.isDryRun then InitRun([], fs, [], Planned(ctx))
    else
      var g := Generate(codec, store, templatePath, fs, cwd, ctx, sub);
      InitRun([], g.fs, g.effects, Conclude(ctx, g.result))
  }

  /** The generator's outcome as the command reports it: success is
      reported as created, a failure goes through `handleError`. */
  function Conclude(ctx: ResolvedInitContext, result: Result<()>): (o: InitOutcome)
    ensures o.Created? <==> result.Ok?
    ensures o.Created? ==> o.context == ctx
    ensures result == Err(PromptCancelled) ==> o == Ended(Cancelled)
    ensures result.Err? && GeneratorError(result.error) ==> o == Ended(Reported(result.error))
  {
    match result
    case Ok(_) => Created(ctx)
    case Err(e) => Ended(HandleError(e))
  }

  /** `initCommand(projectNameArg, options)` run in `cwd`. */
  function Init(codec: Codec, env: Env, templatePath: TemplatePaths, fs: FS, cwd: Path,
                nameArg: Option<string>, options: InitOptions, sub: Subprocesses): (r: InitRun)
    ensures r.questions == CollectInitContext(env, fs, cwd, nameArg, options).questions
    ensures var c := CollectInitContext(env, fs, cwd, nameArg, options);
      c.result.Err? ==> r == InitRun(c.questions, fs, [], Ended(HandleError(c.result.error)))
    ensures r.outcome == Ended(Cancelled) <==> CollectInitContext(env, fs, cwd, nameArg, options).result == Err(PromptCancelled)
    ensures ResolveProjectTypeFails(options) ==> r == InitRun([], fs, [], Ended(Reported(InvalidProjectType(options.projectType.value))))
    ensures options.dryRun ==> r.fs == fs && r.effects == []
    ensures options.dryRun && CollectInitContext(env, fs, cwd, nameArg, options).result.Ok? ==>
      r.outcome == Planned(CollectInitContext(env, fs, cwd, nameArg, options).result.value)
    ensures r.outcome.Created? ==>
      && CollectInitContext(env, fs, cwd, nameArg, options).result == Ok(r.outcome.context)
      && !options.dryRun
      && !Exists(fs, ProjectRoot(cwd, r.outcome.context.projectName))
      && IsDir(r.fs, ProjectRoot(cwd, r.outcome.context.projectName))
    // the collector yields the basic structure only, so no install ever runs
    ensures forall e :: e in r.effects ==> e.GitInit?
  {
    var c := CollectInitContext(env, fs, cwd, nameArg, options);
    match c.result
    case Err(e) => InitRun(c.questions, fs, [], Ended(HandleError(e)))
    case Ok(ctx) =>
      var x := Execute(codec, env.store, templatePath, fs, cwd, ctx, sub);
      InitRun(c.questions, x.fs, x.effects, x.outcome)
  }

  /** `--type` names neither project type. */
  predicate ResolveProjectTypeFails(options: InitOptions) {
    InitResolvers.ResolveProjectType(options.projectType).Err?
  }

  /** End to end: when `init` creates a project, every file of the chosen
      template lies below the new root, `.tpl` stripped from each segment
      and `{{projectName}}` replaced by the (normalised) project name. */
  lemma InitCopiesTemplate(codec: Codec, env: Env, templatePath: TemplatePaths, fs: FS, cwd: Path,
                           nameArg: Option<string>, options: InitOptions, sub: Subprocesses,
                           rel: seq<string>, content: string)
    requires Init(codec, env, templatePath, fs, cwd, nameArg, options, sub).outcome.Created?
    requires var ctx := Init(codec, env, templatePath, fs, cwd, nameArg, options, sub).outcome.context;
      var found := Lookup(env.store, templatePath(ctx.projectType, ctx.template));
      && found.Some? && found.value.FoundDir? && WellFormed(found.value.children)
      && Lookup(found.value.children, rel) == Some(FoundFile(content))
    ensures var r := Init(codec, env, templatePath, fs, cwd, nameArg, options, sub);
      var dest := ProjectRoot(cwd, r.outcome.context.projectName) + StripEach(rel);
      dest in r.fs && r.fs[dest] == File(Substitute(content, NameVars(r.outcome.context.projectName)))
  {
    var ctx := CollectInitContext(env, fs, cwd, nameArg, options).result.value;
    assert ctx.Basic?;
    CreateProjectCopiesTemplate(env.store, templatePath, fs, cwd, ctx, sub.gitSucceeds, rel);
  }
}

=== FILE: init_resolvers.dfy ===
/** The pure resolvers of the `init` command (dist/commands/init/resolvers.js):
    each combines a flag, an argument, a prompt answer and a default in a
    fixed order of precedence.  An absent option is `None`; JavaScript
    truthiness of a string option is `Truthy`. */
module InitResolvers {
  import opened Wrappers
  import opened Strings
  import opened ProjectTypes

  /** `resolveProjectType(optionType)`: no type for an absent or empty flag,
      the named type for `frontend` / `backend`, an error otherwise. */
  function ResolveProjectType(optionType: Option<string>): (r: Result<Option<ProjectType>>)
    ensures r == Ok(None) <==> !Truthy(optionType)
    ensures r.Ok? && r.value.Some? ==> optionType == Some(TypeName(r.value.value))
    ensures r.Err? <==> Truthy(optionType) && optionType.value != "frontend" && optionType.value != "backend"
    ensures r.Err? ==> r.error == InvalidProjectType(optionType.value)
  {
    if !Truthy(optionType) then Ok(None)
    else if optionType.value == "frontend" then Ok(Some(Frontend))
    else if optionType.value == "backend" then Ok(Some(Backend))
    else Err(InvalidProjectType(optionType.value))
  }

  /** Every type's own name resolves back to that type. */
  lemma ResolveProjectTypeRoundTrip(t: ProjectType)
    ensures ResolveProjectType(Some(TypeName(t))) == Ok(Some(t))
  {
  }

  /** `resolveTemplateFlag(optionTemplate, available)`: no template for an
      absent or empty flag; the flag itself iff it is one of the available
      names; an error naming the available ones otherwise. */
  function ResolveTemplateFlag(optionTemplate: Option<string>, available: seq<string>): (r: Result<Option<string>>)
    ensures !Truthy(optionTemplate) ==> r == Ok(None)
    ensures Truthy(optionTemplate) ==> (r.Ok? <==> optionTemplate.value in available)
    ensures Truthy(optionTemplate) && r.Ok? ==> r.value == optionTemplate
    ensures r.Err? ==> r.error == InvalidTemplate(optionTemplate.value, available)
  {
    if !Truthy(optionTemplate) then Ok(None)
    else if optionTemplate.value in available then Ok(optionTemplate)
    else Err(InvalidTemplate(optionTemplate.value, available))
  }

  /** `resolveProjectName(argName, promptName)`: a non-empty argument, else
      a non-empty prompt answer, else the last segment of the working
      directory `cwdText`.  The `'my-app'` fallback after `pop()` is never
      reached, because a split yields at least one piece. */
  function ResolveProjectName(argName: Option<string>, promptName: Option<string>, cwdText: string): (r: string)
    ensures Truthy(argName) ==> r == argName.value
    ensures !Truthy(argName) && Truthy(promptName) ==> r == promptName.value
    ensures !Truthy(argName) && !Truthy(promptName) ==>
      && |r| <= |cwdText| && r == cwdText[|cwdText| - |r|..]
      && (forall k :: 0 <= k < |r| ==> !IsPathSeparator(r[k]))
      && (|r| < |cwdText| ==> IsPathSeparator(cwdText[|cwdText| - |r| - 1]))
  {
    if Truthy(argName) then argName.value
    else if Truthy(promptName) then promptName.value
    else LastSegment(cwdText)
  }

  /** The fallback names the directory the command runs in: for
      `/home/user/my-app` it is `my-app`. */
  lemma ResolveProjectNameFromCwd(parent: string, dir: string)
    requires forall k :: 0 <= k < |dir| ==> !IsPathSeparator(dir[k])
    ensures ResolveProjectName(None, None, parent + "/" + dir) == dir
  {
    var s := parent + "/" + dir;
    var r := ResolveProjectName(None, None, s);
    forall k | |s| - |dir| <= k < |s|
      ensures !IsPathSeparator(s[k])
    {
      assert s[k] == dir[k - (|s| - |dir|)];
    }
    forall k | |s| - |r| <= k < |s|
      ensures !IsPathSeparator(s[k])
    {
      assert s[k] == r[k - (|s| - |r|)];
    }
    assert IsPathSeparator(s[|s| - |dir| - 1]);
    assert |r| == |dir|;
    assert s[|s| - |dir|..] == dir;
  }

  /** `resolveTemplateFinal(templateFlag, templates, useDefaults)`: a flag
      wins; with no templates the name is `basic`; in defaults mode or with
      a single template it is the first one; otherwise the user must be
      asked (`None`). */
  function ResolveTemplateFinal(templateFlag: Option<string>, templates: seq<string>, useDefaults: bool): (r: Option<string>)
    ensures Truthy(templateFlag) ==> r == templateFlag
    ensures !Truthy(templateFlag) && |templates| == 0 ==> r == Some("basic")
    ensures !Truthy(templateFlag) && |templates| > 0 && (useDefaults || |templates| == 1) ==> r == Some(templates[0])
    ensures r.None? <==> !Truthy(templateFlag) && |templates| >= 2 && !useDefaults
  {
    if Truthy(templateFlag) then templateFlag
    else if |templates| == 0 then Some("basic")
    else if useDefaults || |templates| == 1 then Some(templates[0])
    else None
  }

  /** A template chosen without a flag from a non-empty list is one of the
      listed templates. */
  lemma ResolveTemplateFinalMember(templateFlag: Option<string>, templates: seq<string>, useDefaults: bool)
    requires !Truthy(templateFlag) && |templates| > 0
    requires ResolveTemplateFinal(templateFlag, templates, useDefaults).Some?
    ensures ResolveTemplateFinal(templateFlag, templates, useDefaults).value in templates
  {
  }
}

=== FILE: list_templates.dfy ===
/** The two template listers: `listTemplateFiles` (src/utils/listTemplateFiles.ts),
    the depth-first list of a template's files, and `listTemplates`
    (src/utils/listTemplate.ts), the sorted names of a project type's
    templates in the packaged store. */
module TemplateListing {
  import opened Wrappers
  import opened Strings
  import opened ProjectTypes
  import opened TemplateTree

  /** A tree as a real directory holds it: the names in one directory are
      pairwise distinct, at every level. */
  predicate Listing(entries: seq<Entry>)
    decreases SizeAll(entries)
  {
    && (forall i, j :: 0 <= i < j < |entries| ==> entries[i].name != entries[j].name)
    && (|entries| > 0 ==> (
         SizeAllSplit(entries);
         && (entries[0].DirEntry? ==> (DirSize(entries[0]); Listing(entries[0].children)))
         && Listing(entries[1..])))
  }

  // -------------------------------------------------------------------
  // listTemplateFiles

  /** The relative paths of all files, `baseDir`-prefixed, depth first in
      directory-entry order; directories are recursed into, never listed. */
  function ListTemplateFiles(entries: seq<Entry>, base: seq<string>): seq<seq<string>>
    decreases SizeAll(entries), 1
  {
    if |entries| == 0 then []
    else
      SizeAllSplit(entries);
      ListEntry(entries[0], base) + ListTemplateFiles(entries[1..], base)
  }

  function ListEntry(e: Entry, base: seq<string>): seq<seq<string>>
    decreases Size(e), 0
  {
    match e
    case FileEntry(name, _) => [base + [name]]
    case DirEntry(name, children) => DirSize(e); ListTemplateFiles(children, base + [name])
  }

  /** Reference count: the number of leaf files in the tree. */
  function CountFiles(entries: seq<Entry>): nat
    decreases SizeAll(entries)
  {
    if |entries| == 0 then 0
    else
      SizeAllSplit(entries);
      match entries[0]
      case FileEntry(_, _) => 1 + CountFiles(entries[1..])
      case DirEntry(_, children) => DirSize(entries[0]); CountFiles(children) + CountFiles(entries[1..])
  }

  /** One path per leaf file: empty directories contribute nothing. */
  lemma {:induction false} ListTemplateFilesCount(entries: seq<Entry>, base: seq<string>)
    ensures |ListTemplateFiles(entries, base)| == CountFiles(entries)
    decreases SizeAll(entries)
  {
    if |entries| > 0 {
      SizeAllSplit(entries);
      ListTemplateFilesCount(entries[1..], base);
      match entries[0]
      case FileEntry(_, _) =>
      case DirEntry(name, children) =>
        DirSize(entries[0]);
        ListTemplateFilesCount(children, base + [name]);
    }
  }

  /** Depth-first order: everything listed for the first `k` entries comes
      before everything listed for the rest. */
  lemma {:induction false} ListTemplateFilesSplit(entries: seq<Entry>, base: seq<string>, k: int)
    requires 0 <= k <= |entries|
    ensures ListTemplateFiles(entries, base)
         == ListTemplateFiles(entries[..k], base) + ListTemplateFiles(entries[k..], base)
    decreases k
  {
    if k == 0 {
      assert entries[k..] == entries;
    } else {
      SizeAllSplit(entries);
      ListTemplateFilesSplit(entries[1..], base, k - 1);
      assert entries[1..][..k - 1] == entries[..k][1..];
      assert entries[1..][k - 1..] == entries[k..];
      assert entries[..k][0] == entries[0];
      SizeAllSplit(entries[..k]);
    }
  }

  /** Every listed path is the base followed by a path at which the tree
      holds a file. */
  lemma {:induction false} ListTemplateFilesSound(entries: seq<Entry>, base: seq<string>, p: seq<string>)
    requires Listing(entries)
    requires p in ListTemplateFiles(entries, base)
    ensures |p| > |base| && p[..|base|] == base
    ensures Lookup(entries, p[|base|..]).Some? && Lookup(entries, p[|base|..]).value.FoundFile?
    decreases SizeAll(entries), 1
  {
    SizeAllSplit(entries);
    var e := entries[0];
    if e.DirEntry? { DirSize(e); }
    if p in ListEntry(e, base) {
      ListEntrySound(e, base, p);
      var rel := p[|base|..];
      assert rel[0] == e.name;
      assert rel[1..] == p[|base| + 1..];
    } else {
      ListTemplateFilesSound(entries[1..], base, p);
      var rel := p[|base|..];
      var k := Find(entries[1..], rel[0]).value;
      assert entries[1..][k] == entries[k + 1];
      LookupSkip(entries, rel);
    }
  }

  lemma {:induction false} ListEntrySound(e: Entry, base: seq<string>, p: seq<string>)
    requires e.DirEntry? ==> Listing(e.children)
    requires p in ListEntry(e, base)
    ensures |p| > |base| && p[..|base| + 1] == base + [e.name]
    ensures LookupEntry(e, p[|base| + 1..]).Some? && LookupEntry(e, p[|base| + 1..]).value.FoundFile?
    decreases Size(e), 0
  {
    match e
    case FileEntry(name, _) =>
      assert p == base + [name];
      assert p[|base| + 1..] == [];
    case DirEntry(name, children) =>
      DirSize(e);
      ListTemplateFilesSound(children, base + [name], p);
      assert p[..|base| + 1] == (base + [name]);
  }

  /** Every file of the tree is listed, under its base-prefixed path. */
  lemma {:induction false} ListTemplateFilesComplete(entries: seq<Entry>, base: seq<string>, rel: seq<string>)
    requires Lookup(entries, rel).Some? && Lookup(entries, rel).value.FoundFile?
    ensures base + rel in ListTemplateFiles(entries, base)
    decreases SizeAll(entries), 1
  {
    SizeAllSplit(entries);
    var e := entries[0];
    if e.DirEntry? { DirSize(e); }
    if e.name == rel[0] {
      ListEntryComplete(e, base, rel[1..]);
      assert base + [e.name] + rel[1..] == base + rel;
    } else {
      LookupSkip(entries, rel);
      ListTemplateFilesComplete(entries[1..], base, rel);
    }
  }

  lemma {:induction false} ListEntryComplete(e: Entry, base: seq<string>, rest: seq<string>)
    requires LookupEntry(e, rest).Some? && LookupEntry(e, rest).value.FoundFile?
    ensures base + [e.name] + rest in ListEntry(e, base)
    decreases Size(e), 0
  {
    match e
    case FileEntry(name, _) =>
      assert base + [name] + rest == base + [name];
    case DirEntry(name, children) =>
      DirSize(e);
      ListTemplateFilesComplete(children, base + [name], rest);
  }

  /** Both directions together: a path is listed exactly when it is the
      base followed by the relative path of a file. */
  lemma ListTemplateFilesMembership(entries: seq<Entry>, base: seq<string>, p: seq<string>)
    requires Listing(entries)
    ensures p in ListTemplateFiles(entries, base) <==>
      |p| >= |base| && p[..|base|] == base &&
      Lookup(entries, p[|base|..]).Some? && Lookup(entries, p[|base|..]).value.FoundFile?
  {
    if p in ListTemplateFiles(entries, base) {
      ListTemplateFilesSound(entries, base, p);
    }
    if |p| >= |base| && p[..|base|] == base &&
       Lookup(entries, p[|base|..]).Some? && Lookup(entries, p[|base|..]).value.FoundFile? {
      ListTemplateFilesComplete(entries, base, p[|base|..]);
      assert base + p[|base|..] == p;
    }
  }

  // -------------------------------------------------------------------
  // listTemplates

  /** `.filter((d) => d.isDirectory()).map((d) => d.name)` */
  function DirNames(entries: seq<Entry>): (r: seq<string>)
    ensures forall n :: n in r <==> exists i :: 0 <= i < |entries| && entries[i].DirEntry? && entries[i].name == n
  {
    if |entries| == 0 then []
    else
      var rest := DirNames(entries[1..]);
      assert forall i :: 0 <= i < |entries[1..]| ==> entries[1..][i] == entries[i + 1];
      if entries[0].DirEntry? then [entries[0].name] + rest else rest
  }

  /** `listTemplates(projectType)` over the packaged store: no list for a
      missing type directory, a `readdir` failure when the type names a
      file, and otherwise the sub-directory names in sorted order. */
  function ListTemplates(store: seq<Entry>, t: ProjectType): (r: Result<seq<string>>)
    ensures Lookup(store, [TypeName(t)]).None? ==> r == Ok([])
    ensures Lookup(store, [TypeName(t)]).Some? && Lookup(store, [TypeName(t)]).value.FoundFile? ==> r.Err?
    ensures r.Ok? ==> Sorted(r.value)
    ensures Lookup(store, [TypeName(t)]).Some? && Lookup(store, [TypeName(t)]).value.FoundDir? ==>
      r.Ok? && multiset(r.value) == multiset(DirNames(Lookup(store, [TypeName(t)]).value.children))
  {
    match Lookup(store, [TypeName(t)])
    case None => Ok([])
    case Some(FoundFile(_)) => Err(NotADirectory([TypeName(t)]))
    case Some(FoundDir(children)) => Ok(Sort(DirNames(children)))
  }

  /** The listed names are exactly the sub-directories of the type's
      directory: plain files are never listed. */
  lemma ListTemplatesMembers(store: seq<Entry>, t: ProjectType, n: string)
    requires Lookup(store, [TypeName(t)]).Some? && Lookup(store, [TypeName(t)]).value.FoundDir?
    ensures var children := Lookup(store, [TypeName(t)]).value.children;
      n in ListTemplates(store, t).value <==>
      exists i :: 0 <= i < |children| && children[i].DirEntry? && children[i].name == n
  {
    var children := Lookup(store, [TypeName(t)]).value.children;
    var r := ListTemplates(store, t).value;
    assert n in r <==> n in multiset(r);
    assert n in DirNames(children) <==> n in multiset(DirNames(children));
  }
}

=== FILE: manifest.dfy ===
/** The parsed `package.json` manifest and the JSON codec the program uses
    through `fs.readJson` / `fs.writeJson`.

    Only the three string maps the features edit are modelled in detail;
    every other top-level key is kept as an opaque value.  A key that is
    absent (`undefined`) is distinguished from an empty object so that a
    rewritten manifest keeps exactly the keys it had. */
module Manifests {
  import opened Wrappers

  type StrMap = map<string, string>

  /** A JSON value under a manifest key other than the three maps. */
  datatype JsonValue = JString(s: string) | JBool(b: bool) | JOpaque(tag: string)

  datatype Manifest = Manifest(
    dependencies: Option<StrMap>,
    devDependencies: Option<StrMap>,
    scripts: Option<StrMap>,
    others: map<string, JsonValue>)
  {
    /** `packageJson.dependencies ?? {}` */
    function Deps(): StrMap { dependencies.GetOr(map[]) }

    /** `packageJson.devDependencies ?? {}` */
    function DevDeps(): StrMap { devDependencies.GetOr(map[]) }

    /** `packageJson.scripts ?? {}` */
    function Scripts(): StrMap { scripts.GetOr(map[]) }
  }

  /** A manifest with no keys at all (`{}`). */
  const EmptyManifest := Manifest(None, None, None, map[])

  /** A plain JSON object with only opaque keys, such as a tsconfig file. */
  function JsonObject(others: map<string, JsonValue>): Manifest {
    Manifest(None, None, None, others)
  }

  /** `name in { ...dependencies, ...devDependencies }`: the test every
      feature's `detect` applies to the manifest. */
  predicate HasDependency(m: Manifest, name: string) {
    name in m.Deps() + m.DevDeps()
  }

  lemma HasDependencyEither(m: Manifest, name: string)
    ensures HasDependency(m, name) <==> name in m.Deps() || name in m.DevDeps()
  {
  }

  /** `{ ...base, ...added }`: the spread merge of two string maps. */
  function Spread(base: StrMap, added: StrMap): (r: StrMap)
    ensures r.Keys == base.Keys + added.Keys
    ensures forall k :: k in added ==> r[k] == added[k]
    ensures forall k :: k in base && k !in added ==> r[k] == base[k]
  {
    base + added
  }

  /** `packageJson.devDependencies = { ...packageJson.devDependencies, ...added }`. */
  function MergeDevDependencies(m: Manifest, added: StrMap): (r: Manifest)
    ensures r.devDependencies == Some(Spread(m.DevDeps(), added))
    ensures r.dependencies == m.dependencies && r.scripts == m.scripts && r.others == m.others
  {
    m.(devDependencies := Some(Spread(m.DevDeps(), added)))
  }

  /** `packageJson.scripts = { ...packageJson.scripts, ...added }`. */
  function MergeScripts(m: Manifest, added: StrMap): (r: Manifest)
    ensures r.scripts == Some(Spread(m.Scripts(), added))
    ensures r.dependencies == m.dependencies && r.devDependencies == m.devDependencies && r.others == m.others
  {
    m.(scripts := Some(Spread(m.Scripts(), added)))
  }

  /** Merging the same entries twice is merging them once. */
  lemma SpreadIdempotent(base: StrMap, added: StrMap)
    ensures Spread(Spread(base, added), added) == Spread(base, added)
  {
  }

  /** The JSON text codec behind `fs.readJson` / `fs.writeJson`.  Parsing
      and printing JSON text are not modelled; the codec is a parameter. */
  datatype Codec = Codec(parse: string -> Option<Manifest>, stringify: Manifest -> string)

  /** A codec whose parser reads back whatever its printer wrote. */
  ghost predicate Lawful(c: Codec) {
    forall m :: c.parse(c.stringify(m)) == Some(m)
  }
}

=== FILE: prettier.dfy ===
/** The `prettier` feature (src/features/prettier.ts). */
module Prettier {
  import opened Wrappers
  import opened Manifests
  import opened FileSystem
  import opened Probe
  import opened FeatureKit

  const Id := "prettier"

  /** The config files whose presence means prettier is already set up. */
  const ConfigFiles: seq<string> := [
    ".prettierrc", ".prettierrc.json", ".prettierrc.yaml", ".prettierrc.yml",
    ".prettierrc.js", ".prettierrc.cjs", ".prettierrc.mjs",
    "prettier.config.js", "prettier.config.cjs", "prettier.config.mjs"]

  /** The `.prettierrc` the feature writes. */
  const Config := "{\n  \"semi\": true,\n  \"singleQuote\": true,\n  \"trailingComma\": \"all\",\n  \"printWidth\": 80,\n  \"tabWidth\": 2\n}\n"

  const AddedDevDeps: StrMap := map["prettier" := "^3.0.0"]
  const AddedScripts: StrMap := map["format" := "prettier --write ."]

  /** `detect`: one of the config files exists at the root, or the probed
      manifest depends on `prettier`. */
  function Detect(fs: FS, ctx: ProjectContext): bool {
    ConfiguredOrDepends(fs, ctx, ConfigFiles, "prettier")
  }

  /** `apply`: re-reads `package.json` from disk, adds the dependency and the
      `format` script, writes it back, then writes `.prettierrc`. */
  function Apply(codec: Codec, fs: FS, ctx: ProjectContext): (r: Result<FS>)
    ensures r.Ok? <==>
      ReadJson(codec, fs, ctx.root + ["package.json"]).Ok? && IsDir(fs, ctx.root)
      && !IsDir(fs, ctx.root + [".prettierrc"])
    ensures r.Ok? ==> ctx.root + [".prettierrc"] in r.value && r.value[ctx.root + [".prettierrc"]] == File(Config)
    ensures r.Ok? ==> r.value.Keys == fs.Keys + {ctx.root + ["package.json"], ctx.root + [".prettierrc"]}
  {
    UpdateAndWrite(codec, fs, ctx.root, AddedDevDeps, Some(AddedScripts), ".prettierrc", Config)
  }

  /** `after` is `before` with `devDependencies.prettier` and
      `scripts.format` set to the fixed values, every other entry kept, and
      the other keys untouched. */
  predicate EditedForPrettier(before: Manifest, after: Manifest) {
    && "prettier" in after.DevDeps() && after.DevDeps()["prettier"] == "^3.0.0"
    && "format" in after.Scripts() && after.Scripts()["format"] == "prettier --write ."
    && (forall k :: k in before.DevDeps() && k != "prettier" ==> k in after.DevDeps() && after.DevDeps()[k] == before.DevDeps()[k])
    && (forall k :: k in before.Scripts() && k != "format" ==> k in after.Scripts() && after.Scripts()[k] == before.Scripts()[k])
    && after.DevDeps().Keys == before.DevDeps().Keys + {"prettier"}
    && after.Scripts().Keys == before.Scripts().Keys + {"format"}
    && after.dependencies == before.dependencies && after.others == before.others
  }

  /** The manifest edit `apply` performs. */
  lemma EditIsPrettierEdit(before: Manifest)
    ensures EditedForPrettier(before, Edit(before, AddedDevDeps, Some(AddedScripts)))
  {
    var after := Edit(before, AddedDevDeps, Some(AddedScripts));
    assert after.DevDeps().Keys == before.DevDeps().Keys + {"prettier"};
    assert after.Scripts().Keys == before.Scripts().Keys + {"format"};
  }

  /** The manifest on disk afterwards is the edited one. */
  lemma ApplyManifest(codec: Codec, fs: FS, ctx: ProjectContext)
    requires Lawful(codec)
    requires Apply(codec, fs, ctx).Ok?
    ensures var pkg := ctx.root + ["package.json"];
      var after := ReadJson(codec, Apply(codec, fs, ctx).value, pkg);
      after.Ok? && EditedForPrettier(ReadJson(codec, fs, pkg).value, after.value)
  {
    UpdateAndWriteReadBack(codec, fs, ctx.root, AddedDevDeps, Some(AddedScripts), ".prettierrc", Config);
    EditIsPrettierEdit(ReadJson(codec, fs, ctx.root + ["package.json"]).value);
  }

  /** The fixed point: once `apply` succeeded, re-probing the project
      succeeds and `detect` reports the feature as configured. */
  lemma ApplyThenDetect(codec: Codec, fs: FS, ctx: ProjectContext)
    requires Lawful(codec)
    requires Apply(codec, fs, ctx).Ok?
    ensures var fs1 := Apply(codec, fs, ctx).value;
      DetectProjectContext(codec, fs1, ctx.root).Ok? && Detect(fs1, DetectProjectContext(codec, fs1, ctx.root).value)
  {
    var fs1 := Apply(codec, fs, ctx).value;
    UpdateAndWriteReprobe(codec, fs, ctx.root, AddedDevDeps, Some(AddedScripts), ".prettierrc", Config);
    assert Exists(fs1, ctx.root + [ConfigFiles[0]]);
  }

  /** Applying twice leaves the project as applying once. */
  lemma ApplyIdempotent(codec: Codec, fs: FS, ctx: ProjectContext)
    requires Lawful(codec)
    requires Apply(codec, fs, ctx).Ok?
    ensures Apply(codec, Apply(codec, fs, ctx).value, ctx) == Apply(codec, fs, ctx)
  {
    UpdateAndWriteIdempotent(codec, fs, ctx.root, AddedDevDeps, Some(AddedScripts), ".prettierrc", Config);
  }
}

=== FILE: probe.dfy ===
/** Package-manager detection (src/utils/detectPackageManager.ts) and the
    commands derived from the package manager. */
module PackageManagers {
  import opened FileSystem
  import Strings

  datatype PackageManager = Npm | Pnpm | Yarn

  function Name(pm: PackageManager): string {
    match pm
    case Npm => "npm"
    case Pnpm => "pnpm"
    case Yarn => "yarn"
  }

  /** Lockfile precedence: `pnpm-lock.yaml` beats `yarn.lock` beats the
      `npm` default. */
  function DetectPackageManager(fs: FS, cwd: Path): (r: PackageManager)
    ensures r == Pnpm <==> Exists(fs, cwd + ["pnpm-lock.yaml"])
    ensures r == Yarn <==> !Exists(fs, cwd + ["pnpm-lock.yaml"]) && Exists(fs, cwd + ["yarn.lock"])
    ensures r == Npm <==> !Exists(fs, cwd + ["pnpm-lock.yaml"]) && !Exists(fs, cwd + ["yarn.lock"])
  {
    if Exists(fs, cwd + ["pnpm-lock.yaml"]) then Pnpm
    else if Exists(fs, cwd + ["yarn.lock"]) then Yarn
    else Npm
  }

  /** The result depends on nothing but the presence of the two lockfiles. */
  lemma DetectDependsOnlyOnLockfiles(fs1: FS, fs2: FS, cwd: Path)
    requires Exists(fs1, cwd + ["pnpm-lock.yaml"]) == Exists(fs2, cwd + ["pnpm-lock.yaml"])
    requires Exists(fs1, cwd + ["yarn.lock"]) == Exists(fs2, cwd + ["yarn.lock"])
    ensures DetectPackageManager(fs1, cwd) == DetectPackageManager(fs2, cwd)
  {
  }

  /** The reproducible install command (src/features/docker.ts:31-40, also the
      `getInstallCommand` that src/features/ci.ts imports). */
  function InstallCommand(pm: PackageManager): (r: string)
    ensures Strings.StartsWith(r, Name(pm) + " ")
    ensures pm == Npm ==> r == "npm ci"
    ensures pm != Npm ==> Strings.EndsWith(r, "install --frozen-lockfile")
    ensures pm != Npm ==> r == Name(pm) + " " + "install --frozen-lockfile"
  {
    var head := Name(pm) + " ";
    var tail := if pm == Npm then "ci" else "install --frozen-lockfile";
    assert (head + tail)[..|head|] == head;
    assert (head + tail)[|head|..] == tail;
    head + tail
  }

  /** The three commands spelled out, as in the `switch` of
      `getInstallCommand`. */
  lemma InstallCommandValues()
    ensures InstallCommand(Npm) == "npm ci"
    ensures InstallCommand(Pnpm) == "pnpm install --frozen-lockfile"
    ensures InstallCommand(Yarn) == "yarn install --frozen-lockfile"
  {
    FrozenInstallValue("pnpm", "pnpm install --frozen-lockfile");
    FrozenInstallValue("yarn", "yarn install --frozen-lockfile");
  }

  /** A four-letter manager name followed by the frozen-lockfile install. */
  lemma FrozenInstallValue(name: string, line: string)
    requires |name| == 4 && |line| == 30 && line[..4] == name
    requires line[4..] == " install --frozen-lockfile"
    ensures name + " " + "install --frozen-lockfile" == line
  {
    assert line == line[..4] + line[4..];
  }

  /** `getRunCommand(pm, script)`: `<pm> run <script>`. */
  function RunCommand(pm: PackageManager, script: string): string {
    Name(pm) + " run " + script
  }

  /** Distinct scripts give distinct run commands. */
  lemma RunCommandInjective(pm: PackageManager, a: string, b: string)
    requires RunCommand(pm, a) == RunCommand(pm, b)
    ensures a == b
  {
    var prefix := Name(pm) + " run ";
    assert RunCommand(pm, a)[|prefix|..] == a;
    assert RunCommand(pm, b)[|prefix|..] == b;
  }

  /** The install command is never a `run` command: right after the
      package manager's name and the space, one says `install` or `ci`,
      the other `run`. */
  lemma InstallIsNotRun(pm: PackageManager, script: string)
    ensures InstallCommand(pm) != RunCommand(pm, script)
  {
    var k := |Name(pm)| + 1;
    assert RunCommand(pm, script)[k] == 'r';
    assert InstallCommand(pm)[k] != 'r';
  }
}

/** The project probe (src/utils/detectProjectContext.ts). */
module Probe {
  import opened Wrappers
  import opened Manifests
  import opened FileSystem
  import opened PackageManagers

  /** What every feature receives: read once per command, never updated. */
  datatype ProjectContext = ProjectContext(
    root: Path,
    packageJson: Manifest,
    hasTypescript: bool,
    packageManager: PackageManager)

  /** Fails unless `package.json` exists at `cwd`; otherwise reports the
      parsed manifest, whether `tsconfig.json` exists and the lockfile's
      package manager.  It takes no file system out: it writes nothing. */
  function DetectProjectContext(codec: Codec, fs: FS, cwd: Path): (r: Result<ProjectContext>)
    ensures !Exists(fs, cwd + ["package.json"]) ==> r == Err(NoPackageJson)
    ensures Exists(fs, cwd + ["package.json"]) ==>
      (r.Ok? <==> ReadJson(codec, fs, cwd + ["package.json"]).Ok?)
    ensures r.Ok? ==>
      && r.value.root == cwd
      && ReadJson(codec, fs, cwd + ["package.json"]) == Ok(r.value.packageJson)
      && (r.value.hasTypescript <==> Exists(fs, cwd + ["tsconfig.json"]))
      && r.value.packageManager == DetectPackageManager(fs, cwd)
  {
    var manifestPath := cwd + ["package.json"];
    if !Exists(fs, manifestPath) then Err(NoPackageJson)
    else
      var packageJson :- ReadJson(codec, fs, manifestPath);
      var hasTypescript := Exists(fs, cwd + ["tsconfig.json"]);
      Ok(ProjectContext(cwd, packageJson, hasTypescript, DetectPackageManager(fs, cwd)))
  }

  /** Probing twice a file system that agrees on the probed paths gives the
      same answer. */
  lemma ProbeDependsOnlyOnProbedPaths(codec: Codec, fs1: FS, fs2: FS, cwd: Path)
    requires forall name :: name in ["package.json", "tsconfig.json", "pnpm-lock.yaml", "yarn.lock"] ==>
      (cwd + [name] in fs1 <==> cwd + [name] in fs2) && (cwd + [name] in fs1 ==> fs1[cwd + [name]] == fs2[cwd + [name]])
    ensures DetectProjectContext(codec, fs1, cwd) == DetectProjectContext(codec, fs2, cwd)
  {
    assert "package.json" in ["package.json", "tsconfig.json", "pnpm-lock.yaml", "yarn.lock"];
    assert "tsconfig.json" in ["package.json", "tsconfig.json", "pnpm-lock.yaml", "yarn.lock"];
    assert "pnpm-lock.yaml" in ["package.json", "tsconfig.json", "pnpm-lock.yaml", "yarn.lock"];
    assert "yarn.lock" in ["package.json", "tsconfig.json", "pnpm-lock.yaml", "yarn.lock"];
  }

  /** Two file systems whose children of the probed directory agree,
      except perhaps one the probe does not read, probe alike. */
  lemma ProbeKeptOutsideChild(codec: Codec, fs1: FS, fs2: FS, cwd: Path, seg: string)
    requires seg !in ["package.json", "tsconfig.json", "pnpm-lock.yaml", "yarn.lock"]
    requires forall name :: name != seg ==>
      (cwd + [name] in fs1 <==> cwd + [name] in fs2) && (cwd + [name] in fs1 ==> fs1[cwd + [name]] == fs2[cwd + [name]])
    ensures DetectProjectContext(codec, fs1, cwd) == DetectProjectContext(codec, fs2, cwd)
  {
    ProbeDependsOnlyOnProbedPaths(codec, fs1, fs2, cwd);
  }

  /** Writing a child of the probed directory that the probe does not read
      leaves its answer unchanged. */
  lemma ProbeIgnoresOtherChild(codec: Codec, fs: FS, cwd: Path, name: string, node: Node)
    requires name !in ["package.json", "tsconfig.json", "pnpm-lock.yaml", "yarn.lock"]
    ensures DetectProjectContext(codec, fs[cwd + [name] := node], cwd) == DetectProjectContext(codec, fs, cwd)
  {
    forall n | n in ["package.json", "tsconfig.json", "pnpm-lock.yaml", "yarn.lock"]
      ensures cwd + [n] != cwd + [name]
    {
      assert (cwd + [n])[|cwd|] == n && (cwd + [name])[|cwd|] == name;
    }
    ProbeDependsOnlyOnProbedPaths(codec, fs[cwd + [name] := node], fs, cwd);
  }
}

/** The subprocess collaborators (src/utils/git.ts and
    src/utils/installDependencies.ts).  The commands themselves are not
    run: each call is recorded as an effect, and whether the subprocess
    succeeds is an input. */
module Collaborators {
  import opened Wrappers
  import opened FileSystem
  import opened PackageManagers

  datatype Effect =
    | GitInit(root: Path)
    | Install(root: Path, pm: PackageManager)

  /** A step that may have written to the file system, recorded effects,
      and then succeeded or failed; nothing is rolled back on failure. */
  datatype Run<T> = Run(fs: FS, effects: seq<Effect>, result: Result<T>)

  /** The shell command `installDependencies` runs. */
  function InstallCommandLine(pm: PackageManager): (r: string)
    ensures pm == Yarn <==> r == "yarn"
    ensures pm != Yarn ==> r == Name(pm) + " install"
  {
    if pm == Yarn then "yarn" else Name(pm) + " install"
  }

  /** `initGitRepo(root)`: refuses a missing root and an existing `.git`,
      then runs `git init`, `git add .` and the initial commit.  A
      successful run leaves a `.git` directory behind. */
  function InitGitRepo(fs: FS, root: Path, gitSucceeds: bool): (r: Run<()>)
    ensures !Exists(fs, root) ==> r == Run(fs, [], Err(GitRootMissing))
    ensures Exists(fs, root) && Exists(fs, root + [".git"]) ==> r == Run(fs, [], Err(GitRepositoryExists))
    ensures Exists(fs, root) && !Exists(fs, root + [".git"]) ==>
      r.effects == [GitInit(root)] && (r.result.Ok? <==> gitSucceeds)
    ensures r.result.Ok? ==> r.fs == fs[root + [".git"] := Dir]
    ensures r.result.Err? ==> r.fs == fs
  {
    if !Exists(fs, root) then Run(fs, [], Err(GitRootMissing))
    else if Exists(fs, root + [".git"]) then Run(fs, [], Err(GitRepositoryExists))
    else if !gitSucceeds then Run(fs, [GitInit(root)], Err(GitFailed))
    else Run(fs[root + [".git"] := Dir], [GitInit(root)], Ok(()))
  }

  /** `installDependencies(root, pm)`: one recorded install; a failing
      subprocess propagates as an error. */
  function InstallDependencies(fs: FS, root: Path, pm: PackageManager, installSucceeds: bool): (r: Run<()>)
    ensures r.fs == fs && r.effects == [Install(root, pm)]
    ensures r.result.Ok? <==> installSucceeds
  {
    Run(fs, [Install(root, pm)], if installSucceeds then Ok(()) else Err(InstallFailed))
  }
}

=== FILE: registry.dfy ===
/** The feature registry (src/commands/add/registry.ts) and the uniform
    `detect` / `apply` interface every feature offers (src/types/feature.ts).
    A feature is a tag; its behaviour is dispatched to its own module. */
module Registry {
  import opened Wrappers
  import opened Manifests
  import opened FileSystem
  import opened Probe
  import Prettier
  import Vitest
  import Eslint
  import Tailwind
  import Docker
  import Ci

  datatype Feature =
    | PrettierFeature
    | VitestFeature
    | EslintFeature
    | TailwindFeature
    | DockerFeature
    | CiFeature

  function FeatureId(f: Feature): string {
    match f
    case PrettierFeature => Prettier.Id
    case VitestFeature => Vitest.Id
    case EslintFeature => Eslint.Id
    case TailwindFeature => Tailwind.Id
    case DockerFeature => Docker.Id
    case CiFeature => Ci.Id
  }

  /** Every feature has its own id. */
  lemma FeatureIdInjective(f: Feature, g: Feature)
    ensures FeatureId(f) == FeatureId(g) ==> f == g
  {
  }

  /** No id is empty, so an id given on the command line is always truthy. */
  lemma FeatureIdNonEmpty(f: Feature)
    ensures |FeatureId(f)| > 0
  {
  }

  /** The registry as shipped: the eslint feature only. */
  const Features: seq<Feature> := [EslintFeature]

  /** `features.map((f) => f.id)`. */
  function Ids(features: seq<Feature>): (r: seq<string>)
    ensures |r| == |features|
    ensures forall i :: 0 <= i < |features| ==> r[i] == FeatureId(features[i])
  {
    seq(|features|, i requires 0 <= i < |features| => FeatureId(features[i]))
  }

  /** `getAllFeatures()`: the registry in insertion order. */
  function GetAllFeatures(): (r: seq<Feature>)
    ensures forall f :: f in r <==> Lookup(Features, FeatureId(f)) == Some(f)
  {
    LookupEvery(Features);
    Features
  }

  /** `getAvailableFeatureIds()`: the ids of the registry, in its order. */
  function GetAvailableFeatureIds(): (r: seq<string>)
    ensures r == Ids(GetAllFeatures())
    ensures r == ["eslint"]
  {
    Ids(Features)
  }

  /** `new Map(features.map((f) => [f.id, f]))`: entries are set in order,
      so a later feature with a repeated id replaces an earlier one. */
  function FeatureMap(features: seq<Feature>): map<string, Feature>
    decreases |features|
  {
    if features == [] then map[]
    else FeatureMap(features[..|features| - 1])[FeatureId(features[|features| - 1]) := features[|features| - 1]]
  }

  /** The map holds exactly the registered ids, each bound to a feature
      with that id. */
  lemma {:induction false} FeatureMapKeys(features: seq<Feature>)
    ensures FeatureMap(features).Keys == set f | f in features :: FeatureId(f)
    ensures forall id :: id in FeatureMap(features) ==> FeatureId(FeatureMap(features)[id]) == id && FeatureMap(features)[id] in features
    decreases |features|
  {
    if features != [] {
      var init := features[..|features| - 1];
      var last := features[|features| - 1];
      FeatureMapKeys(init);
      assert features == init + [last];
    }
  }

  /** `featureMap.get(id)` over a given registry. */
  function Lookup(features: seq<Feature>, id: string): (r: Option<Feature>)
    ensures r.Some? <==> id in Ids(features)
    ensures r.Some? ==> FeatureId(r.value) == id && r.value in features
  {
    FeatureMapKeys(features);
    assert id in Ids(features) <==> exists f :: f in features && FeatureId(f) == id by {
      if id in Ids(features) {
        var i :| 0 <= i < |features| && Ids(features)[i] == id;
        assert features[i] in features;
      }
      if exists f :: f in features && FeatureId(f) == id {
        var f :| f in features && FeatureId(f) == id;
        var i :| 0 <= i < |features| && features[i] == f;
        assert Ids(features)[i] == id;
      }
    }
    if id in FeatureMap(features) then Some(FeatureMap(features)[id]) else None
  }

  /** `getFeature(id)`: the registered feature with that id, or nothing for
      an id that is not registered. */
  function GetFeature(id: string): (r: Option<Feature>)
    ensures r.Some? <==> id in GetAvailableFeatureIds()
    ensures r.Some? ==> FeatureId(r.value) == id && r.value in GetAllFeatures()
  {
    Lookup(Features, id)
  }

  /** Looking up the id of a registered feature finds that very feature
      (ids being distinct per feature, no later entry can replace it). */
  lemma LookupRegistered(features: seq<Feature>, f: Feature)
    requires f in features
    ensures Lookup(features, FeatureId(f)) == Some(f)
  {
    var i :| 0 <= i < |features| && features[i] == f;
    assert Ids(features)[i] == FeatureId(f);
    FeatureIdInjective(Lookup(features, FeatureId(f)).value, f);
  }

  /** Every registered feature is found under its own id. */
  lemma LookupEvery(features: seq<Feature>)
    ensures forall f :: f in features ==> Lookup(features, FeatureId(f)) == Some(f)
  {
    forall f | f in features {
      LookupRegistered(features, f);
    }
  }

  // ---------------------------------------------------------------- dispatch

  /** `feature.detect(context)`; a detect that cannot fail answers `Ok`. */
  function DetectFeature(codec: Codec, fs: FS, f: Feature, ctx: ProjectContext): Result<bool> {
    match f
    case PrettierFeature => Ok(Prettier.Detect(fs, ctx))
    case VitestFeature => Ok(Vitest.Detect(fs, ctx))
    case EslintFeature => Ok(Eslint.Detect(fs, ctx))
    case TailwindFeature => Tailwind.Detect(codec, fs, ctx)
    case DockerFeature => Ok(Docker.Detect(fs, ctx))
    case CiFeature => Ci.Detect(fs, ctx)
  }

  /** `feature.apply(context)` as the add command calls it: without
      options, so the CI feature takes its GitLab branch. */
  function ApplyFeature(codec: Codec, fs: FS, f: Feature, ctx: ProjectContext): Result<FS> {
    match f
    case PrettierFeature => Prettier.Apply(codec, fs, ctx)
    case VitestFeature => Vitest.Apply(codec, fs, ctx)
    case EslintFeature => Eslint.Apply(codec, fs, ctx)
    case TailwindFeature => Tailwind.Apply(codec, fs, ctx)
    case DockerFeature => Docker.Apply(fs, ctx)
    case CiFeature => Ci.Apply(fs, ctx, None)
  }

  /** The law every feature keeps: starting from a freshly probed context,
      a successful `apply` leaves a project whose re-probe succeeds and on
      which `detect` reports the feature as configured. */
  lemma ApplyThenDetect(codec: Codec, fs: FS, f: Feature, ctx: ProjectContext)
    requires Lawful(codec)
    requires DetectProjectContext(codec, fs, ctx.root) == Ok(ctx)
    requires ApplyFeature(codec, fs, f, ctx).Ok?
    ensures var r := ApplyFeature(codec, fs, f, ctx).value;
      DetectProjectContext(codec, r, ctx.root).Ok?
      && DetectFeature(codec, r, f, DetectProjectContext(codec, r, ctx.root).value) == Ok(true)
  {
    match f
    case PrettierFeature => Prettier.ApplyThenDetect(codec, fs, ctx);
    case VitestFeature => Vitest.ApplyThenDetect(codec, fs, ctx);
    case EslintFeature => Eslint.ApplyThenDetect(codec, fs, ctx);
    case TailwindFeature => Tailwind.ApplyThenDetect(codec, fs, ctx);
    case DockerFeature => Docker.ApplyThenDetect(codec, fs, ctx);
    case CiFeature => Ci.ApplyThenDetect(codec, fs, ctx, None);
  }
}

=== FILE: strings.dfy ===
/** The JavaScript string operations the program relies on, defined over
    `string` (a sequence of characters): `includes`, `indexOf`,
    `replace` with a string pattern (first occurrence), `replaceAll`
    with a string pattern, `startsWith`/`endsWith`, `split` on the path
    separators and the default `Array.prototype.sort` order. */
module Strings {
  import opened Wrappers

  /** `pat` occurs in `s` starting at index `i`. */
  predicate OccursAt(s: string, pat: string, i: int) {
    0 <= i && i + |pat| <= |s| && s[i..i + |pat|] == pat
  }

  /** `s.indexOf(pat)`: the leftmost occurrence of `pat` in `s`, if any. */
  function FindFirst(s: string, pat: string): (r: Option<nat>)
    ensures r.Some? ==> OccursAt(s, pat, r.value)
    ensures r.Some? ==> forall j :: 0 <= j < r.value ==> !OccursAt(s, pat, j)
    ensures r.None? ==> forall j :: !OccursAt(s, pat, j)
    decreases |s|
  {
    if |s| < |pat| then None
    else if s[..|pat|] == pat then Some(0)
    else
      var rest := FindFirst(s[1..], pat);
      assert forall j :: 1 <= j ==> (OccursAt(s, pat, j) <==> OccursAt(s[1..], pat, j - 1)) by {
        forall j | 1 <= j
          ensures OccursAt(s, pat, j) <==> OccursAt(s[1..], pat, j - 1)
        {
          OccursShift(s, pat, j);
        }
      }
      assert !OccursAt(s, pat, 0);
      match rest
      case None => None
      case Some(i) => Some(i + 1)
  }

  /** An occurrence at `j >= 1` is an occurrence at `j - 1` of the tail. */
  lemma OccursShift(s: string, pat: string, j: int)
    requires |s| > 0 && 1 <= j
    ensures OccursAt(s, pat, j) <==> OccursAt(s[1..], pat, j - 1)
  {
    if j + |pat| <= |s| {
      assert s[1..][j - 1..j - 1 + |pat|] == s[j..j + |pat|];
    }
  }

  /** `s.includes(pat)`. */
  predicate Contains(s: string, pat: string) {
    FindFirst(s, pat).Some?
  }

  /** `s.startsWith(p)`. */
  predicate StartsWith(s: string, p: string) {
    |p| <= |s| && s[..|p|] == p
  }

  /** `s.endsWith(p)`. */
  predicate EndsWith(s: string, p: string) {
    |p| <= |s| && s[|s| - |p|..] == p
  }

  /** A string contains every string that occurs somewhere inside it. */
  lemma ContainsWitness(s: string, pat: string, i: int)
    requires OccursAt(s, pat, i)
    ensures Contains(s, pat)
  {
  }

  /** `a + x + b` contains `x`. */
  lemma ContainsMiddle(a: string, x: string, b: string)
    ensures Contains(a + x + b, x)
  {
    var s := a + x + b;
    assert s[|a|..|a| + |x|] == x;
    ContainsWitness(s, x, |a|);
  }

  /** A string contains each of its prefixes. */
  lemma ContainsPrefix(s: string, p: string)
    requires StartsWith(s, p)
    ensures Contains(s, p)
  {
    ContainsWitness(s, p, 0);
  }

  /** The text that stands in for one occurrence, as JavaScript's
      GetSubstitution builds it from a string replacement when the pattern
      is a string (so there are no capture groups): `$$` gives `$`, `$&`
      the matched text, `` $` `` the text before the occurrence and `$'`
      the text after it.  Every other character is copied, including a `$`
      that starts none of these pairs (`$1` and `$<` stay as written). */
  function Expand(rep: string, matched: string, before: string, after: string): string
    decreases |rep|
  {
    if |rep| == 0 then ""
    else if |rep| >= 2 && rep[0] == '$' && rep[1] == '$' then "$" + Expand(rep[2..], matched, before, after)
    else if |rep| >= 2 && rep[0] == '$' && rep[1] == '&' then matched + Expand(rep[2..], matched, before, after)
    else if |rep| >= 2 && rep[0] == '$' && rep[1] == '`' then before + Expand(rep[2..], matched, before, after)
    else if |rep| >= 2 && rep[0] == '$' && rep[1] == '\'' then after + Expand(rep[2..], matched, before, after)
    else [rep[0]] + Expand(rep[1..], matched, before, after)
  }

  /** A replacement without `$` stands for itself. */
  lemma {:induction false} ExpandLiteral(rep: string, matched: string, before: string, after: string)
    requires '$' !in rep
    ensures Expand(rep, matched, before, after) == rep
    decreases |rep|
  {
    if |rep| > 0 {
      assert rep[0] in rep;
      assert forall c :: c in rep[1..] ==> c in rep;
      ExpandLiteral(rep[1..], matched, before, after);
      assert rep == [rep[0]] + rep[1..];
    }
  }

  /** No `` $` `` or `$'` pair occurs in the replacement, so what it stands
      for does not depend on where the occurrence is. */
  predicate ContextFree(rep: string) {
    forall k :: 0 <= k < |rep| - 1 && rep[k] == '$' ==> rep[k + 1] != '`' && rep[k + 1] != '\''
  }

  /** A context-free replacement expands the same at every occurrence. */
  lemma {:induction false} ExpandContextFree(rep: string, matched: string, before: string, after: string)
    requires ContextFree(rep)
    ensures Expand(rep, matched, before, after) == Expand(rep, matched, "", "")
    decreases |rep|
  {
    if |rep| >= 2 && rep[0] == '$' && (rep[1] == '$' || rep[1] == '&') {
      assert forall k :: 0 <= k < |rep[2..]| ==> rep[2..][k] == rep[k + 2];
      ExpandContextFree(rep[2..], matched, before, after);
    } else if |rep| >= 2 && rep[0] == '$' {
      assert rep[1] != '`' && rep[1] != '\'';
      assert forall k :: 0 <= k < |rep[1..]| ==> rep[1..][k] == rep[k + 1];
      ExpandContextFree(rep[1..], matched, before, after);
    } else if |rep| > 0 {
      assert forall k :: 0 <= k < |rep[1..]| ==> rep[1..][k] == rep[k + 1];
      ExpandContextFree(rep[1..], matched, before, after);
    }
  }

  /** A replacement without `$` is context-free. */
  lemma LiteralIsContextFree(rep: string)
    requires '$' !in rep
    ensures ContextFree(rep)
  {
    forall k | 0 <= k < |rep| - 1
      ensures rep[k] != '$'
    {
      assert rep[k] in rep;
    }
  }

  /** The scan of `s.replaceAll(pat, rep)` over the part `s` of the
      original string that follows the already scanned part `before`: each
      non-overlapping occurrence, leftmost first, becomes the expansion of
      `rep` in the context of the original string. */
  function ReplaceIn(before: string, s: string, pat: string, rep: string): string
    requires |pat| > 0
    decreases |s|
  {
    if |s| < |pat| then s
    else if s[..|pat|] == pat then Expand(rep, pat, before, s[|pat|..]) + ReplaceIn(before + pat, s[|pat|..], pat, rep)
    else [s[0]] + ReplaceIn(before + [s[0]], s[1..], pat, rep)
  }

  /** `s.replaceAll(pat, rep)` for a non-empty string pattern and a string
      replacement. */
  function ReplaceAll(s: string, pat: string, rep: string): string
    requires |pat| > 0
  {
    ReplaceIn("", s, pat, rep)
  }

  /** Reference definition: every non-overlapping occurrence, leftmost
      first, replaced by `rep` taken as it is. */
  function ReplaceLiteral(s: string, pat: string, rep: string): string
    requires |pat| > 0
    decreases |s|
  {
    if |s| < |pat| then s
    else if s[..|pat|] == pat then rep + ReplaceLiteral(s[|pat|..], pat, rep)
    else [s[0]] + ReplaceLiteral(s[1..], pat, rep)
  }

  /** With a context-free replacement, the scan inserts one and the same
      text at every occurrence. */
  lemma {:induction false} ReplaceInLiteral(before: string, s: string, pat: string, rep: string)
    requires |pat| > 0
    requires ContextFree(rep)
    ensures ReplaceIn(before, s, pat, rep) == ReplaceLiteral(s, pat, Expand(rep, pat, "", ""))
    decreases |s|
  {
    if |s| >= |pat| {
      if s[..|pat|] == pat {
        ExpandContextFree(rep, pat, before, s[|pat|..]);
        ReplaceInLiteral(before + pat, s[|pat|..], pat, rep);
      } else {
        ReplaceInLiteral(before + [s[0]], s[1..], pat, rep);
      }
    }
  }

  /** Reference definition: `s.split(pat)` for a non-empty string pattern. */
  function SplitOn(s: string, pat: string): (r: seq<string>)
    requires |pat| > 0
    ensures |r| >= 1
    decreases |s|
  {
    match FindFirst(s, pat)
    case None => [s]
    case Some(i) => [s[..i]] + SplitOn(s[i + |pat|..], pat)
  }

  /** `parts.join(sep)`. */
  function Join(parts: seq<string>, sep: string): string {
    if |parts| == 0 then ""
    else if |parts| == 1 then parts[0]
    else parts[0] + sep + Join(parts[1..], sep)
  }

  /** Joining two non-empty lists is joining each and putting one separator
      between them. */
  lemma {:induction false} JoinAppend(a: seq<string>, b: seq<string>, sep: string)
    requires |a| > 0 && |b| > 0
    ensures Join(a + b, sep) == Join(a, sep) + sep + Join(b, sep)
    decreases |a|
  {
    if |a| == 1 {
      JoinCons(a[0], b, sep);
      assert a + b == [a[0]] + b;
    } else {
      JoinAppend(a[1..], b, sep);
      assert (a + b)[1..] == a[1..] + b;
      JoinCons(a[0], a[1..] + b, sep);
      JoinCons(a[0], a[1..], sep);
      assert a + b == [a[0]] + (a[1..] + b);
      assert a == [a[0]] + a[1..];
    }
  }

  /** A text made of lines, each ended by a newline: a template literal
      whose lines are `lines` and which ends with a line break. */
  function Unlines(lines: seq<string>): string {
    Join(lines, "\n") + "\n"
  }

  /** Appending the text of further lines, as `config += ...` does, is the
      text of all the lines. */
  lemma UnlinesAppend(a: seq<string>, b: seq<string>)
    requires |a| > 0 && |b| > 0
    ensures Unlines(a) + Unlines(b) == Unlines(a + b)
  {
    JoinAppend(a, b, "\n");
  }

  /** A string with no occurrence of `pat` is left unchanged by
      `ReplaceAll`, whatever the replacement. */
  lemma ReplaceAllNoOccurrence(s: string, pat: string, rep: string)
    requires |pat| > 0
    requires !Contains(s, pat)
    ensures ReplaceAll(s, pat, rep) == s
  {
    ReplaceInNoOccurrence("", s, pat, rep);
  }

  lemma {:induction false} ReplaceInNoOccurrence(before: string, s: string, pat: string, rep: string)
    requires |pat| > 0
    requires !Contains(s, pat)
    ensures ReplaceIn(before, s, pat, rep) == s
    decreases |s|
  {
    if |s| >= |pat| {
      assert !OccursAt(s, pat, 0);
      NoOccurrenceTail(s, pat);
      ReplaceInNoOccurrence(before + [s[0]], s[1..], pat, rep);
    }
  }

  /** The reference definition also keeps a string without an occurrence. */
  lemma {:induction false} ReplaceLiteralNoOccurrence(s: string, pat: string, rep: string)
    requires |pat| > 0
    requires !Contains(s, pat)
    ensures ReplaceLiteral(s, pat, rep) == s
    decreases |s|
  {
    if |s| >= |pat| {
      assert !OccursAt(s, pat, 0);
      NoOccurrenceTail(s, pat);
      ReplaceLiteralNoOccurrence(s[1..], pat, rep);
    }
  }

  /** Without an occurrence in `s`, there is none in its tail either. */
  lemma NoOccurrenceTail(s: string, pat: string)
    requires |s| > 0 && !Contains(s, pat)
    ensures !Contains(s[1..], pat)
  {
    forall j | 0 <= j
      ensures !OccursAt(s[1..], pat, j)
    {
      OccursShift(s, pat, j + 1);
    }
  }

  /** Joining a non-empty tail after one more piece. */
  lemma JoinCons(x: string, tail: seq<string>, sep: string)
    requires |tail| >= 1
    ensures Join([x] + tail, sep) == x + sep + Join(tail, sep)
  {
    assert ([x] + tail)[1..] == tail;
  }

  /** One step of `SplitOn` when the leftmost occurrence is at `i`. */
  lemma SplitOnStep(s: string, pat: string, rep: string, i: nat)
    requires |pat| > 0
    requires FindFirst(s, pat) == Some(i)
    ensures Join(SplitOn(s, pat), rep) == s[..i] + rep + Join(SplitOn(s[i + |pat|..], pat), rep)
  {
    var tail := SplitOn(s[i + |pat|..], pat);
    assert SplitOn(s, pat) == [s[..i]] + tail;
    JoinCons(s[..i], tail, rep);
  }

  /** If the leftmost occurrence in `s` is at `i > 0`, the leftmost one in
      `s[1..]` is at `i - 1`. */
  lemma FindFirstTail(s: string, pat: string, i: nat)
    requires |pat| > 0 && FindFirst(s, pat) == Some(i) && i > 0
    ensures FindFirst(s[1..], pat) == Some(i - 1)
  {
    assert !OccursAt(s, pat, 0);
    assert s[..|pat|] != pat;
  }

  /** `ReplaceAll` replaces exactly the pieces `split` cuts at: with a
      context-free replacement the result is the split pieces joined by its
      expansion, and a replacement without `$` is inserted as it is. */
  lemma ReplaceAllIsSplitJoin(s: string, pat: string, rep: string)
    requires |pat| > 0
    ensures ContextFree(rep) ==> ReplaceAll(s, pat, rep) == Join(SplitOn(s, pat), Expand(rep, pat, "", ""))
    ensures '$' !in rep ==> ReplaceAll(s, pat, rep) == Join(SplitOn(s, pat), rep)
  {
    if '$' !in rep {
      LiteralIsContextFree(rep);
      ExpandLiteral(rep, pat, "", "");
    }
    if ContextFree(rep) {
      ReplaceInLiteral("", s, pat, rep);
      ReplaceLiteralIsSplitJoin(s, pat, Expand(rep, pat, "", ""));
    }
  }

  /** The reference definition replaces exactly the pieces `split` cuts
      at: the result is the split pieces joined by the replacement. */
  lemma {:induction false} ReplaceLiteralIsSplitJoin(s: string, pat: string, rep: string)
    requires |pat| > 0
    ensures ReplaceLiteral(s, pat, rep) == Join(SplitOn(s, pat), rep)
    decreases |s|
  {
    var f := FindFirst(s, pat);
    if f.None? {
      ReplaceLiteralNoOccurrence(s, pat, rep);
    } else if f.value == 0 {
      SplitOnStep(s, pat, rep, 0);
      assert s[..|pat|] == pat;
      assert ReplaceLiteral(s, pat, rep) == rep + ReplaceLiteral(s[|pat|..], pat, rep);
      ReplaceLiteralIsSplitJoin(s[|pat|..], pat, rep);
    } else {
      var i := f.value;
      var s1 := s[1..];
      assert !OccursAt(s, pat, 0);
      assert ReplaceLiteral(s, pat, rep) == [s[0]] + ReplaceLiteral(s1, pat, rep);
      ReplaceLiteralIsSplitJoin(s1, pat, rep);
      ShiftedSplitJoin(s, pat, rep, i);
    }
  }

  /** The split of `s[1..]` when the leftmost occurrence in `s` is at `i > 0`:
      its first piece is one character shorter, the rest is the same. */
  lemma ShiftedSplit(s: string, pat: string, rep: string, i: nat)
    requires |pat| > 0 && FindFirst(s, pat) == Some(i) && i > 0
    ensures Join(SplitOn(s[1..], pat), rep) == s[1..][..i - 1] + rep + Join(SplitOn(s[i + |pat|..], pat), rep)
  {
    TailSlices(s, i, |pat|);
    FindFirstTail(s, pat, i);
    SplitOnStepAt(s[1..], pat, rep, i - 1, s[i + |pat|..]);
  }

  /** `SplitOnStep` with the rest after the occurrence named. */
  lemma SplitOnStepAt(s: string, pat: string, rep: string, i: nat, rest: string)
    requires |pat| > 0
    requires FindFirst(s, pat) == Some(i) && i + |pat| <= |s| && rest == s[i + |pat|..]
    ensures Join(SplitOn(s, pat), rep) == s[..i] + rep + Join(SplitOn(rest, pat), rep)
  {
    SplitOnStep(s, pat, rep, i);
  }

  /** The split of `s[1..]` joins to the split of `s` minus its first character. */
  lemma ShiftedSplitJoin(s: string, pat: string, rep: string, i: nat)
    requires |pat| > 0 && FindFirst(s, pat) == Some(i) && i > 0
    ensures Join(SplitOn(s, pat), rep) == [s[0]] + Join(SplitOn(s[1..], pat), rep)
  {
    var jr := Join(SplitOn(s[i + |pat|..], pat), rep);
    SplitOnStep(s, pat, rep, i);
    ShiftedSplit(s, pat, rep, i);
    TailSlices(s, i, |pat|);
    ConsAssoc(s[0], s[1..][..i - 1], rep, jr, Join(SplitOn(s, pat), rep), Join(SplitOn(s[1..], pat), rep));
  }

  lemma TailSlices(s: string, i: nat, n: nat)
    requires 0 < i && i + n <= |s|
    ensures s[1..][i - 1 + n..] == s[i + n..]
    ensures s[..i] == [s[0]] + s[1..][..i - 1]
  {
  }

  lemma ConsAssoc(c: char, a: string, rep: string, jr: string, x: string, y: string)
    requires x == ([c] + a) + rep + jr && y == a + rep + jr
    ensures x == [c] + y
  {
  }

  /** Joining the split pieces with the pattern itself restores the string. */
  lemma {:induction false} SplitJoinRoundTrip(s: string, pat: string)
    requires |pat| > 0
    ensures Join(SplitOn(s, pat), pat) == s
    decreases |s|
  {
    match FindFirst(s, pat)
    case None =>
    case Some(i) =>
      SplitOnStep(s, pat, pat, i);
      SplitJoinRoundTrip(s[i + |pat|..], pat);
      assert s == s[..i] + pat + s[i + |pat|..];
  }

  /** No piece produced by the split contains the pattern: every occurrence
      was cut, so `ReplaceAll` replaced every occurrence. */
  lemma {:induction false} SplitPiecesHaveNoOccurrence(s: string, pat: string, k: int)
    requires |pat| > 0
    requires 0 <= k < |SplitOn(s, pat)|
    ensures !Contains(SplitOn(s, pat)[k], pat)
    decreases |s|
  {
    match FindFirst(s, pat)
    case None =>
    case Some(i) =>
      if k == 0 {
        var piece := s[..i];
        if Contains(piece, pat) {
          var j := FindFirst(piece, pat).value;
          assert piece[j..j + |pat|] == s[j..j + |pat|];
          assert OccursAt(s, pat, j);
        }
      } else {
        SplitPiecesHaveNoOccurrence(s[i + |pat|..], pat, k - 1);
      }
  }

  /** JavaScript `s.replace(pat, rep)` with a string pattern: only the first
      occurrence is replaced, by the expansion of `rep` there. */
  function ReplaceFirst(s: string, pat: string, rep: string): string {
    match FindFirst(s, pat)
    case None => s
    case Some(i) => s[..i] + Expand(rep, pat, s[..i], s[i + |pat|..]) + s[i + |pat|..]
  }

  /** Separators of the `/[\\/]/` split used on the working directory. */
  predicate IsPathSeparator(c: char) {
    c == '/' || c == '\\'
  }

  /** `s.split(/[\\/]/).pop()`: the text after the last path separator. */
  function LastSegment(s: string): (r: string)
    ensures |r| <= |s| && r == s[|s| - |r|..]
    ensures forall k :: 0 <= k < |r| ==> !IsPathSeparator(r[k])
    ensures |r| < |s| ==> IsPathSeparator(s[|s| - |r| - 1])
  {
    if |s| == 0 then ""
    else if IsPathSeparator(s[|s| - 1]) then ""
    else LastSegment(s[..|s| - 1]) + [s[|s| - 1]]
  }

  // ---------------------------------------------------------------------
  // The default order of `Array.prototype.sort` on strings.

  /** The UTF-16 code units of one character: itself below U+10000,
      otherwise a surrogate pair. */
  function Units(c: char): (r: seq<int>)
    ensures 1 <= |r| <= 2
    ensures (|r| == 2) <==> (0xD800 <= r[0] < 0xDC00)
  {
    var n := c as int;
    if n < 0x10000 then [n]
    else [0xD800 + (n - 0x10000) / 0x400, 0xDC00 + (n - 0x10000) % 0x400]
  }

  /** The UTF-16 code units of a string, as JavaScript stores it. */
  function Utf16(s: string): seq<int> {
    if |s| == 0 then [] else Units(s[0]) + Utf16(s[1..])
  }

  /** Lexicographic order on sequences of code units, a prefix first. */
  predicate UnitsLe(a: seq<int>, b: seq<int>)
    decreases |a|
  {
    |a| == 0 || (|b| > 0 && (a[0] < b[0] || (a[0] == b[0] && UnitsLe(a[1..], b[1..]))))
  }

  /** The default order of `sort()` on strings: by UTF-16 code units, so a
      character above U+FFFF sorts by its leading surrogate. */
  predicate LexLe(a: string, b: string) {
    UnitsLe(Utf16(a), Utf16(b))
  }

  lemma {:induction false} UnitsLeTotal(a: seq<int>, b: seq<int>)
    ensures UnitsLe(a, b) || UnitsLe(b, a)
    decreases |a|
  {
    if |a| > 0 && |b| > 0 && a[0] == b[0] {
      UnitsLeTotal(a[1..], b[1..]);
    }
  }

  lemma {:induction false} UnitsLeTransitive(a: seq<int>, b: seq<int>, c: seq<int>)
    requires UnitsLe(a, b) && UnitsLe(b, c)
    ensures UnitsLe(a, c)
    decreases |a|
  {
    if |a| > 0 && a[0] == b[0] && b[0] == c[0] {
      UnitsLeTransitive(a[1..], b[1..], c[1..]);
    }
  }

  lemma {:induction false} UnitsLeAntisymmetric(a: seq<int>, b: seq<int>)
    requires UnitsLe(a, b) && UnitsLe(b, a)
    ensures a == b
    decreases |a|
  {
    if |a| > 0 {
      UnitsLeAntisymmetric(a[1..], b[1..]);
      assert a == [a[0]] + a[1..];
      assert b == [b[0]] + b[1..];
    }
  }

  /** A character is recovered from its code units. */
  lemma UnitsInjective(c: char, d: char)
    requires Units(c) == Units(d)
    ensures c == d
  {
    var n, m := c as int, d as int;
    if n >= 0x10000 {
      assert m >= 0x10000;
      assert (n - 0x10000) / 0x400 == (m - 0x10000) / 0x400;
      assert (n - 0x10000) % 0x400 == (m - 0x10000) % 0x400;
      assert n - 0x10000 == 0x400 * ((n - 0x10000) / 0x400) + (n - 0x10000) % 0x400;
      assert m - 0x10000 == 0x400 * ((m - 0x10000) / 0x400) + (m - 0x10000) % 0x400;
    }
  }

  /** UTF-16 is a prefix code: different strings have different code
      units. */
  lemma {:induction false} Utf16Injective(a: string, b: string)
    requires Utf16(a) == Utf16(b)
    ensures a == b
    decreases |a|
  {
    if |a| > 0 {
      assert |b| > 0;
      var ua, ub := Units(a[0]), Units(b[0]);
      assert Utf16(a)[0] == ua[0] && Utf16(b)[0] == ub[0];
      assert |ua| == |ub|;
      assert ua == Utf16(a)[..|ua|] && ub == Utf16(b)[..|ub|];
      UnitsInjective(a[0], b[0]);
      assert Utf16(a[1..]) == Utf16(a)[|ua|..] == Utf16(b)[|ub|..] == Utf16(b[1..]);
      Utf16Injective(a[1..], b[1..]);
      assert a == [a[0]] + a[1..];
      assert b == [b[0]] + b[1..];
    }
  }

  lemma LexLeTotal(a: string, b: string)
    ensures LexLe(a, b) || LexLe(b, a)
  {
    UnitsLeTotal(Utf16(a), Utf16(b));
  }

  lemma LexLeTransitive(a: string, b: string, c: string)
    requires LexLe(a, b) && LexLe(b, c)
    ensures LexLe(a, c)
  {
    UnitsLeTransitive(Utf16(a), Utf16(b), Utf16(c));
  }

  lemma LexLeAntisymmetric(a: string, b: string)
    requires LexLe(a, b) && LexLe(b, a)
    ensures a == b
  {
    UnitsLeAntisymmetric(Utf16(a), Utf16(b));
    Utf16Injective(a, b);
  }

  /** Code units and code points disagree above U+FFFF: U+1F600 is stored
      as a pair led by 0xD83D and so sorts before U+FF61, although its code
      point is larger. */
  lemma LexLeByCodeUnits()
    ensures LexLe("\U{1F600}", "\U{FF61}") && !LexLe("\U{FF61}", "\U{1F600}")
    ensures "\U{1F600}"[0] > "\U{FF61}"[0]
  {
    var a, b := "\U{1F600}", "\U{FF61}";
    assert Utf16(a) == Units(a[0]) + Utf16(a[1..]);
    assert a[1..] == [] && b[1..] == [];
    assert Utf16(a) == [0xD83D, 0xDE00];
    assert Utf16(b) == [0xFF61];
  }

  predicate Sorted(s: seq<string>) {
    forall i, j :: 0 <= i < j < |s| ==> LexLe(s[i], s[j])
  }

  /** A head no greater than any element of a sorted tail keeps it sorted. */
  lemma ConsSorted(h: string, s: seq<string>)
    requires Sorted(s)
    requires forall j :: 0 <= j < |s| ==> LexLe(h, s[j])
    ensures Sorted([h] + s)
  {
    forall i, j | 0 <= i < j < |[h] + s|
      ensures LexLe(([h] + s)[i], ([h] + s)[j])
    {
      if i > 0 {
        assert ([h] + s)[i] == s[i - 1] && ([h] + s)[j] == s[j - 1];
      }
    }
  }

  /** A bound on every element of `s` and on `x` bounds every element of
      any sequence holding the same strings as `s` plus `x`. */
  lemma BoundedByContents(h: string, x: string, s: seq<string>, r: seq<string>)
    requires LexLe(h, x)
    requires forall k :: 0 <= k < |s| ==> LexLe(h, s[k])
    requires multiset(r) == multiset(s) + multiset{x}
    ensures forall j :: 0 <= j < |r| ==> LexLe(h, r[j])
  {
    forall j | 0 <= j < |r| ensures LexLe(h, r[j]) {
      assert r[j] in multiset(r);
      if r[j] != x {
        assert r[j] in multiset(s);
        var k :| 0 <= k < |s| && s[k] == r[j];
      }
    }
  }

  /** Inserts `x` into a sorted sequence, keeping it sorted. */
  function Insert(x: string, s: seq<string>): (r: seq<string>)
    requires Sorted(s)
    ensures Sorted(r)
    ensures multiset(r) == multiset(s) + multiset{x}
  {
    if |s| == 0 then [x]
    else if LexLe(x, s[0]) then
      assert forall j :: 0 <= j < |s| ==> LexLe(x, s[j]) by {
        forall j | 0 <= j < |s| ensures LexLe(x, s[j]) {
          if j > 0 { LexLeTransitive(x, s[0], s[j]); }
        }
      }
      ConsSorted(x, s);
      assert s == [s[0]] + s[1..];
      [x] + s
    else
      LexLeTotal(x, s[0]);
      var rest := Insert(x, s[1..]);
      BoundedByContents(s[0], x, s[1..], rest);
      ConsSorted(s[0], rest);
      assert s == [s[0]] + s[1..];
      [s[0]] + rest
  }

  /** `names.sort()`: the same strings, in ascending order. */
  function Sort(s: seq<string>): (r: seq<string>)
    ensures Sorted(r)
    ensures multiset(r) == multiset(s)
  {
    if |s| == 0 then []
    else
      assert s == [s[0]] + s[1..];
      Insert(s[0], Sort(s[1..]))
  }
}

=== FILE: tailwind.dfy ===
/** The `tailwind` feature (dist/features/tailwind.js): it configures the
    web app of a monorepo when there is one, otherwise the project root,
    and edits up to three files there. */
module Tailwind {
  import opened Wrappers
  import opened Strings
  import opened Manifests
  import opened FileSystem
  import opened Probe
  import opened FeatureKit

  const Id := "tailwind"

  const ConfigFiles: seq<string> := ["tailwind.config.js", "tailwind.config.ts", "tailwind.config.mjs", "tailwind.config.cjs"]

  const AddedDevDeps: StrMap := map["tailwindcss" := "^4.0.0", "@tailwindcss/vite" := "^4.0.0"]

  /** The package whose presence in `vite.config.ts` means the plugin is wired. */
  const VitePlugin := "@tailwindcss/vite"

  /** The line prepended to `vite.config.ts`. */
  const ViteImport := "import tailwindcss from '" + VitePlugin + "';\n"

  const PluginsKey := "plugins:"

  /** What the matched `plugins: [` is replaced with. */
  const PluginsReplacement := "plugins: [\n    tailwindcss(),"

  /** The CSS import whose presence means the stylesheet is wired. */
  const CssImport := "@import \"tailwindcss\""

  // -------------------------------------------------------------------
  // The `/plugins:\s*\[/` match

  /** A character of the regular-expression class `\s` (WhiteSpace and
      LineTerminator in ECMAScript). */
  predicate IsJsWhitespace(c: char) {
    || c == '\t' || c == '\n' || c == '\U{000B}' || c == '\U{000C}' || c == '\r' || c == ' '
    || c == '\U{00A0}' || c == '\U{1680}' || ('\U{2000}' <= c <= '\U{200A}')
    || c == '\U{2028}' || c == '\U{2029}' || c == '\U{202F}' || c == '\U{205F}'
    || c == '\U{3000}' || c == '\U{FEFF}'
  }

  /** Reference semantics of the pattern: at `i` the text is `plugins:`,
      then exactly `j` whitespace characters, then `[`. */
  predicate RegexMatch(s: string, i: int, j: int) {
    && 0 <= i && 0 <= j && i + |PluginsKey| + j < |s|
    && OccursAt(s, PluginsKey, i)
    && (forall k :: i + |PluginsKey| <= k < i + |PluginsKey| + j ==> IsJsWhitespace(s[k]))
    && s[i + |PluginsKey| + j] == '['
  }

  /** The length of the longest run of whitespace starting at `i`. */
  function WsRun(s: string, i: nat): (n: nat)
    requires i <= |s|
    ensures i + n <= |s|
    ensures forall k :: i <= k < i + n ==> IsJsWhitespace(s[k])
    ensures i + n == |s| || !IsJsWhitespace(s[i + n])
    decreases |s| - i
  {
    if i < |s| && IsJsWhitespace(s[i]) then 1 + WsRun(s, i + 1) else 0
  }

  /** The greedy matcher's view of a match at `i`: the key, the longest
      whitespace run, then `[`. */
  predicate MatchAt(s: string, i: int) {
    && OccursAt(s, PluginsKey, i)
    && i + |PluginsKey| + WsRun(s, i + |PluginsKey|) < |s|
    && s[i + |PluginsKey| + WsRun(s, i + |PluginsKey|)] == '['
  }

  /** The greedy view agrees with the reference semantics, and the pattern
      matches at a given position in at most one way. */
  lemma MatchAtIsRegexMatch(s: string, i: int, j: int)
    ensures RegexMatch(s, i, j) <==> MatchAt(s, i) && j == WsRun(s, i + |PluginsKey|)
  {
    if RegexMatch(s, i, j) {
      var b := i + |PluginsKey|;
      var n := WsRun(s, b);
      assert !IsJsWhitespace('[');
    }
  }

  /** The leftmost match at or after `from`, as `String.prototype.replace`
      with a non-global pattern finds it. */
  function FindMatch(s: string, from: nat): (r: Option<nat>)
    ensures r.Some? ==> from <= r.value && MatchAt(s, r.value)
    ensures r.Some? ==> forall k :: from <= k < r.value ==> !MatchAt(s, k)
    ensures r.None? ==> forall k :: from <= k ==> !MatchAt(s, k)
    decreases |s| - from
  {
    if from + |PluginsKey| >= |s| then None
    else if MatchAt(s, from) then Some(from)
    else FindMatch(s, from + 1)
  }

  /** `viteConfig.replace(/plugins:\s*\[/, 'plugins: [\n    tailwindcss(),')`. */
  function InsertPlugin(s: string): (r: string)
    ensures FindMatch(s, 0).None? ==> r == s
    ensures FindMatch(s, 0).Some? ==>
      var i := FindMatch(s, 0).value;
      var e := i + |PluginsKey| + WsRun(s, i + |PluginsKey|) + 1;
      e <= |s| && r == s[..i] + PluginsReplacement + s[e..]
  {
    match FindMatch(s, 0)
    case None => s
    case Some(i) => s[..i] + PluginsReplacement + s[i + |PluginsKey| + WsRun(s, i + |PluginsKey|) + 1..]
  }

  /** The rewritten config mentions the plugin package, so a second
      `apply` leaves it alone. */
  lemma RewrittenViteHasPlugin(text: string)
    ensures Contains(ViteImport + InsertPlugin(text), VitePlugin)
  {
    var a := "import tailwindcss from '";
    var b := "';\n" + InsertPlugin(text);
    assert ViteImport + InsertPlugin(text) == a + VitePlugin + b;
    ContainsMiddle(a, VitePlugin, b);
  }

  /** Both CSS texts `apply` can write contain the import. */
  lemma WrittenCssHasImport(existing: string)
    ensures Contains(CssImport + ";\n", CssImport)
    ensures Contains(CssImport + ";\n\n" + existing, CssImport)
  {
    ContainsMiddle("", CssImport, ";\n");
    assert "" + CssImport + ";\n" == CssImport + ";\n";
    ContainsMiddle("", CssImport, ";\n\n" + existing);
    assert "" + CssImport + (";\n\n" + existing) == CssImport + ";\n\n" + existing;
  }

  // -------------------------------------------------------------------
  // The feature

  /** `getWebAppDir(root)`: `apps/web` when it holds a `package.json`, else
      the root. */
  function WebAppDir(fs: FS, root: Path): (r: Path)
    ensures r == root + ["apps", "web"] <==> Exists(fs, root + ["apps", "web", "package.json"])
    ensures r == root <==> !Exists(fs, root + ["apps", "web", "package.json"])
  {
    assert |root + ["apps", "web"]| != |root|;
    assert root + ["apps", "web"] + ["package.json"] == root + ["apps", "web", "package.json"];
    if Exists(fs, root + ["apps", "web"] + ["package.json"]) then root + ["apps", "web"] else root
  }

  /** `detect`: a tailwind config in the target directory, else a
      `tailwindcss` dependency, taken from the probed manifest for the root
      and read from disk for the web app (which can fail). */
  function Detect(codec: Codec, fs: FS, ctx: ProjectContext): (r: Result<bool>)
    ensures var t := WebAppDir(fs, ctx.root);
      ConfigPresent(fs, t, ConfigFiles) ==> r == Ok(true)
    ensures var t := WebAppDir(fs, ctx.root);
      !ConfigPresent(fs, t, ConfigFiles) && t == ctx.root ==>
        r == Ok(HasDependency(ctx.packageJson, "tailwindcss"))
    ensures var t := WebAppDir(fs, ctx.root);
      !ConfigPresent(fs, t, ConfigFiles) && t != ctx.root ==>
        (r.Ok? <==> ReadJson(codec, fs, t + ["package.json"]).Ok?) &&
        (r.Ok? ==> r.value == HasDependency(ReadJson(codec, fs, t + ["package.json"]).value, "tailwindcss"))
  {
    var targetDir := WebAppDir(fs, ctx.root);
    if ConfigPresent(fs, targetDir, ConfigFiles) then Ok(true)
    else
      var pkgJson :- if targetDir == ctx.root then Ok(ctx.packageJson)
                     else ReadJson(codec, fs, targetDir + ["package.json"]);
      Ok(HasDependency(pkgJson, "tailwindcss"))
  }

  /** The `vite.config.ts` step: nothing when the file is missing or
      already mentions the plugin, otherwise the import is prepended and
      the plugin call inserted. */
  function UpdateViteConfig(fs: FS, t: Path): (r: Result<FS>)
    ensures var p := t + ["vite.config.ts"];
      !Exists(fs, p) || (IsFile(fs, p) && Contains(fs[p].text, VitePlugin)) ==> r == Ok(fs)
    ensures var p := t + ["vite.config.ts"];
      IsFile(fs, p) && !Contains(fs[p].text, VitePlugin) ==>
        (r.Ok? <==> IsDir(fs, t)) &&
        (r.Ok? ==> p in r.value && r.value[p] == File(ViteImport + InsertPlugin(fs[p].text)))
    ensures IsDir(fs, t + ["vite.config.ts"]) ==> r.Err?
    ensures var p := t + ["vite.config.ts"];
      r.Ok? && Exists(fs, p) ==> IsFile(r.value, p) && Contains(r.value[p].text, VitePlugin)
    ensures r.Ok? ==> r.value.Keys == fs.Keys
    ensures r.Ok? ==> forall q :: q in fs && q != t + ["vite.config.ts"] ==> r.value[q] == fs[q]
  {
    var p := t + ["vite.config.ts"];
    assert Parent(p) == t;
    if !Exists(fs, p) then Ok(fs)
    else
      var viteConfig :- ReadFile(fs, p);
      if Contains(viteConfig, VitePlugin) then Ok(fs)
      else
        RewrittenViteHasPlugin(viteConfig);
        WriteFile(fs, p, ViteImport + InsertPlugin(viteConfig))
  }

  /** The `src/index.css` step: `src` is ensured; the stylesheet is created
      with the import, prepended with it, or left alone when it has it. */
  function UpdateCss(fs: FS, t: Path): (r: Result<FS>)
    requires IsDir(fs, t)
    ensures var css := t + ["src", "index.css"];
      r.Ok? <==> !IsFile(fs, t + ["src"]) && !IsDir(fs, css)
    ensures var css := t + ["src", "index.css"];
      r.Ok? ==> IsDir(r.value, t + ["src"]) && IsFile(r.value, css) && Contains(r.value[css].text, CssImport)
    ensures var css := t + ["src", "index.css"];
      r.Ok? && !Exists(fs, css) ==> r.value[css] == File(CssImport + ";\n")
    ensures var css := t + ["src", "index.css"];
      r.Ok? && IsFile(fs, css) && !Contains(fs[css].text, CssImport) ==>
        r.value[css] == File(CssImport + ";\n\n" + fs[css].text)
    ensures var css := t + ["src", "index.css"];
      r.Ok? && IsFile(fs, css) && Contains(fs[css].text, CssImport) ==> r.value[css] == fs[css]
    ensures var css := t + ["src", "index.css"];
      r.Ok? ==> forall q :: q in fs && q != css ==> q in r.value && r.value[q] == fs[q]
    ensures var css := t + ["src", "index.css"];
      r.Ok? ==> forall q :: q in r.value && q !in fs ==> q == t + ["src"] || q == css
    ensures (IsDir(fs, t + ["src"]) && IsFile(fs, t + ["src", "index.css"])
      && Contains(fs[t + ["src", "index.css"]].text, CssImport)) ==> r == Ok(fs)
  {
    var src := t + ["src"];
    var css := t + ["src", "index.css"];
    assert css == src + ["index.css"] && Parent(css) == src;
    assert src != css;
    EnsureDirChild(fs, t, "src");
    var fs1 :- EnsureDir(fs, src);
    WrittenCssHasImport(if css in fs1 && fs1[css].File? then fs1[css].text else "");
    if Exists(fs1, css) then
      var existing :- ReadFile(fs1, css);
      if Contains(existing, CssImport) then Ok(fs1)
      else WriteFile(fs1, css, CssImport + ";\n\n" + existing)
    else WriteFile(fs1, css, CssImport + ";\n")
  }

  /** The two steps that follow the manifest write, in the target `t`. */
  function Steps(fs: FS, t: Path): (r: Result<FS>)
    requires IsDir(fs, t)
    ensures var css := t + ["src", "index.css"];
      r.Ok? ==> IsFile(r.value, css) && Contains(r.value[css].text, CssImport)
    ensures var vite := t + ["vite.config.ts"];
      r.Ok? && Exists(fs, vite) ==> IsFile(r.value, vite) && Contains(r.value[vite].text, VitePlugin)
    ensures r.Ok? ==> forall q :: q in fs && q != t + ["vite.config.ts"] && q != t + ["src", "index.css"] ==>
      q in r.value && r.value[q] == fs[q]
    ensures r.Ok? ==> forall q :: q in r.value && q !in fs ==> q == t + ["src"] || q == t + ["src", "index.css"]
  {
    var vite := t + ["vite.config.ts"];
    var css := t + ["src", "index.css"];
    assert vite != t && vite != css && vite != t + ["src"] by { assert vite[|t|] != (t + ["src"])[|t|]; }
    var fs1 :- UpdateViteConfig(fs, t);
    UpdateCss(fs1, t)
  }

  /** The steps leave a project that has already been through them as it is. */
  lemma StepsSettled(fs: FS, t: Path)
    requires IsDir(fs, t)
    requires !Exists(fs, t + ["vite.config.ts"]) ||
      (IsFile(fs, t + ["vite.config.ts"]) && Contains(fs[t + ["vite.config.ts"]].text, VitePlugin))
    requires IsDir(fs, t + ["src"]) && IsFile(fs, t + ["src", "index.css"])
      && Contains(fs[t + ["src", "index.css"]].text, CssImport)
    ensures Steps(fs, t) == Ok(fs)
  {
  }

  /** `apply` in a chosen target directory `t`: the dependencies go into
      the target's manifest (no scripts), then the vite config and the
      stylesheet steps run in the target. */
  function ApplyAt(codec: Codec, fs: FS, t: Path): (r: Result<FS>)
    ensures ReadJson(codec, fs, t + ["package.json"]).Err? ==> r.Err?
    ensures r.Ok? ==> IsDir(fs, t)
  {
    var pkg := t + ["package.json"];
    assert Parent(pkg) == t && pkg != t;
    var fs1 :- UpdateManifest(codec, fs, pkg, AddedDevDeps, None);
    Steps(fs1, t)
  }

  /** What `apply` writes in the target: the stylesheet has the import and
      a vite config that was there mentions the plugin. */
  lemma ApplyAtWrites(codec: Codec, fs: FS, t: Path)
    requires ApplyAt(codec, fs, t).Ok?
    ensures var r := ApplyAt(codec, fs, t).value;
      IsFile(r, t + ["src", "index.css"]) && Contains(r[t + ["src", "index.css"]].text, CssImport)
    ensures var r := ApplyAt(codec, fs, t).value;
      Exists(fs, t + ["vite.config.ts"]) ==>
        IsFile(r, t + ["vite.config.ts"]) && Contains(r[t + ["vite.config.ts"]].text, VitePlugin)
  {
    var pkg := t + ["package.json"];
    assert pkg != t + ["vite.config.ts"] by { assert pkg[|t|] != (t + ["vite.config.ts"])[|t|]; }
    var fs1 := UpdateManifest(codec, fs, pkg, AddedDevDeps, None).value;
    assert Parent(pkg) == t && IsDir(fs1, t);
    assert Exists(fs1, t + ["vite.config.ts"]) <==> Exists(fs, t + ["vite.config.ts"]);
  }

  /** `apply` leaves everything outside the target as it was and adds no
      path but `src` and the stylesheet. */
  lemma ApplyAtFrame(codec: Codec, fs: FS, t: Path)
    requires ApplyAt(codec, fs, t).Ok?
    ensures var r := ApplyAt(codec, fs, t).value;
      forall q :: q in fs && !Under(q, t) ==> q in r && r[q] == fs[q]
    ensures var r := ApplyAt(codec, fs, t).value;
      forall q :: q in r && q !in fs ==> q == t + ["src"] || q == t + ["src", "index.css"]
  {
    var pkg := t + ["package.json"];
    var fs1 := UpdateManifest(codec, fs, pkg, AddedDevDeps, None).value;
    assert Parent(pkg) == t && IsDir(fs1, t);
    assert fs1.Keys == fs.Keys;
    InsideTarget(t);
  }

  /** When `apply` succeeds in a target: its manifest reads, it is a
      directory, neither `vite.config.ts` nor `src/index.css` is a
      directory, and `src` is not a file. */
  lemma ApplyAtSucceeds(codec: Codec, fs: FS, t: Path)
    ensures ApplyAt(codec, fs, t).Ok? <==>
      && ReadJson(codec, fs, t + ["package.json"]).Ok?
      && IsDir(fs, t)
      && !IsDir(fs, t + ["vite.config.ts"])
      && !IsFile(fs, t + ["src"])
      && !IsDir(fs, t + ["src", "index.css"])
  {
    var pkg := t + ["package.json"];
    var vite := t + ["vite.config.ts"];
    var src := t + ["src"];
    var css := t + ["src", "index.css"];
    assert Parent(pkg) == t && pkg != t;
    assert pkg != vite by { assert pkg[|t|] != vite[|t|]; }
    assert pkg != src by { assert pkg[|t|] != src[|t|]; }
    assert pkg != css by { assert pkg[|t|] != css[|t|]; }
    if ReadJson(codec, fs, pkg).Ok? && IsDir(fs, t) {
      var fs1 := UpdateManifest(codec, fs, pkg, AddedDevDeps, None).value;
      assert IsDir(fs1, t);
      assert IsDir(fs1, vite) <==> IsDir(fs, vite);
      assert IsFile(fs1, src) <==> IsFile(fs, src);
      assert IsDir(fs1, css) <==> IsDir(fs, css);
      var v := UpdateViteConfig(fs1, t);
      assert v.Ok? <==> !IsDir(fs1, vite);
      if v.Ok? {
        assert vite != src && vite != css by { assert vite[|t|] != src[|t|]; }
        assert IsFile(v.value, src) <==> IsFile(fs1, src);
        assert IsDir(v.value, css) <==> IsDir(fs1, css);
        assert IsDir(v.value, t);
      }
    }
  }

  /** Both of the above, for a call that may fail. */
  lemma ApplyAtEffects(codec: Codec, fs: FS, t: Path)
    ensures var r := ApplyAt(codec, fs, t);
      r.Ok? ==> IsFile(r.value, t + ["src", "index.css"]) && Contains(r.value[t + ["src", "index.css"]].text, CssImport)
    ensures var r := ApplyAt(codec, fs, t);
      r.Ok? && Exists(fs, t + ["vite.config.ts"]) ==>
        IsFile(r.value, t + ["vite.config.ts"]) && Contains(r.value[t + ["vite.config.ts"]].text, VitePlugin)
    ensures var r := ApplyAt(codec, fs, t);
      r.Ok? ==> forall q :: q in fs && !Under(q, t) ==> q in r.value && r.value[q] == fs[q]
    ensures var r := ApplyAt(codec, fs, t);
      r.Ok? ==> forall q :: q in r.value && q !in fs ==> q == t + ["src"] || q == t + ["src", "index.css"]
  {
    if ApplyAt(codec, fs, t).Ok? {
      ApplyAtWrites(codec, fs, t);
      ApplyAtFrame(codec, fs, t);
    }
  }

  /** The three files `apply` edits lie below the target. */
  lemma InsideTarget(t: Path)
    ensures Under(t + ["package.json"], t) && Under(t + ["vite.config.ts"], t) && Under(t + ["src", "index.css"], t)
  {
    assert (t + ["package.json"])[..|t|] == t;
    assert (t + ["vite.config.ts"])[..|t|] == t;
    assert (t + ["src", "index.css"])[..|t|] == t;
  }

  /** `apply`: the work happens in the web app when there is one,
      otherwise at the root. */
  function Apply(codec: Codec, fs: FS, ctx: ProjectContext): (r: Result<FS>)
    ensures var t := WebAppDir(fs, ctx.root);
      ReadJson(codec, fs, t + ["package.json"]).Err? ==> r.Err?
    ensures var t := WebAppDir(fs, ctx.root);
      r.Ok? ==> IsFile(r.value, t + ["src", "index.css"]) && Contains(r.value[t + ["src", "index.css"]].text, CssImport)
    ensures var t := WebAppDir(fs, ctx.root);
      r.Ok? && Exists(fs, t + ["vite.config.ts"]) ==>
        IsFile(r.value, t + ["vite.config.ts"]) && Contains(r.value[t + ["vite.config.ts"]].text, VitePlugin)
    ensures var t := WebAppDir(fs, ctx.root);
      r.Ok? ==> forall q :: q in fs && !Under(q, t) ==> q in r.value && r.value[q] == fs[q]
    ensures var t := WebAppDir(fs, ctx.root);
      r.Ok? ==> forall q :: q in r.value && q !in fs ==> q == t + ["src"] || q == t + ["src", "index.css"]
  {
    var t := WebAppDir(fs, ctx.root);
    ApplyAtEffects(codec, fs, t);
    ApplyAt(codec, fs, t)
  }

  /** When `apply` succeeds: the conditions of `ApplyAtSucceeds`, in the
      web app when it has a manifest and at the root otherwise. */
  lemma ApplySucceeds(codec: Codec, fs: FS, ctx: ProjectContext)
    ensures var t := WebAppDir(fs, ctx.root);
      Apply(codec, fs, ctx).Ok? <==>
        && ReadJson(codec, fs, t + ["package.json"]).Ok?
        && IsDir(fs, t)
        && !IsDir(fs, t + ["vite.config.ts"])
        && !IsFile(fs, t + ["src"])
        && !IsDir(fs, t + ["src", "index.css"])
  {
    ApplyAtSucceeds(codec, fs, WebAppDir(fs, ctx.root));
  }

  /** In a monorepo only the web app's manifest changes: the root
      `package.json` is left as it was. */
  lemma ApplyKeepsRootManifest(codec: Codec, fs: FS, ctx: ProjectContext)
    requires Exists(fs, ctx.root + ["apps", "web", "package.json"])
    requires Exists(fs, ctx.root + ["package.json"])
    requires Apply(codec, fs, ctx).Ok?
    ensures var r := Apply(codec, fs, ctx).value;
      ctx.root + ["package.json"] in r && r[ctx.root + ["package.json"]] == fs[ctx.root + ["package.json"]]
  {
    var t := ctx.root + ["apps", "web"];
    var q := ctx.root + ["package.json"];
    assert q[|ctx.root|] != t[|ctx.root|];
    assert !Under(q, t);
  }

  /** The manifest of the target afterwards: both packages at `^4.0.0`,
      every other devDependency kept, and `scripts` and every other key
      untouched. */
  lemma ApplyManifest(codec: Codec, fs: FS, ctx: ProjectContext)
    requires Lawful(codec)
    requires Apply(codec, fs, ctx).Ok?
    ensures var pkg := WebAppDir(fs, ctx.root) + ["package.json"];
      var before := ReadJson(codec, fs, pkg).value;
      var after := ReadJson(codec, Apply(codec, fs, ctx).value, pkg);
      && after.Ok?
      && "tailwindcss" in after.value.DevDeps() && after.value.DevDeps()["tailwindcss"] == "^4.0.0"
      && "@tailwindcss/vite" in after.value.DevDeps() && after.value.DevDeps()["@tailwindcss/vite"] == "^4.0.0"
      && (forall k :: k in before.DevDeps() && k !in AddedDevDeps ==> k in after.value.DevDeps() && after.value.DevDeps()[k] == before.DevDeps()[k])
      && after.value.scripts == before.scripts
      && after.value.dependencies == before.dependencies && after.value.others == before.others
  {
    var pkg := WebAppDir(fs, ctx.root) + ["package.json"];
    var m := ReadJson(codec, fs, pkg).value;
    ApplyManifestText(codec, fs, ctx);
    assert codec.parse(codec.stringify(Edit(m, AddedDevDeps, None))) == Some(Edit(m, AddedDevDeps, None));
  }

  /** The target's `package.json` afterwards is the printed edited manifest. */
  lemma ApplyManifestText(codec: Codec, fs: FS, ctx: ProjectContext)
    requires Apply(codec, fs, ctx).Ok?
    ensures var pkg := WebAppDir(fs, ctx.root) + ["package.json"];
      && ReadJson(codec, fs, pkg).Ok?
      && pkg in Apply(codec, fs, ctx).value
      && Apply(codec, fs, ctx).value[pkg] == File(codec.stringify(Edit(ReadJson(codec, fs, pkg).value, AddedDevDeps, None)))
  {
    var t := WebAppDir(fs, ctx.root);
    var pkg := t + ["package.json"];
    var fs1 := UpdateManifest(codec, fs, pkg, AddedDevDeps, None).value;
    assert Parent(pkg) == t && pkg != t;
    assert pkg != t + ["vite.config.ts"] by { assert pkg[|t|] != (t + ["vite.config.ts"])[|t|]; }
    assert pkg != t + ["src", "index.css"] by { assert |pkg| != |t + ["src", "index.css"]|; }
    assert Apply(codec, fs, ctx) == ApplyAt(codec, fs, t) == Steps(fs1, t);
  }

  /** The web app's manifest is what decides the target; `apply` never
      creates or removes it, so the target is the same afterwards. */
  lemma ApplyKeepsTarget(codec: Codec, fs: FS, ctx: ProjectContext)
    requires Apply(codec, fs, ctx).Ok?
    ensures WebAppDir(Apply(codec, fs, ctx).value, ctx.root) == WebAppDir(fs, ctx.root)
  {
    var t := WebAppDir(fs, ctx.root);
    var r := Apply(codec, fs, ctx).value;
    var webPkg := ctx.root + ["apps", "web", "package.json"];
    assert t == ctx.root ==> webPkg != t + ["src"] && webPkg != t + ["src", "index.css"] by {
      if t == ctx.root {
        assert webPkg[|ctx.root|] != (t + ["src"])[|ctx.root|];
        assert webPkg[|ctx.root|] != (t + ["src", "index.css"])[|ctx.root|];
      }
    }
    assert webPkg in r <==> webPkg in fs;
  }

  /** Applying twice leaves the project (manifest, vite config and
      stylesheet alike) as applying once: the import is never duplicated. */
  lemma ApplyIdempotent(codec: Codec, fs: FS, ctx: ProjectContext)
    requires Lawful(codec)
    requires Apply(codec, fs, ctx).Ok?
    ensures Apply(codec, Apply(codec, fs, ctx).value, ctx) == Apply(codec, fs, ctx)
  {
    ApplyKeepsTarget(codec, fs, ctx);
    ApplyAtIdempotent(codec, fs, WebAppDir(fs, ctx.root));
  }

  /** Idempotence in a fixed target. */
  lemma ApplyAtIdempotent(codec: Codec, fs: FS, t: Path)
    requires Lawful(codec)
    requires ApplyAt(codec, fs, t).Ok?
    ensures ApplyAt(codec, ApplyAt(codec, fs, t).value, t) == ApplyAt(codec, fs, t)
  {
    var pkg := t + ["package.json"];
    var vite := t + ["vite.config.ts"];
    var m := ReadJson(codec, fs, pkg).value;
    var r := ApplyAt(codec, fs, t).value;
    var fs1 := UpdateManifest(codec, fs, pkg, AddedDevDeps, None).value;
    assert Parent(pkg) == t && pkg != t;
    assert pkg != vite by { assert pkg[|t|] != vite[|t|]; }
    assert pkg != t + ["src", "index.css"] by { assert |pkg| != |t + ["src", "index.css"]|; }
    assert r == Steps(fs1, t).value;
    EditIdempotent(m, AddedDevDeps, None);
    assert IsDir(r, t) by {
      assert |t| < |pkg| && |t| < |vite| && |t| < |t + ["src", "index.css"]|;
    }
    UpdateManifestSettled(codec, r, pkg, AddedDevDeps, None, m);
    assert vite != t + ["src"] && vite != t + ["src", "index.css"] by {
      assert vite[|t|] != (t + ["src"])[|t|];
    }
    StepsSettled(r, t);
  }

  /** The fixed point: after `apply`, re-probing the project succeeds and
      `detect` is true, through the dependency now in the target's
      manifest. */
  lemma ApplyThenDetect(codec: Codec, fs: FS, ctx: ProjectContext)
    requires Lawful(codec)
    requires DetectProjectContext(codec, fs, ctx.root) == Ok(ctx)
    requires Apply(codec, fs, ctx).Ok?
    ensures var r := Apply(codec, fs, ctx).value;
      DetectProjectContext(codec, r, ctx.root).Ok? &&
      Detect(codec, r, DetectProjectContext(codec, r, ctx.root).value) == Ok(true)
  {
    var t := WebAppDir(fs, ctx.root);
    var r := Apply(codec, fs, ctx).value;
    var rootPkg := ctx.root + ["package.json"];
    ApplyManifest(codec, fs, ctx);
    ApplyKeepsTarget(codec, fs, ctx);
    if t == ctx.root {
      ReprobeAfterWrite(codec, r, ctx.root, ReadJson(codec, r, rootPkg).value);
    } else {
      ApplyKeepsRootManifest(codec, fs, ctx);
      ReprobeUnchangedManifest(codec, fs, r, ctx.root);
    }
  }
}

=== FILE: template_tree.dfy ===
/** The two project types (src/types/project.ts). */
module ProjectTypes {
  datatype ProjectType = Frontend | Backend

  /** The string the program uses for the type, also the template
      sub-directory name. */
  function TypeName(t: ProjectType): string {
    match t
    case Frontend => "frontend"
    case Backend => "backend"
  }
}

/** A template directory as `readdir` presents it: an ordered sequence of
    entries, each a file with text content or a sub-directory.  The same
    tree type describes the packaged template store (`dist/templates`).

    Also: the `.tpl` marker removal and the `{{key}}` substitution that
    src/utils/copyTemplate.ts applies to names and contents. */
module TemplateTree {
  import opened Wrappers
  import opened Strings

  datatype Entry =
    | FileEntry(name: string, content: string)
    | DirEntry(name: string, children: seq<Entry>)

  /** Termination measure shared by the recursive walks. */
  function Size(e: Entry): (n: nat)
    ensures n >= 1
  {
    match e
    case FileEntry(_, _) => 1
    case DirEntry(_, children) => 1 + SizeAll(children)
  }

  function SizeAll(entries: seq<Entry>): nat {
    if |entries| == 0 then 0 else Size(entries[0]) + SizeAll(entries[1..])
  }

  // -------------------------------------------------------------------
  // Entry names

  const Marker := ".tpl"

  /** `entry.replace('.tpl', '')`: deletes the first `.tpl` in the name. */
  function StripTpl(name: string): (r: string)
    ensures !Contains(name, Marker) ==> r == name
    ensures Contains(name, Marker) ==> |r| == |name| - |Marker|
  {
    ReplaceFirst(name, Marker, "")
  }

  /** A name without the marker keeps its name. */
  lemma StripTplNoMarker(name: string)
    requires !Contains(name, Marker)
    ensures StripTpl(name) == name
  {
  }

  /** Stripping deletes exactly one marker, at its first occurrence:
      putting the marker back at that index restores the original name. */
  lemma StripTplReinsert(name: string)
    requires Contains(name, Marker)
    ensures var i := FindFirst(name, Marker).value;
      i <= |StripTpl(name)| &&
      StripTpl(name)[..i] + Marker + StripTpl(name)[i..] == name
  {
    var i := FindFirst(name, Marker).value;
    var r := StripTpl(name);
    assert r == name[..i] + name[i + 4..];
    assert r[..i] == name[..i];
    assert r[i..] == name[i + 4..];
    assert name == name[..i] + name[i..i + 4] + name[i + 4..];
  }

  /** A name with no dot contains no marker. */
  lemma NoDotNoMarker(b: string)
    requires forall k :: 0 <= k < |b| ==> b[k] != '.'
    ensures !Contains(b, Marker)
  {
    forall j | 0 <= j && j + 4 <= |b|
      ensures !OccursAt(b, Marker, j)
    {
      assert b[j..j + 4][0] == b[j];
    }
    var f := FindFirst(b, Marker);
    assert !OccursAt(b, Marker, if f.Some? then f.value else 0);
  }

  /** A marker appended to a name without one is the marker that goes:
      `gitignore.tpl` becomes `gitignore`. */
  lemma StripTplSuffix(base: string)
    requires !Contains(base, Marker)
    ensures StripTpl(base + Marker) == base
  {
    var s := base + Marker;
    var n := |base|;
    assert s[n..n + 4] == Marker;
    assert OccursAt(s, Marker, n);
    forall j | 0 <= j < n
      ensures !OccursAt(s, Marker, j)
    {
      if j + 4 <= n {
        assert s[j..j + 4] == base[j..j + 4];
        assert !OccursAt(base, Marker, j);
      } else {
        var k := n - j;
        assert s[j..j + 4][k] == s[n] == '.';
        assert Marker[k] != '.';
      }
    }
    var f := FindFirst(s, Marker);
    assert f.Some? && f.value <= n;
    assert f.value == n;
    assert s[..n] == base;
    assert s[n + 4..] == [];
  }

  /** A template's `gitignore.tpl` is written as `gitignore`. */
  lemma StripTplGitignore()
    ensures StripTpl("gitignore" + Marker) == "gitignore"
  {
    var base := "gitignore";
    forall k | 0 <= k < |base|
      ensures base[k] != '.'
    {
      assert k == 0 || k == 1 || k == 2 || k == 3 || k == 4 || k == 5 || k == 6 || k == 7 || k == 8;
    }
    NoDotNoMarker(base);
    StripTplSuffix(base);
  }

  /** The destination path segments of a template-relative path: the marker
      is stripped from every segment. */
  function StripEach(rel: seq<string>): (r: seq<string>)
    ensures |r| == |rel|
    ensures forall k :: 0 <= k < |rel| ==> r[k] == StripTpl(rel[k])
  {
    if |rel| == 0 then [] else [StripTpl(rel[0])] + StripEach(rel[1..])
  }

  // -------------------------------------------------------------------
  // Looking entries up

  /** What a path inside a tree names. */
  datatype Found = FoundFile(content: string) | FoundDir(children: seq<Entry>)

  /** The first entry with the given name. */
  function Find(entries: seq<Entry>, name: string): (r: Option<nat>)
    ensures r.Some? ==> r.value < |entries| && entries[r.value].name == name
    ensures r.Some? ==> forall j :: 0 <= j < r.value ==> entries[j].name != name
    ensures r.None? ==> forall j :: 0 <= j < |entries| ==> entries[j].name != name
  {
    if |entries| == 0 then None
    else if entries[0].name == name then Some(0)
    else match Find(entries[1..], name)
      case None => None
      case Some(k) => Some(k + 1)
  }

  /** What `fs.pathExists` / `fs.stat` would find at a relative path:
      nothing, a file, or a directory. */
  function Lookup(entries: seq<Entry>, rel: seq<string>): Option<Found>
    decreases |rel|, 0
  {
    if |rel| == 0 then Some(FoundDir(entries))
    else match Find(entries, rel[0])
      case None => None
      case Some(k) => LookupEntry(entries[k], rel[1..])
  }

  /** What lies at a relative path below one entry. */
  function LookupEntry(e: Entry, rest: seq<string>): Option<Found>
    decreases |rest|, 1
  {
    match e
    case FileEntry(_, c) => if |rest| == 0 then Some(FoundFile(c)) else None
    case DirEntry(_, children) => Lookup(children, rest)
  }

  /** Looking past a first entry with another name. */
  lemma LookupSkip(entries: seq<Entry>, rel: seq<string>)
    requires |entries| > 0 && |rel| > 0 && entries[0].name != rel[0]
    ensures Lookup(entries[1..], rel) == Lookup(entries, rel)
  {
    match Find(entries[1..], rel[0])
    case None =>
    case Some(k) => assert entries[1..][k] == entries[k + 1];
  }

  // -------------------------------------------------------------------
  // Well-formed templates

  /** No two entries of one directory land on the same destination name. */
  predicate DistinctStripped(entries: seq<Entry>) {
    forall i, j :: 0 <= i < j < |entries| ==> StripTpl(entries[i].name) != StripTpl(entries[j].name)
  }

  /** A destination name that `path.join` keeps as one new segment: not
      empty, and not `.` or `..`, which it would resolve to the target
      itself or to its parent. */
  predicate PlainName(name: string) {
    name != "" && name != "." && name != ".."
  }

  /** Every directory of the template has distinct, plain destination
      names, so the copy writes every file to its own path. */
  predicate WellFormed(entries: seq<Entry>)
    decreases SizeAll(entries)
  {
    && DistinctStripped(entries)
    && (forall i :: 0 <= i < |entries| ==> PlainName(StripTpl(entries[i].name)))
    && (|entries| > 0 ==> (
         SizeAllSplit(entries);
         && (entries[0].DirEntry? ==> (DirSize(entries[0]); WellFormed(entries[0].children)))
         && WellFormed(entries[1..])))
  }

  /** Distinct destination names imply distinct source names. */
  lemma DistinctNames(entries: seq<Entry>, i: int, j: int)
    requires DistinctStripped(entries) && 0 <= i < |entries| && 0 <= j < |entries| && i != j
    ensures entries[i].name != entries[j].name
  {
    if i < j {
      assert StripTpl(entries[i].name) != StripTpl(entries[j].name);
    } else {
      assert StripTpl(entries[j].name) != StripTpl(entries[i].name);
    }
  }

  lemma SizeAllSplit(entries: seq<Entry>)
    requires |entries| > 0
    ensures SizeAll(entries) == Size(entries[0]) + SizeAll(entries[1..])
    ensures Size(entries[0]) >= 1
  {
  }

  lemma DirSize(e: Entry)
    requires e.DirEntry?
    ensures SizeAll(e.children) < Size(e)
  {
  }

  /** Every entry of a well-formed directory is well formed, and a
      sub-directory's children are. */
  lemma {:induction false} WellFormedElement(entries: seq<Entry>, i: int)
    requires WellFormed(entries) && 0 <= i < |entries|
    ensures PlainName(StripTpl(entries[i].name))
    ensures entries[i].DirEntry? ==> WellFormed(entries[i].children)
    decreases |entries|
  {
    SizeAllSplit(entries);
    if entries[0].DirEntry? { DirSize(entries[0]); }
    if i > 0 {
      WellFormedElement(entries[1..], i - 1);
      assert entries[1..][i - 1] == entries[i];
    }
  }

  /** A suffix of a well-formed directory is well formed. */
  lemma WellFormedTail(entries: seq<Entry>)
    requires WellFormed(entries) && |entries| > 0
    ensures WellFormed(entries[1..])
  {
    SizeAllSplit(entries);
    if entries[0].DirEntry? { DirSize(entries[0]); }
  }

  // -------------------------------------------------------------------
  // Placeholder substitution

  /** The placeholder text for a variable: `{{key}}`. */
  function Token(key: string): (r: string)
    ensures |r| == |key| + 4
  {
    "{{" + key + "}}"
  }

  /** `for (const [key, value] of Object.entries(vars)) content =
      content.replaceAll(`{{${key}}}`, value)`, with `vars` in insertion
      order. */
  function Substitute(content: string, vars: seq<(string, string)>): string
    decreases |vars|
  {
    if |vars| == 0 then content
    else Substitute(ReplaceAll(content, Token(vars[0].0), vars[0].1), vars[1..])
  }

  /** Content mentioning none of the variables' tokens is copied unchanged. */
  lemma {:induction false} SubstituteNoTokens(content: string, vars: seq<(string, string)>)
    requires forall i :: 0 <= i < |vars| ==> !Contains(content, Token(vars[i].0))
    ensures Substitute(content, vars) == content
    decreases |vars|
  {
    if |vars| > 0 {
      ReplaceAllNoOccurrence(content, Token(vars[0].0), vars[0].1);
      assert forall i :: 0 <= i < |vars[1..]| ==> vars[1..][i] == vars[i + 1];
      SubstituteNoTokens(content, vars[1..]);
    }
  }

  /** The substitution is the left fold of `replaceAll` over the keys in
      order: adding one more variable at the end replaces its token in the
      result of all earlier ones. */
  lemma {:induction false} SubstituteSnoc(content: string, vars: seq<(string, string)>, key: string, value: string)
    ensures Substitute(content, vars + [(key, value)]) == ReplaceAll(Substitute(content, vars), Token(key), value)
    decreases |vars|
  {
    if |vars| == 0 {
      assert vars + [(key, value)] == [(key, value)];
    } else {
      assert (vars + [(key, value)])[1..] == vars[1..] + [(key, value)];
      SubstituteSnoc(ReplaceAll(content, Token(vars[0].0), vars[0].1), vars[1..], key, value);
    }
  }

  /** With a single variable every piece between its tokens is kept;
      every token becomes the value's expansion when that does not depend
      on the token's position, which is the value itself when it has no
      `$`. */
  lemma SubstituteSingle(content: string, key: string, value: string)
    ensures ContextFree(value) ==>
      Substitute(content, [(key, value)]) == Join(SplitOn(content, Token(key)), Expand(value, Token(key), "", ""))
    ensures '$' !in value ==> Substitute(content, [(key, value)]) == Join(SplitOn(content, Token(key)), value)
    ensures Join(SplitOn(content, Token(key)), Token(key)) == content
  {
    ReplaceAllIsSplitJoin(content, Token(key), value);
    SplitJoinRoundTrip(content, Token(key));
  }

  /** Text that cannot start the pattern is copied by the scan, and joins
      the scanned part. */
  lemma {:induction false} ReplaceInSkips(before: string, a: string, s: string, pat: string, rep: string)
    requires |pat| > 0
    requires forall k :: 0 <= k < |a| ==> a[k] != pat[0]
    ensures ReplaceIn(before, a + s, pat, rep) == a + ReplaceIn(before + a, s, pat, rep)
    decreases |a|
  {
    if |a| > 0 {
      var t := a + s;
      assert t[0] == a[0];
      if |t| >= |pat| {
        assert t[..|pat|][0] != pat[0];
        assert t[..|pat|] != pat;
      }
      assert t[1..] == a[1..] + s;
      assert ReplaceIn(before, t, pat, rep) == [a[0]] + ReplaceIn(before + [a[0]], a[1..] + s, pat, rep);
      ReplaceInSkips(before + [a[0]], a[1..], s, pat, rep);
      assert before + [a[0]] + a[1..] == before + a;
      assert [a[0]] + (a[1..] + ReplaceIn(before + a, s, pat, rep)) == a + ReplaceIn(before + a, s, pat, rep);
    } else {
      assert a + s == s;
      assert before + a == before;
    }
  }

  /** An occurrence at the front is replaced by the expansion in its
      context. */
  lemma ReplaceInToken(before: string, s: string, pat: string, rep: string)
    requires |pat| > 0
    ensures ReplaceIn(before, pat + s, pat, rep) == Expand(rep, pat, before, s) + ReplaceIn(before + pat, s, pat, rep)
  {
    var t := pat + s;
    assert t[..|pat|] == pat;
    assert t[|pat|..] == s;
  }

  /** A text shorter than the pattern is kept. */
  lemma ReplaceInShort(before: string, c: string, pat: string, rep: string)
    requires |pat| > 0 && |c| < |pat|
    ensures ReplaceIn(before, c, pat, rep) == c
  {
  }

  /** A text that cannot start the pattern, then the pattern, then `s`:
      the text is kept and the pattern replaced by its expansion there. */
  lemma ReplaceInOnce(before: string, x: string, a: string, s: string, pat: string, rep: string)
    requires |pat| > 0 && x == a + pat + s
    requires forall k :: 0 <= k < |a| ==> a[k] != pat[0]
    ensures ReplaceIn(before, x, pat, rep) == a + Expand(rep, pat, before + a, s) + ReplaceIn(before + a + pat, s, pat, rep)
  {
    ReplaceInSkips(before, a, pat + s, pat, rep);
    ReplaceInToken(before + a, s, pat, rep);
    assert x == a + (pat + s);
  }

  /** Two occurrences of a pattern between texts that cannot start it are
      both replaced, each by the expansion in its own context, and the
      texts are kept. */
  lemma ReplaceAllTwice(x: string, a: string, b: string, c: string, pat: string, rep: string)
    requires |pat| > 0 && |c| < |pat| && x == a + pat + b + pat + c
    requires forall k :: 0 <= k < |a| ==> a[k] != pat[0]
    requires forall k :: 0 <= k < |b| ==> b[k] != pat[0]
    ensures ReplaceAll(x, pat, rep) == a + Expand(rep, pat, a, b + pat + c) + b + Expand(rep, pat, a + pat + b, c) + c
  {
    var rest := b + pat + c;
    FirstOfTwo(x, a, rest, pat, rep);
    SecondOfTwo(a + pat, b, c, pat, rep);
    ConcatAssoc5(a, Expand(rep, pat, a, rest), b, Expand(rep, pat, a + pat + b, c), c);
  }

  /** The first of two occurrences, seen from the start of the string. */
  lemma FirstOfTwo(x: string, a: string, rest: string, pat: string, rep: string)
    requires |pat| > 0 && x == a + pat + rest
    requires forall k :: 0 <= k < |a| ==> a[k] != pat[0]
    ensures ReplaceAll(x, pat, rep) == a + Expand(rep, pat, a, rest) + ReplaceIn(a + pat, rest, pat, rep)
  {
    ReplaceInOnce("", x, a, rest, pat, rep);
    assert "" + a == a;
  }

  /** The second of two occurrences, scanned after the text `done`. */
  lemma SecondOfTwo(done: string, b: string, c: string, pat: string, rep: string)
    requires |pat| > 0 && |c| < |pat|
    requires forall k :: 0 <= k < |b| ==> b[k] != pat[0]
    ensures ReplaceIn(done, b + pat + c, pat, rep) == b + Expand(rep, pat, done + b, c) + c
  {
    ReplaceInOnce(done, b + pat + c, b, c, pat, rep);
    ReplaceInShort(done + b + pat, c, pat, rep);
  }

  lemma ConcatAssoc5(a: string, e1: string, b: string, e2: string, c: string)
    ensures a + e1 + (b + e2 + c) == a + e1 + b + e2 + c
  {
  }

  /** Two placeholders of one variable between texts that cannot start a
      token are both replaced and the texts are kept.  `` $` `` and `$'` in
      the value stand for the text before and after each placeholder; a
      value without `$` is inserted as it is. */
  lemma SubstituteTwoTokens(a: string, b: string, c: string, key: string, value: string)
    requires forall k :: 0 <= k < |a| ==> a[k] != '{'
    requires forall k :: 0 <= k < |b| ==> b[k] != '{'
    requires |c| < 4
    ensures var tok := Token(key);
      Substitute(a + tok + b + tok + c, [(key, value)])
      == a + Expand(value, tok, a, b + tok + c) + b + Expand(value, tok, a + tok + b, c) + c
    ensures '$' !in value ==> Substitute(a + Token(key) + b + Token(key) + c, [(key, value)]) == a + value + b + value + c
  {
    var tok := Token(key);
    assert tok[0] == '{';
    ReplaceAllTwice(a + tok + b + tok + c, a, b, c, tok, value);
    assert [(key, value)][1..] == [];
    if '$' !in value {
      ExpandLiteral(value, tok, a, b + tok + c);
      ExpandLiteral(value, tok, a + tok + b, c);
    }
  }

  /** The worked example `# {{projectName}}\n\nWelcome to {{projectName}}!`:
      a value without `$`, such as `my-app`, appears at both places. */
  lemma SubstituteReadmeExample(value: string)
    ensures '$' !in value ==>
      Substitute("# {{projectName}}\n\nWelcome to {{projectName}}!", [("projectName", value)])
      == "# " + value + "\n\nWelcome to " + value + "!"
  {
    var t := Token("projectName");
    assert t == "{{projectName}}";
    var x := "# " + t + "\n\nWelcome to " + t + "!";
    assert x == "# {{projectName}}\n\nWelcome to {{projectName}}!" by {
      assert "# " + t == "# {{projectName}}";
      assert "# {{projectName}}" + "\n\nWelcome to " == "# {{projectName}}\n\nWelcome to ";
      assert "# {{projectName}}\n\nWelcome to " + t == "# {{projectName}}\n\nWelcome to {{projectName}}";
    }
    SubstituteTwoTokens("# ", "\n\nWelcome to ", "!", "projectName", value);
  }

  /** A value with `$` patterns is expanded, not inserted: `a$&b` puts the
      placeholder itself between `a` and `b`, and `$$` leaves one `$`. */
  lemma SubstituteExpandsDollar()
    ensures Substitute("{{projectName}}", [("projectName", "a$&b")]) == "a{{projectName}}b"
    ensures Substitute("{{projectName}}", [("projectName", "$$")]) == "$"
  {
    var t := Token("projectName");
    assert t == "{{projectName}}";
    ReplaceInToken("", "", t, "a$&b");
    ReplaceInToken("", "", t, "$$");
    assert t + "" == t;
    assert [("projectName", "a$&b")][1..] == [];
    assert [("projectName", "$$")][1..] == [];
  }
}

=== FILE: vitest.dfy ===
/** `setupVitest` (src/utils/setupVitest.ts), shared by the monorepo
    generator, and the `vitest` feature built on it (src/features/vitest.ts). */
module Vitest {
  import opened Wrappers
  import opened Manifests
  import opened FileSystem
  import opened Probe
  import opened FeatureKit

  const Id := "vitest"

  const ConfigFiles: seq<string> := ["vitest.config.ts", "vitest.config.js", "vitest.config.mts", "vitest.config.mjs"]

  /** The `vitest.config.ts` that `setupVitest` writes. */
  const Config := "import { defineConfig } from 'vitest/config';\n\nexport default defineConfig({\n  test: {\n    globals: true,\n    environment: 'node',\n  },\n});\n"

  const AddedDevDeps: StrMap := map["vitest" := "^3.0.0"]
  const AddedScripts: StrMap := map["test" := "vitest", "test:run" := "vitest run"]

  /** What `setupVitest` needs of a project: a readable manifest, the
      project a directory, and no directory where the config goes. */
  predicate Ready(codec: Codec, fs: FS, root: Path) {
    ReadJson(codec, fs, root + ["package.json"]).Ok? && IsDir(fs, root)
    && !IsDir(fs, root + ["vitest.config.ts"])
  }

  /** `setupVitest(projectRoot)`: merges the dependency and the two test
      scripts into `package.json`, then writes `vitest.config.ts`. */
  function SetupVitest(codec: Codec, fs: FS, root: Path): (r: Result<FS>)
    ensures r.Ok? <==> Ready(codec, fs, root)
    ensures r.Ok? ==> root + ["vitest.config.ts"] in r.value && r.value[root + ["vitest.config.ts"]] == File(Config)
    ensures r.Ok? ==> r.value.Keys == fs.Keys + {root + ["package.json"], root + ["vitest.config.ts"]}
    ensures r.Ok? ==> forall q :: q in fs && q != root + ["package.json"] && q != root + ["vitest.config.ts"] ==> r.value[q] == fs[q]
    ensures r.Err? ==> r.error.FromFileSystem()
  {
    UpdateAndWrite(codec, fs, root, AddedDevDeps, Some(AddedScripts), "vitest.config.ts", Config)
  }

  /** `after` is `before` with `devDependencies.vitest`, `scripts.test`
      and `scripts["test:run"]` set to the fixed values (overwriting
      earlier ones), every other entry kept, and the other keys untouched. */
  predicate EditedForVitest(before: Manifest, after: Manifest) {
    && "vitest" in after.DevDeps() && after.DevDeps()["vitest"] == "^3.0.0"
    && "test" in after.Scripts() && after.Scripts()["test"] == "vitest"
    && "test:run" in after.Scripts() && after.Scripts()["test:run"] == "vitest run"
    && (forall k :: k in before.DevDeps() && k != "vitest" ==> k in after.DevDeps() && after.DevDeps()[k] == before.DevDeps()[k])
    && (forall k :: k in before.Scripts() && k != "test" && k != "test:run" ==> k in after.Scripts() && after.Scripts()[k] == before.Scripts()[k])
    && after.DevDeps().Keys == before.DevDeps().Keys + {"vitest"}
    && after.Scripts().Keys == before.Scripts().Keys + {"test", "test:run"}
    && after.dependencies == before.dependencies && after.others == before.others
  }

  /** The manifest edit `setupVitest` performs. */
  lemma EditIsVitestEdit(before: Manifest)
    ensures EditedForVitest(before, Edit(before, AddedDevDeps, Some(AddedScripts)))
  {
    var after := Edit(before, AddedDevDeps, Some(AddedScripts));
    assert after.DevDeps().Keys == before.DevDeps().Keys + {"vitest"};
    assert after.Scripts().Keys == before.Scripts().Keys + {"test", "test:run"};
  }

  /** The manifest on disk afterwards is the edited one. */
  lemma SetupVitestManifest(codec: Codec, fs: FS, root: Path)
    requires Lawful(codec)
    requires SetupVitest(codec, fs, root).Ok?
    ensures var pkg := root + ["package.json"];
      var after := ReadJson(codec, SetupVitest(codec, fs, root).value, pkg);
      after.Ok? && EditedForVitest(ReadJson(codec, fs, pkg).value, after.value)
  {
    UpdateAndWriteReadBack(codec, fs, root, AddedDevDeps, Some(AddedScripts), "vitest.config.ts", Config);
    EditIsVitestEdit(ReadJson(codec, fs, root + ["package.json"]).value);
  }

  /** Running `setupVitest` twice leaves the project as running it once. */
  lemma SetupVitestIdempotent(codec: Codec, fs: FS, root: Path)
    requires Lawful(codec)
    requires SetupVitest(codec, fs, root).Ok?
    ensures SetupVitest(codec, SetupVitest(codec, fs, root).value, root) == SetupVitest(codec, fs, root)
  {
    UpdateAndWriteIdempotent(codec, fs, root, AddedDevDeps, Some(AddedScripts), "vitest.config.ts", Config);
  }

  /** `detect`: a vitest config file at the root, or a `vitest` dependency
      in the probed manifest. */
  function Detect(fs: FS, ctx: ProjectContext): bool {
    ConfiguredOrDepends(fs, ctx, ConfigFiles, "vitest")
  }

  /** `apply` is `setupVitest` on the probed root: it succeeds exactly when
      the root's manifest can be read and `vitest.config.ts` is not a
      directory, and then the config holds the fixed text while only the
      manifest and the config change.  The manifest edit itself is stated
      by `SetupVitestManifest`. */
  function Apply(codec: Codec, fs: FS, ctx: ProjectContext): (r: Result<FS>)
    ensures r.Ok? <==>
      ReadJson(codec, fs, ctx.root + ["package.json"]).Ok? && IsDir(fs, ctx.root)
      && !IsDir(fs, ctx.root + ["vitest.config.ts"])
    ensures r.Ok? ==> ctx.root + ["vitest.config.ts"] in r.value && r.value[ctx.root + ["vitest.config.ts"]] == File(Config)
    ensures r.Ok? ==> forall q :: q in fs && q != ctx.root + ["package.json"] && q != ctx.root + ["vitest.config.ts"] ==>
      q in r.value && r.value[q] == fs[q]
  {
    SetupVitest(codec, fs, ctx.root)
  }

  /** The fixed point: after `apply`, `vitest.config.ts` exists, so the
      re-probed `detect` is true. */
  lemma ApplyThenDetect(codec: Codec, fs: FS, ctx: ProjectContext)
    requires Lawful(codec)
    requires Apply(codec, fs, ctx).Ok?
    ensures var fs1 := Apply(codec, fs, ctx).value;
      DetectProjectContext(codec, fs1, ctx.root).Ok? && Detect(fs1, DetectProjectContext(codec, fs1, ctx.root).value)
  {
    var fs1 := Apply(codec, fs, ctx).value;
    UpdateAndWriteReprobe(codec, fs, ctx.root, AddedDevDeps, Some(AddedScripts), "vitest.config.ts", Config);
    assert Exists(fs1, ctx.root + [ConfigFiles[0]]);
  }
}

=== FILE: wrappers.dfy ===
/** Failure-compatible wrappers shared by every module of the model.

    Every exception the command-line tool can throw becomes an `Error`
    value; an operation that may throw returns a `Result`.  Both types
    work with Dafny's `:-` operator. */
module Wrappers {

  /** A value that may be absent (`undefined` in the program). */
  datatype Option<+T> = None | Some(value: T) {
    function GetOr(default: T): T {
      match this
      case Some(v) => v
      case None => default
    }
  }

  type ProjectTypeName = string

  /** The errors the program raises, one constructor per throw site kind. */
  datatype Error =
    // file-system failures (ENOENT, EISDIR, ENOTDIR, JSON syntax)
    | NotFound(path: seq<string>)
    | IsADirectory(path: seq<string>)
    | NotADirectory(path: seq<string>)
    | InvalidJson(path: seq<string>)
    // probe
    | NoPackageJson
    // init flow
    | InvalidProjectType(given: string)
    | InvalidTemplate(given: string, available: seq<string>)
    | DirectoryExists(name: string)
    | TemplateNotFound(projectType: ProjectTypeName)
    | GitRootMissing
    | GitRepositoryExists
    | GitFailed
    | InstallFailed
    // add flow
    | UnknownFeature(given: string, available: seq<string>)
    | AllFeaturesConfigured
    | NoFeaturesSelected
    | CiProviderCancelled
    | NotRegistered(id: string)  // dereferencing what `getFeature` did not find
    // the interaction collaborator's cancellation sentinel
    | PromptCancelled
  {
    /** A failure reported by a file-system call. */
    predicate FromFileSystem() {
      NotFound? || IsADirectory? || NotADirectory? || InvalidJson?
    }
  }

  /** The outcome of an operation that may throw. */
  datatype Result<+T> = Ok(value: T) | Err(error: Error) {
    predicate IsFailure() {
      Err?
    }

    function PropagateFailure<U>(): Result<U>
      requires Err?
    {
      Err(error)
    }

    function Extract(): T
      requires Ok?
    {
      value
    }
  }

  /** JavaScript truthiness of an optional string: present and non-empty. */
  predicate Truthy(s: Option<string>) {
    s.Some? && s.value != ""
  }

  /** How a command ends on an error: silently after a cancelled prompt,
      otherwise with the error reported. */
  datatype Ending = Cancelled | Reported(error: Error)

  /** `handleError` (the same in `init` and `add`): only the cancellation
      sentinel is silent, every other error is reported as it is. */
  function HandleError(e: Error): (o: Ending)
    ensures o == Cancelled <==> e == PromptCancelled
    ensures o.Reported? ==> o.error == e
    ensures e != PromptCancelled ==> o == Reported(e)
  {
    if e == PromptCancelled then Cancelled else Reported(e)
  }
}
